=== FILE: README.md ===
# goMH core, modelled in Dafny

goMH is a Windows deployment tool. It downloads assets into a cache, unpacks or copies them into place, and installs and configures a handful of programs: an FRP client run as a service, a virtual COM-port bridge for barcode scanners, the iiko point-of-sale distributions, and a log collector. This project models the decision and transformation logic of that tool as pure Dafny functions over immutable data, and proves what the code promises about it.

Modules, following the source layout:

- `Wrappers`: `Option`, `Result` and the error kinds the tool reports.
- `Text`: the Go `strings`/`strconv` helpers the code relies on:
  - `TrimSpace`, `Split`, `Fields`, `ToLower`/`ToUpper`;
  - `Atoi`, 64-bit range included, and `Itoa`.
- `Paths`: Windows paths as (volume, rooted, segments). It defines a lexical `Clean` that resolves `.` and `..`, `Join = Clean(a ++ b)`, `Base`, `Ext`, `Dir` and `ToSlash`.
- `FileSystem`: the local disk as a finite map from clean paths to files and directories. It provides `MkdirAll`, `Create`, `ReadFile` and `Remove`.
- `Archive`: a zip as a sequence of (name, isDir, bytes) members. It models the path-traversal guard of `unzip` and the single-member `ExtractFile`.
- `AssetManager` (assetmgr/manager.go): catalog lookup, cache path, transport choice, the skip-if-same-size rule of both downloaders, `ProcessFromCache`, `Get` and `ListFTP`.
- `WinUtils` (winutils/utils.go): the interpretation of command output. Running a program is an oracle that yields an exit status and output.
- `UniversalInstaller`: the local copy of `unzip`, the menu, type dispatch, and command-line splitting.
- `Frpc`: the suffix search in a zip, the free-port scan, the frpc.ini update, and the `remote_port` regex reader.
- `VComCaster`: the VID/PID extraction, new-port detection, port roles and the scanner label.
- `ServiceUtils`: the backward chunked tail scan, directory choice, log classification, archive fallback and archive-internal names.
- `Iiko`: version discovery, the distribution menu, patch records and selection, and installer exit-code handling.
- `Sorting`, `Selection`: Go's string order, `sort.Strings`, the newest-first key order, and the numbered and comma-separated prompts.

The network, the console and child processes enter as parameters:

- HTTP and FTP replies;
- directory listings;
- typed lines;
- a `Shell` from command to exit status and output;
- a zip decoder.

Integers are unbounded. Where the Go code reads a number with `strconv.Atoi`, the 64-bit range is modelled explicitly.

## Model

| member | source | states |
|---|---|---|
| Text.Atoi | modules/serviceutils/serviceutils.go:193-195 | `strconv.Atoi`: a value exactly when the text is an optional sign followed by at least one ASCII digit and the signed value fits in 64 bits, and that value is the result; the empty string, malformed text and out-of-range numbers are errors |
| Text.ItoaAtoiRoundTrip | modules/iiko/iiko.go:204 | every 64-bit integer written in decimal reads back as itself |
| Text.AtoiLenient | modules/frpc/frpc.go:254-255 | `v, _ := strconv.Atoi(s)`: a parsed number is its value; well-formed text out of range clamps to the bound of its sign; text whose digits after the sign exceed 64 unsigned bits before the first non-digit clamps the same way, whatever follows; any other malformed text gives 0 |
| Text.AtoiLenientIgnoresRestAfterOverflow | modules/frpc/frpc.go:254-255 | once the leading digits overflow, appending any text leaves the result unchanged, so `99999999999999999999x` reads as the largest int64 |
| Text.TrimSpace | modules/serviceutils/serviceutils.go:209 | the result is a slice of the input with only spaces cut away on either side, and it neither starts nor ends with a space |
| Text.FieldsSound | modules/universalinstaller/universalinstaller.go:127 | `strings.Fields` yields only non-empty space-free words, and their concatenation is the input with its spaces removed |
| Text.FieldsOfJoinedWords | modules/universalinstaller/universalinstaller.go:127 | splitting words joined by single spaces gives the words back |
| Text.SplitJoinRoundTrip | modules/serviceutils/serviceutils.go:212 | no piece of `strings.Split` holds the separator, and joining the pieces with it restores the input |
| Text.SplitSeveralIff | modules/frpc/frpc.go:253 | a split has two or more pieces exactly when the separator occurs |
| Text.ToLower | modules/serviceutils/serviceutils.go:250 | `strings.ToLower` maps rune by rune and keeps the length |
| Text.ToLowerIdempotent | modules/serviceutils/serviceutils.go:250 | lower-casing a lower-cased name changes nothing |
| Text.ToLowerOfUpper | modules/serviceutils/serviceutils.go:342 | upper-casing first does not change the lower-cased name, unless it holds one of the two runes whose upper case is ASCII but whose lower case is itself |
| Paths.Clean | assetmgr/manager.go:294 | `filepath.Clean` on segments, without the `.\` text marker: keeps volume and rootedness and yields a clean path |
| Paths.CleanIdempotent | assetmgr/manager.go:294 | cleaning twice is cleaning once, and a path is clean exactly when cleaning leaves it unchanged |
| Paths.Join | assetmgr/manager.go:293 | `filepath.Join` of a path and a name, on segments: keeps the path's volume and rootedness and is clean (a rooted name after "" or a bare drive is not re-rooted) |
| Paths.JoinCleans | modules/universalinstaller/universalinstaller.go:169-170 | joining onto a path equals joining onto its cleaned form, for the segment-level `Join` |
| Paths.Base | assetmgr/manager.go:45 | `filepath.Base` is never empty and, except for a lone `\`, holds no separator |
| Paths.BaseOfJoined | modules/iiko/iiko.go:271 | a non-empty separator-free name is the base of any directory ending in a separator followed by that name |
| Paths.ExtOfJoined | modules/serviceutils/serviceutils.go:309 | below a directory ending in a separator, a separator-free name keeps its own extension |
| Paths.ToSlash | assetmgr/manager.go:337 | `filepath.ToSlash` turns exactly the separators into `/`, keeps every other character, and leaves no `\` |
| Paths.SameSlashForm | assetmgr/manager.go:341 | two names compare equal after `ToSlash` exactly when they have the same length and differ only where each has a separator |
| Paths.JoinName | modules/universalinstaller/universalinstaller.go:110 | joining a plain separator-free name appends it as one segment below the cleaned directory |
| FileSystem.MkdirAll | assetmgr/manager.go:80-82 | on success only directories are added, on the path's ancestors, and the path is a directory; a failure means a file stands on the path or one of its ancestors |
| FileSystem.CreateFile | assetmgr/manager.go:206-215 | creating and writing succeeds exactly when the target is not a directory and its parent is one; the file then holds the data and nothing else changes |
| FileSystem.ReadFile | modules/frpc/frpc.go:265 | reading succeeds exactly on a file, and yields its bytes |
| FileSystem.Remove | assetmgr/manager.go:213 | `os.Remove` with its error ignored: a file the process still holds open stays as it is, because Windows refuses the deletion; otherwise the path is gone; every other entry is unchanged |
| Archive.UnzipEntries | assetmgr/manager.go:292-326 | the member loop changes only paths strictly inside the cleaned destination, and every file it writes comes from some member |
| Archive.Unzip | assetmgr/manager.go:285-290 | an unreadable archive fails and changes nothing; otherwise every change is confined to the destination |
| Archive.FirstUnsafeMemberAborts | assetmgr/manager.go:293-296 | the first member escaping the destination aborts the run, and the members before it stay extracted, with no rollback |
| Archive.UnzipSequential | assetmgr/manager.go:292-326 | extracting `a + b` is extracting `a`, then `b` on its result unless `a` failed |
| Archive.MemberConfined | assetmgr/manager.go:298-325 | one member changes only allowed paths, and a directory member only adds directories |
| Archive.UnzipWritesMember | assetmgr/manager.go:307-323 | after a successful run, each file member not overwritten by a later one holds exactly its own bytes, old contents truncated |
| Archive.UnzipKeepsUntargetedFile | assetmgr/manager.go:292-326 | a file no file member targets keeps its bytes |
| Archive.PlainMemberAdmitted | assetmgr/manager.go:294 | a member made of plain pieces is admitted under any destination with at least one segment |
| Archive.EmptyDestinationAdmitsOnlyColonFirst | assetmgr/manager.go:293-294 | under a destination with no segments the guard admits a member exactly when the destination is "." and the joined path is relative with a ':' in its first element (the `.\` prefix Go's `Clean` writes); a drive root or a bare drive admits nothing |
| Archive.DotDestinationExamples | assetmgr/manager.go:293-294 | under "." the member `ab:c` is admitted and `abc` is refused |
| Archive.ClimbingMember | assetmgr/manager.go:294 | a member beginning with ".." is admitted exactly when it climbs back into the destination's last folder and names something below it |
| Archive.EvilMemberRefused | assetmgr/manager.go:294-296 | "../evil.txt" aborts with an unsafe-path error before anything is written |
| Archive.FirstNamed | assetmgr/manager.go:339-341 | the index of the first member whose slash-normalised name is the request; none exactly when no member has it |
| Archive.ExtractFile | assetmgr/manager.go:330-362 | an unreadable archive or a missing member fails with nothing created; on success the first matching member's bytes are at the destination; whatever the outcome, only the destination and new directories above it change |
| AssetManager.Store | assetmgr/manager.go:142-165 | it skips exactly when the local file exists with the positive remote size, changing nothing; a completed transfer leaves the file holding the body; a failure either changes nothing or, after an interrupted stream, leaves the bytes received so far, because the file is still open when it is removed |
| AssetManager.DownloadHTTP | assetmgr/manager.go:172-217 | success requires an answered request with status 200; without one the local file is exactly as before; a failure leaves it as before or holding the partial body of an interrupted stream; only the local path and its parent directories change |
| AssetManager.DownloadFTP | assetmgr/manager.go:118-168 | success requires dial and login; a failed SIZE counts as -1 and forces the transfer; a fresh file holds the retrieved data; without dial, login and RETR the local file is exactly as before; a failure leaves it as before or holding the partial data of an interrupted stream |
| AssetManager.HttpDownloadThenSkip | assetmgr/manager.go:195-201 | after a successful HTTP download with a positive announced length, the same download again is a skip that changes nothing |
| AssetManager.FtpDownloadThenSkip | assetmgr/manager.go:141-146 | the same for FTP when SIZE answers the data's length |
| AssetManager.StoreKeepsParent | assetmgr/manager.go:176-178 | after storing, the parent of the local path is a directory |
| AssetManager.TransportSpellings | assetmgr/manager.go:48-61 | HTTP is chosen exactly for the empty method and case variants of "http"; FTP exactly for case variants of "ftp" |
| AssetManager.TransportOf | assetmgr/manager.go:48-60 | an unsupported method is reported upper-cased |
| AssetManager.UrlPath | assetmgr/manager.go:57-58 | the URL path handed to FTP holds no query or fragment |
| AssetManager.PathAfterScheme | assetmgr/manager.go:57-58 | `url.Parse` path: a suffix of the text, and the whole text for a scheme-less URL starting with "///" (no authority is read there) |
| AssetManager.UrlPathOfTripleSlash | assetmgr/manager.go:57-58 | a scheme-less "///..." URL without query or fragment is its own path |
| AssetManager.UrlPathOfComposed | assetmgr/manager.go:57-58 | the path of `scheme://host/path` is `/path` |
| AssetManager.CachePathByBaseName | assetmgr/manager.go:45-46 | two URLs with the same base name share one cache file |
| AssetManager.DownloadToCache | assetmgr/manager.go:39-67 | an unknown name or transport fails before any transfer; an FTP URL that `url.Parse` rejects panics on the nil result; on success the cache path is the cache directory joined with the URL's base name and holds either the received bytes or the file that was already there; a failure leaves it as before or holding a partial transfer |
| AssetManager.CopyFile | assetmgr/manager.go:267-282 | a missing source fails; only the destination changes |
| AssetManager.ProcessFromCache | assetmgr/manager.go:71-98 | an unknown name fails untouched; a failing `MkdirAll` of the final directory is returned; a "zip" asset is exactly the unzip of the cache file into the final directory, a "file" asset exactly the copy of the cache file to the URL's base name inside it, and any other type, case-sensitively, fails after creating the directory |
| AssetManager.ProcessedFileCopied | assetmgr/manager.go:89-92 | after a successful "file" asset the installed file holds the cached file's bytes (none when it is the cache file itself) |
| AssetManager.ProcessedZipPlacesMember | assetmgr/manager.go:85-88 | after a successful "zip" asset every file member not overwritten by a later one holds its own bytes below the final directory |
| AssetManager.UnzipKeepsDestination | assetmgr/manager.go:80-88 | unpacking into an existing clean directory leaves it a directory |
| AssetManager.Get | assetmgr/manager.go:102-114 | an unknown name fails untouched; a download error is returned as it is; otherwise the result succeeds exactly when processing does, carries processing's error, and on success answers `RootPath/Destination` of that asset |
| AssetManager.GetDeliversDownloadedFile | assetmgr/manager.go:102-114 | a "file" asset fetched over HTTP with no cached copy is installed holding exactly the bytes the server sent |
| AssetManager.KindCodeRoundTrip | assetmgr/manager.go:238-242 | distinct entry kinds get distinct codes, and each code decodes back |
| AssetManager.ListFTP | assetmgr/manager.go:220-244 | it succeeds exactly when dial, login and LIST do, and then reports every entry in order with its name and kind code |
| WinUtils.RunCommand | winutils/utils.go:23-31 | success exactly on exit 0, with trimmed output; a failure carries only the formatted message |
| WinUtils.ExitStatusText | winutils/utils.go:28 | the `%v` of an exit error, as `ProcessState.String` writes it on Windows: a code below 65536 in decimal that `Atoi` reads back, any other code as "0x" and lowercase hex digits whose value is the code as an unsigned 64-bit word |
| Text.LowerHex | winutils/utils.go:28 | lowercase hexadecimal digits without a leading zero whose value is the number |
| WinUtils.MatchesComPortIff | winutils/utils.go:167-171 | a line matches `(COM\d+)` exactly when "COM" followed by a digit occurs in it |
| WinUtils.ComLinesSound | winutils/utils.go:169-174 | every kept line is trimmed and names a port |
| WinUtils.ComLinesAppend | winutils/utils.go:169-174 | the line filter distributes over concatenation, so order is kept |
| WinUtils.ComLinesOfOne | winutils/utils.go:170-173 | a single line is kept, trimmed, exactly when it names a port |
| WinUtils.GetComPorts | winutils/utils.go:159-176 | it fails exactly when wmic fails; otherwise the result is the matching trimmed output lines |
| WinUtils.AnyImageMatches | winutils/utils.go:195-207 | true exactly when some record's image name starts with the name, case-insensitively |
| WinUtils.IsProcessRunning | winutils/utils.go:178-211 | it fails exactly when tasklist fails or its output is not CSV; true exactly when some record matches |
| WinUtils.ServiceExists | winutils/utils.go:247-266 | success means yes; a failure mentioning "does not exist" or "1060" means no; any other failure is an error |
| WinUtils.HexExitCodeMeansMissing | winutils/utils.go:259 | an `sc query` ending with exit code 0x11060 is reported as a missing service, because its status text "exit status 0x11060" contains "1060" |
| WinUtils.ServiceNameCanMaskErrors | winutils/utils.go:259 | a service whose name contains "1060" is reported missing whenever `sc query` fails for it |
| WinUtils.ManageService | winutils/utils.go:213-224 | it runs `sc.exe action name` and succeeds whatever the command did |
| WinUtils.AddDefenderExclusion | winutils/utils.go:226-238 | it runs the PowerShell statement and succeeds whatever it did |
| WinUtils.ExclusionQuoting | winutils/utils.go:228 | the quoted literal carries exactly the path if and only if the path has no single quote |
| WinUtils.TriggersCommand | winutils/utils.go:271-274 | the command is `sc.exe triggerinfo name` followed by the triggers |
| WinUtils.SetServiceTriggers | winutils/utils.go:270-281 | it succeeds exactly when the sc.exe command does |
| UniversalInstaller.UnzipLocal | modules/universalinstaller/universalinstaller.go:161-203 | the local copy of `unzip` has the same effect as the asset manager's on every input |
| UniversalInstaller.ExtractOne | modules/universalinstaller/universalinstaller.go:174-200 | one member of the copy has the same effect as one member of the original |
| UniversalInstaller.KindSpellings | modules/universalinstaller/universalinstaller.go:59-66 | the installer branch runs exactly for case variants of "installer", the archive branch for those of "archive", and anything else is an error |
| UniversalInstaller.MenuChoice | modules/universalinstaller/universalinstaller.go:90-103 | a trimmed "0" exits; an integer in 1..len picks `items[n-1]`; anything else re-prompts |
| UniversalInstaller.MenuPicksNumberedItem | modules/universalinstaller/universalinstaller.go:84-103 | typing the number an item is shown with picks that item |
| UniversalInstaller.ShowInstallMenu | modules/universalinstaller/universalinstaller.go:82-104 | the first line that does not re-prompt decides |
| UniversalInstaller.ResourcePath | modules/universalinstaller/universalinstaller.go:109-110 | the resource path follows the catalog's cache-path rule, and a URL whose base name is an ordinary file name lands directly inside the cleaned cache directory under that name |
| UniversalInstaller.InstallerCommand | modules/universalinstaller/universalinstaller.go:127-128 | the installer runs with the whitespace fields of its arguments: non-empty, space-free words whose concatenation is the arguments without spaces |
| UniversalInstaller.InstallerCommandOfWords | modules/universalinstaller/universalinstaller.go:127 | arguments written as single-space-separated words reach the installer as exactly those words |
| UniversalInstaller.RunAfterCommand | modules/universalinstaller/universalinstaller.go:144-153 | empty means no command; all-space is an error; otherwise the first field is the program and the rest its arguments |
| UniversalInstaller.RunAfterOfJoinedWords | modules/universalinstaller/universalinstaller.go:146-152 | a command written as words separated by single spaces comes back as that program and those arguments |
| UniversalInstaller.HandleArchive | modules/universalinstaller/universalinstaller.go:133-157 | success requires a valid run-after line whose command, when there is one, succeeded |
| UniversalInstaller.Install | modules/universalinstaller/universalinstaller.go:52-70 | a failed download or an unknown type fails; in the installer branch success means the installer command succeeded |
| Frpc.FindPathInZip | modules/frpc/frpc.go:185-204 | it returns the unnormalised name of the first file member whose slash-normalised name ends with the normalised suffix; otherwise an error naming that suffix |
| Frpc.FoundMemberIsExtractable | modules/frpc/frpc.go:142-150 | the name found is one `ExtractFile` locates, and the member it copies ends with the suffix |
| Frpc.FetchMember | modules/frpc/frpc.go:136-151 | success means the download succeeded and the destination holds the bytes of a member whose slash-normalised name ends with the suffix |
| Frpc.DownloadAndExtract | modules/frpc/frpc.go:132-183 | a failure of the frpc.exe step is the result, unchanged; success means that step succeeded and nssm.exe is in the install directory |
| Frpc.ManualPort | modules/frpc/frpc.go:228-240 | the first line that reads as an integer is taken as it is, with no range check; none while every line is rejected |
| Frpc.RangeBounds | modules/frpc/frpc.go:253-255 | the range yields bounds exactly when it holds a '-', and both bounds are 64-bit |
| Frpc.RangeOfBounds | modules/frpc/frpc.go:253-255 | "a-b" with decimal bounds gives (a, b) |
| Frpc.ScanPorts | modules/frpc/frpc.go:256-261 | the smallest unused port in [lo, hi]; none exactly when all are used |
| Frpc.ScanPortsAsWritten | modules/frpc/frpc.go:256-260 | with `hi` the largest int, the loop always yields a port, and a port outside the range only when the range is exhausted |
| Frpc.ScanWrapsAround | modules/frpc/frpc.go:256 | with range MaxInt64-MaxInt64 and that port used, the loop returns MinInt64 where the scan should fail |
| Frpc.FindFreePort | modules/frpc/frpc.go:206-262 | an API error is returned; an offline proxy switches to manual entry; a range without '-' panics; otherwise the smallest port in range that neither the server proxies nor frpc.ini use, and an error exactly when every one is used |
| Frpc.RemotePortDigitsComplete | modules/frpc/frpc.go:322-326 | every line of the shape `\s*remote_port\s*=\s*\d+…` reports exactly its digit run |
| Frpc.RemotePortDigitsSound | modules/frpc/frpc.go:322-326 | every reported digit run comes from a line of that shape |
| Frpc.RemotePortIgnoresCR | modules/frpc/frpc.go:324-325 | a trailing '\r' never changes what a line reports |
| Frpc.PortOfLine | modules/frpc/frpc.go:325-328 | a line reports a port exactly when it matches, and the port is 64-bit |
| Frpc.PortsOfLinesAppend | modules/frpc/frpc.go:324-330 | the reported ports follow line order |
| Frpc.LocalUsedPorts | modules/frpc/frpc.go:317-321 | an unreadable frpc.ini claims no ports |
| Frpc.IniLines | modules/frpc/frpc.go:264-277 | the starting lines are the file split at '\n', or the default header |
| Frpc.UpdateFrpcIni | modules/frpc/frpc.go:278-296 | nothing is written exactly when some trimmed line is `[alias-MH]`; otherwise the old lines and the six new ones are written, joined with CRLF |
| Frpc.UpdateIsIdempotent | modules/frpc/frpc.go:276-285 | a second update with the same alias writes nothing, whatever the ports |
| Frpc.SectionSurvivesSplit | modules/frpc/frpc.go:276-288 | the written header comes back from the '\n' split with one '\r' behind it |
| Frpc.CarriageReturnsAccumulate | modules/frpc/frpc.go:276-288 | as written, each update adds a '\r' to every earlier line, so an earlier write is not a prefix of the next |
| Frpc.UpdateFrpcIniCorrected | modules/frpc/frpc.go:276-288 | the same decision, with each line's own '\r' removed before the CRLF join |
| Frpc.UpdateCorrectedIsIdempotent | modules/frpc/frpc.go:278-295 | the corrected update with the same alias again writes nothing |
| Frpc.CorrectedUpdateAppendsOnly | modules/frpc/frpc.go:286-288 | a second corrected update leaves every byte of the first write in place |
| Frpc.NewSectionPortIsReported | modules/frpc/frpc.go:249-251 | reading back a corrected write reports the earlier ports, then the new remote port |
| Frpc.StartingLinesReport | modules/frpc/frpc.go:265-277 | the corrected starting lines report what the file reports, and the default header reports nothing |
| Frpc.CrLinesReportSame | modules/frpc/frpc.go:324-325 | the '\r' a CRLF split leaves changes no report |
| Frpc.RunInOrder | modules/frpc/frpc.go:308-313 | success exactly when every command exits 0; otherwise the error names the first failing command's first argument |
| Frpc.SetupNssmService | modules/frpc/frpc.go:298-316 | success exactly when the install, start-mode and working-directory commands all succeed; a failed install is reported with its error text |
| VComCaster.ExtractDeviceID | modules/vcomcaster/vcomcaster.go:48-61 | the identifier is no longer than the input |
| VComCaster.ExtractTakesLeftmost | modules/vcomcaster/vcomcaster.go:53-60 | empty exactly when no case-insensitive `USB\VID_…&PID_…` occurs; otherwise the capture of the leftmost match |
| VComCaster.MatchAtSound | modules/vcomcaster/vcomcaster.go:53 | a match has `VID_` after `USB\`, a VID without '&', then `&PID_` and a non-empty PID of neither '&' nor '\' |
| VComCaster.MatchFixed | modules/vcomcaster/vcomcaster.go:53 | a match is fixed by where it starts: the first '&' after `VID_`, then the longest PID run |
| VComCaster.FirstMatch | modules/vcomcaster/vcomcaster.go:54 | the leftmost start of a match, none exactly when there is none |
| VComCaster.ExtractBuiltId | modules/vcomcaster/vcomcaster.go:53-57 | an identifier of the usual shape is read back whole |
| VComCaster.NewPortsMembers | modules/vcomcaster/vcomcaster.go:381-393 | a port is new exactly when it is listed after and not before |
| VComCaster.NewPortsCounts | modules/vcomcaster/vcomcaster.go:386-391 | every new port keeps all its repeats, and the others are dropped |
| VComCaster.NewPortsAppend | modules/vcomcaster/vcomcaster.go:387-391 | the filter keeps the listing order |
| VComCaster.AssignRoles | modules/vcomcaster/vcomcaster.go:105-110 | two or more ports are sorted; the output port is the first, or "" when there is none; the iiko port exists exactly when there are at least two |
| VComCaster.RolesIgnoreListingOrder | modules/vcomcaster/vcomcaster.go:109 | with two or more ports, the roles do not depend on the listing order |
| VComCaster.ScannerLabel | modules/vcomcaster/vcomcaster.go:126-133 | the label starts with the caption and shows the port in parentheses |
| VComCaster.LabelIdempotent | modules/vcomcaster/vcomcaster.go:126-133 | labelling a label again changes nothing |
| VComCaster.InstallSettings | modules/vcomcaster/vcomcaster.go:104-160 | a scanner query error is returned and no scanner is an error; the choice must be in 1..len; on success the chosen scanner gives the input port and the device id |
| VComCaster.TypedScannerChosen | modules/vcomcaster/vcomcaster.go:137-146 | typing a scanner's number picks that scanner |
| Sorting.SortStrings | modules/vcomcaster/vcomcaster.go:109 | `sort.Strings` yields a sorted permutation of its input |
| Sorting.SortedUnique | modules/vcomcaster/vcomcaster.go:109 | two sorted permutations of the same strings are equal |
| Sorting.Descending | modules/iiko/iiko.go:177-181 | the keys, strictly newest first, each exactly once |
| Sorting.DescendingUnique | modules/iiko/iiko.go:178-181 | the newest-first order does not depend on map iteration order |
| Selection.ChooseNumber | modules/vcomcaster/vcomcaster.go:138-142 | a number is chosen exactly when the trimmed line reads as an integer within the range |
| Selection.ChooseTypedNumber | modules/vcomcaster/vcomcaster.go:138-142 | a number typed with Enter is chosen exactly when it lies in the range |
| Selection.PickByNumbers | modules/serviceutils/serviceutils.go:211-220 | comma-separated numbers pick items from the list, no more than there are entries |
| Selection.PickTypedNumbers | modules/serviceutils/serviceutils.go:212-220 | typing valid numbers separated by commas picks exactly those items, in order and with repeats |
| ServiceUtils.FindStartOfLastNLines | modules/serviceutils/serviceutils.go:589-643 | the 4096-byte chunked backward read returns the same position as one backward scan of the whole content |
| ServiceUtils.TailStartCounts | modules/serviceutils/serviceutils.go:595-642 | a nonzero result follows a '\n' and holds exactly n newlines from it; the result is 0 exactly when the file has fewer; an empty file gives 0 |
| ServiceUtils.AsWrittenTailShowsOneLineFewer | modules/serviceutils/serviceutils.go:625-631 | for a file ending in '\n', the tail shows one line fewer than asked |
| ServiceUtils.TwoLineTail | modules/serviceutils/serviceutils.go:623-631 | the tail of "a\nb\n" for two lines starts at "b" |
| ServiceUtils.CorrectedTailHasNLines | modules/serviceutils/serviceutils.go:589-643 | the corrected start begins a line and shows n lines, or the whole file when it has fewer |
| ServiceUtils.ParseDays | modules/serviceutils/serviceutils.go:192-196 | the day count is a positive 64-bit number, or an input error |
| ServiceUtils.TypedDays | modules/serviceutils/serviceutils.go:192-196 | a typed positive number is the day count; anything below 1 is refused |
| ServiceUtils.SelectDirs | modules/serviceutils/serviceutils.go:207-224 | the chosen directories come from the list; choosing none is an error |
| ServiceUtils.TypedDirsSelected | modules/serviceutils/serviceutils.go:211-220 | typing valid numbers separated by commas selects exactly those directories, repeats included |
| ServiceUtils.Classify | modules/serviceutils/serviceutils.go:250-257 | a name is collected as a log exactly when it ends in ".log" or ".txt", in any case |
| ServiceUtils.ClassifyBySuffix | modules/serviceutils/serviceutils.go:250-265 | whatever precedes it, the ending decides: .log and .txt are logs, and .zip, .gz and .7z are archives |
| ServiceUtils.ClassifyIgnoresCase | modules/serviceutils/serviceutils.go:250 | for names made of ASCII characters, upper-casing does not change the class |
| ServiceUtils.ExtractGzip | modules/serviceutils/serviceutils.go:294-328 | it fails exactly when gzip reading does; a non-empty header name, or else the file name without its extension, names both the copy and the result |
| ServiceUtils.KeptMembers | modules/serviceutils/serviceutils.go:338-366 | exactly the non-directory members ending in .log or .txt, in any case, that copy out, in walk order |
| ServiceUtils.MemberItems | modules/serviceutils/serviceutils.go:352-371 | each kept member is recorded under its last path element, with its copy named by the archive stem and the member path |
| ServiceUtils.HandleArchive | modules/serviceutils/serviceutils.go:278-291 | gzip is tried first and the generic reader only when gzip fails; when both fail the gzip error is returned |
| ServiceUtils.FileItems | modules/serviceutils/serviceutils.go:250-265 | a log file contributes itself, an archive what unpacking gives, and anything else nothing |
| ServiceUtils.PlanDirectFromLogFiles | modules/serviceutils/serviceutils.go:251-256 | every file collected in place was walked as a log file |
| ServiceUtils.PlanKeepsLogFiles | modules/serviceutils/serviceutils.go:251-256 | every walked log file is collected |
| ServiceUtils.DestNameIgnoresFolder | modules/serviceutils/serviceutils.go:352-355 | as written, the folder an archive sits in plays no part in its copies' names |
| ServiceUtils.AsWrittenCopiesCollide | modules/serviceutils/serviceutils.go:352-357 | two same-named archives in different folders put a member's copy at the same temporary path |
| ServiceUtils.NumberedNamesDiffer | modules/serviceutils/serviceutils.go:352-355 | corrected copy names at different positions differ |
| ServiceUtils.Collect | modules/serviceutils/serviceutils.go:229-268 | the collected records are the plan's items, numbered in order |
| ServiceUtils.CollectedCopiesDistinct | modules/serviceutils/serviceutils.go:352-357 | no two unpacked files share a temporary copy |
| ServiceUtils.CollectLogs | modules/serviceutils/serviceutils.go:188-275 | success exactly when the days parse, a directory is available, the choice picks one and the walks find something to collect; each failing step returns its own error (the days error, no directories, the choice error, no log file found); success yields the day count and at least one file |
| ServiceUtils.WalkedLogFileCollected | modules/serviceutils/serviceutils.go:236-256 | every log file walked in a chosen directory is collected in place |
| ServiceUtils.SanitizedDir | modules/serviceutils/serviceutils.go:446-448 | the sanitised folder holds no `\`, `/` or `:` |
| ServiceUtils.InternalPathShape | modules/serviceutils/serviceutils.go:446-452 | an entry is the sanitised folder, `\`, and the file's own name |
| ServiceUtils.DriveFolderEntry | modules/serviceutils/serviceutils.go:446-452 | `C:\logs\app.log` is stored as `C__logs\app.log` |
| ServiceUtils.ArchiveNamesDifferByDays | modules/serviceutils/serviceutils.go:420-421 | at the same minute, different day counts give different archive names |
| ServiceUtils.ArchiveNameIsArchive | modules/serviceutils/serviceutils.go:421 | the result archive is a file the collector would unpack |
| Iiko.VersionPath | modules/iiko/iiko.go:144-145 | a version's server path holds no `\` |
| Iiko.Names | modules/iiko/iiko.go:152-155 | the set of names is exactly the listing's names |
| Iiko.FoundExactly | modules/iiko/iiko.go:157-165 | a component is found exactly when its file is listed, stamped with the version and `versionPath/FileName` |
| Iiko.FoundAppend | modules/iiko/iiko.go:158 | found components keep configuration order |
| Iiko.ScanExactly | modules/iiko/iiko.go:138-170 | the versions kept are exactly the three-digit directories whose components are found, each with those components |
| Iiko.DiscoverVersions | modules/iiko/iiko.go:129-133 | the only error is a failed listing of the base directory |
| Iiko.DiscoveredExactly | modules/iiko/iiko.go:136-170 | a version is discovered exactly when it is a type-1, three-digit entry whose listing succeeds with some configured file; its components are those files |
| Iiko.DiscoveredComponents | modules/iiko/iiko.go:140-164 | every discovered version name is three digits, and its components are configured templates found in its listing |
| Iiko.DiscoveredStamped | modules/iiko/iiko.go:160-162 | every component carries the version it was found under |
| Iiko.MenuOptions | modules/iiko/iiko.go:185-189 | option 0 is the CardPOS option with id iikoCard, version Card and the base FTP path |
| Iiko.MenuOffersEveryComponent | modules/iiko/iiko.go:193-199 | the options after 0 are exactly the discovered components |
| Iiko.MenuNewestFirst | modules/iiko/iiko.go:181-199 | along the menu after option 0, no option's version is older than a later one's |
| Iiko.DistroChoice | modules/iiko/iiko.go:203-209 | an answer picks an option exactly when it reads as an integer in 0..len-1, and it picks that one |
| Iiko.DistroPicksTypedNumber | modules/iiko/iiko.go:197-209 | typing the number an option is shown with picks it |
| Iiko.ShowDistroMenu | modules/iiko/iiko.go:201-210 | the first line that picks an option decides |
| Iiko.CheckRecords | modules/iiko/iiko.go:229-234 | reading succeeds exactly when every record has four fields |
| Iiko.ForVersionExactly | modules/iiko/iiko.go:237-238 | a record is offered exactly when its trimmed fourth field is the version |
| Iiko.ForVersionAppend | modules/iiko/iiko.go:237-246 | offered records keep file order |
| Iiko.AvailablePatches | modules/iiko/iiko.go:236-246 | each offered patch carries the record's four fields, not yet fetched |
| Iiko.AvailableForVersion | modules/iiko/iiko.go:238 | every patch on offer is for the version asked |
| Iiko.SelectPatches | modules/iiko/iiko.go:259-275 | every chosen patch has local path `targetDir/Base(Path)` and is not downloaded |
| Iiko.SelectedFromAvailable | modules/iiko/iiko.go:267-274 | only patches on offer are chosen |
| Iiko.TypedPatchesSelected | modules/iiko/iiko.go:266-275 | typing numbers separated by commas chooses exactly those patches, in order |
| Iiko.DownloadPatches | modules/iiko/iiko.go:277-287 | each patch is fetched from the base path plus its path, and marked downloaded exactly when that succeeds |
| Iiko.HandlePatches | modules/iiko/iiko.go:213-290 | it fails exactly when the route cannot be fetched or read as four-field records; on success the patches have their local paths, and are downloaded exactly when fetched |
| Iiko.PatchesOnOffer | modules/iiko/iiko.go:236-289 | the patches returned are the ones chosen, in the order chosen, each for the version, differing only in the downloaded mark |
| Iiko.InstallerArgs | modules/iiko/iiko.go:298-299 | the arguments end with `/log` and the temporary log path |
| Iiko.InstallerArgsOfWords | modules/iiko/iiko.go:298-299 | words separated by single spaces reach the installer unchanged, before the log option |
| Iiko.RunInstallerAsWritten | modules/iiko/iiko.go:304-316 | as written, no error exactly on exit 0, and every failure ends with -1 |
| Iiko.RunInstaller | modules/iiko/iiko.go:304-316 | as intended, a process that ran reports its exit code, and only a failed start is an error with -1 |
| Iiko.AsWrittenLosesExitCode | modules/iiko/iiko.go:307-313 | the two agree except on a nonzero exit, where as written the code is lost |
| Iiko.AfterRun | modules/iiko/iiko.go:318-332 | an existing log is moved exactly after a nonzero exit and removed exactly after success |
| Iiko.FailedInstallLogKept | modules/iiko/iiko.go:318-327 | as written, the log is never moved; as intended, it is moved whenever the installer fails and wrote one |

## Left out

- Network transports: HTTP requests, FTP dial/login/SIZE/RETR/LIST and the FRPS admin API are replies passed in as values. No protocol is modelled.
- Progress bars (`CreateProgressBar`) and all console output: they have no effect on results.
- `PurgeAsset`: the interface declares it, but no implementation exists to model.
- Console menus and stdin prompts: typed lines are inputs, and a loop that would wait forever is a `None` result. This covers the main loop, the tui package and the module `Run` entry points.
- `tailFile`: it follows a file with signals and a ticker; only the position scan it starts from is modelled.
- Filesystem walks, stat calls and time filters:
  - `cleanTempFiles` and `getPathSize`;
  - `findLogDirectories`, whose result is an input because map iteration order is random;
  - the modification-time cut-off, for which `walk` already yields only newer files.
- `RunCommandWithEnv`, `CreateScheduledTask` and `generateTaskXML`: these depend on the current user, time and environment.
- `IsAdmin` and `Is64BitOS`: the architecture is a parameter of `Frpc.DownloadAndExtract`.
- modules/regime, modules/dto and modules/remoteaccess: they only run commands or scrape HTTP pages.
- `updateIikoConfig`, `readConfig` and `applyIikoPatch`: these are XML/INI library calls and backup-and-extract orchestration.
- The orchestration of the iiko `Run` entry point: its target directory, Front-only patching and RunAfter steps.
- CSV, JSON, gzip and zip decoding: records, proxies and archive members arrive decoded, and `parseCsv` is a parameter.
- Writing the result zip in `createLogArchive`: only the archive name and the entry names are modelled.
- `config.LoadConfig`: catalog entries and configuration are plain datatypes.
- File permission bits, float megabyte reporting and short reads.
- Errors from `Stat`, `Seek`, `Read`, `MkdirTemp` and walks inside archives: the chunked scan reads exactly what it asks for.
- Duplicate member names in a zip.
- `UniversalInstalls` is missing from config/config.go. The menu takes the item list as a parameter.
- modules/frpc/frpc.go:149 calls a package-level `assetmgr.ExtractFile`, while assetmgr/manager.go:330 defines it as a method. `Frpc.FetchMember` uses the method's behaviour.
- modules/dto/atol.go:22 uses a `DTOConfig` field that config/config.go does not declare. That file is outside the model.
- AssetManager.UrlPath: covers URLs without percent-escapes, user info or ports in a way that matters for the path. `url.Parse` decoding is not modelled.
- Paths.VolumeName: recognises drive letters only, not UNC volumes.
- Paths.Ext: states the result's shape and the joined-path lemma, not the full suffix relation.
- VComCaster.ExtractDeviceID: its own contract states only the length bound; the full characterisation is in `VComCaster.ExtractTakesLeftmost`.
- Text.ToLower: maps ASCII letters and the few non-ASCII runes whose simple case mapping lands on ASCII; other runes keep their value.
- AssetManager.DownloadToCache: covers two `url.Parse` rejections, a control character and a leading ':'. The source also panics on the other rejections: invalid percent-escapes, a malformed host or port, and a colon in the first segment of a scheme-less path. The model treats those URLs as parsed.
- AssetManager.Store, AssetManager.DownloadHTTP, AssetManager.DownloadFTP: follow Windows, where removing the still-open file fails. On other systems the removal succeeds and no partial file stays.
- Frpc.FindFreePort: composes the corrected `Frpc.ScanPorts` of the Findings table. As written, modules/frpc/frpc.go:256-260 wraps to the lowest 64-bit integer when the range ends at the highest one and every port is used; `Frpc.ScanPortsAsWritten` models that.
- ServiceUtils.Collect: names unpacked copies with the corrected `NumberedName` of the Findings table. As written, modules/serviceutils/serviceutils.go:352-355 names them stem plus member path, which `ServiceUtils.DestNameIgnoresFolder` models.
- File-name case: paths are compared case-sensitively, while Windows file systems ignore case. A cache file `Setup.zip` and a URL ending in `setup.zip` are one file on disk but two in the model, and so are zip members `A/x` and `a/x`.
- Paths.Join: joins on segments, so three Windows `filepath.Join` rules are not followed. A rooted name after an empty path or a bare drive stays rooted in Go (`Join("", "\\f")` is `\f`, `Join("C:", "\\f")` is `C:\f`) but becomes relative in the model (`f`, `C:f`). `Join("", "")` is "" in Go, and `os.MkdirAll("")` then fails, while the model reads it as "." and succeeds. In the core these cases need an empty `RootPath` and `Destination` (Go then stops at `MkdirAll`, the model goes on as under ".") or a bare-drive destination, under which both refuse every zip member.
- Paths.JoinCleans: holds of the model's `Join`; of Go's it fails for an empty or bare-drive path with a rooted name, for the reasons on the line above.
- Paths.Clean: a path value has no text, so the `.\` that `filepath.Clean` (Go 1.20 and later) writes in front of a rewritten relative result whose first element holds a ':' is not part of it. The unzip guard is the only core code that looks at that text. `Archive.Contained` models the marker under a "." destination. Under a relative destination whose own first element holds a ':' (such as `ab:c`), Go refuses a member that cleaning rewrites (`x\..\y`), because the target gains the marker; the model admits it.
- Frpc.ManualPort: reads `strconv.Atoi` in the 64-bit range only; the port is not checked against any range, as in the source.

## Findings

| source | as written | input that shows it | evidently intended | confidence | as-written member | corrected member |
|---|---|---|---|---|---|---|
| modules/iiko/iiko.go:304-313 | `err.(*exec.ExitError)` is applied to the error `RunCommand` returns, which formats the exec error with `%v` (winutils/utils.go:28, main.go:28-30), so the assertion never holds | an installer that exits with code 1603: the result is -1 and an error, and the log is never moved to the root folder | a nonzero exit reports its code, and the log of a failed installation is kept | not executed; high | Iiko.RunInstallerAsWritten, Iiko.AsWrittenLosesExitCode, Iiko.FailedInstallLogKept | Iiko.RunInstaller |
| modules/serviceutils/serviceutils.go:625-631 | a final '\n' is counted as if it started a line, so the scan stops one line too late | content "a\nb\n" with n = 2 returns 2, so only "b" is shown | the last n lines are shown | not executed; medium | ServiceUtils.AsWrittenTailShowsOneLineFewer, ServiceUtils.TwoLineTail | ServiceUtils.CorrectedTailHasNLines |
| modules/serviceutils/serviceutils.go:352-355 | the temporary name of an unpacked log is the archive's stem plus the member path, ignoring the archive's folder | `C:\a\old.zip` and `C:\b\old.zip`, each holding `app.log`: both copies go to `<temp>\old_app.log`, and the second overwrites the first | every unpacked log gets its own temporary copy | not executed; high | ServiceUtils.DestNameIgnoresFolder, ServiceUtils.AsWrittenCopiesCollide | ServiceUtils.CollectedCopiesDistinct |
| modules/frpc/frpc.go:256-260 | `port <= endPort` with `port++` on a 64-bit int never ends when `endPort` is the largest int, so `port` wraps | port_range "9223372036854775807-9223372036854775807" with that port in use returns -9223372036854775808 | an exhausted range is an error | not executed; low (needs an extreme configuration) | Frpc.ScanPortsAsWritten, Frpc.ScanWrapsAround | Frpc.ScanPorts |
| modules/frpc/frpc.go:276-288 | the file is split at '\n' and joined with "\r\n", so each '\r' already in the file survives, and every update adds another '\r' to each earlier line | an absent frpc.ini updated with alias "a", then with alias "b": the second write starts "[common]\r\r\n" | an update only appends, keeping the earlier text byte for byte | not executed; high | Frpc.CarriageReturnsAccumulate | Frpc.UpdateFrpcIniCorrected, Frpc.CorrectedUpdateAppendsOnly |

=== FILE: archive.dfy ===
/** Zip extraction (`unzip` and `ExtractFile` of assetmgr/manager.go). An archive is the
    sequence of its entries in central-directory order; decoding the zip container is
    outside the model and arrives as `Decoder`. */
module Archive {
  import opened Wrappers
  import opened Text
  import opened Paths
  import opened FileSystem

  datatype Entry = Entry(name: string, isDir: bool, data: seq<byte>)

  /** What `zip.OpenReader` makes of a file's bytes: the entries, or None when the bytes
      are not a readable zip. */
  type Decoder = seq<byte> -> Option<seq<Entry>>

  /** The state of the disk after an operation and whether it succeeded. A failed operation
      may still have changed the disk, as Go's does. */
  datatype Applied = Applied(fs: FS, outcome: Outcome)

  /** `zip.OpenReader(p)`: fails when `p` is not a readable file or not a zip. */
  function OpenZip(fs: FS, decode: Decoder, p: Path): (r: Option<seq<Entry>>)
    ensures !(p in fs && fs[p].File?) ==> r == None
  {
    if p in fs && fs[p].File? then decode(fs[p].data) else None
  }

  /** The containment guard of `unzip`: the joined target must have the cleaned
      destination followed by a separator as a string prefix. Clean paths never end in a
      separator, so under a destination with segments this is a strict segment prefix.
      A drive root or a drive-relative "C:" (cleaned to "C:.") admits nothing. Under "."
      the prefix is `.\`, which `filepath.Clean` (Go 1.20 and later) writes only in front
      of a relative path whose first element holds a ':', so exactly those members pass. */
  predicate Contained(dest: Path, target: Path) {
    var d := Clean(dest);
    StrictlyInside(d, target) && (|d.segs| > 0 || (d.volume == [] && !d.rooted && ':' in target.segs[0]))
  }

  /** What `unzip` may change: a path strictly inside the destination, or a directory on
      the way down to it (created by `MkdirAll` of a member's parent). */
  predicate MayWrite(dest: Path, q: Path, n: Node) {
    StrictlyInside(Clean(dest), q) || (n == Dir && IsPrefixOf(q, Clean(dest)))
  }

  /** `fs2` keeps every path of `fs`, and whatever it changed or added `MayWrite` allows. */
  predicate ConfinedTo(fs: FS, fs2: FS, dest: Path) {
    && (forall q :: q in fs ==> q in fs2)
    && (forall q :: q in fs2 && (q !in fs || fs2[q] != fs[q]) ==> MayWrite(dest, q, fs2[q]))
  }

  /** Extracts one member that passed the guard: a directory member only gets `MkdirAll`
      (its error ignored); a file member gets its parent created and then exactly its
      bytes, truncating any old file. */
  function ExtractMember(fs: FS, target: Path, e: Entry): (r: Applied)
  {
    if e.isDir then
      Applied(match MkdirAll(fs, target) case Ok(f) => f case Err(_) => fs, Pass)
    else
      match MkdirAll(fs, Parent(target))
      case Err(err) => Applied(fs, Fail(err))
      case Ok(f1) =>
        match CreateFile(f1, target, e.data)
        case Err(err) => Applied(f1, Fail(err))
        case Ok(f2) => Applied(f2, Pass)
  }

  /** The loop of `unzip`: members in order; the first member whose target escapes the
      destination stops everything with `UnsafeArchivePath`, and so does the first
      filesystem error. Nothing already extracted is undone. */
  function UnzipEntries(fs: FS, dest: Path, es: seq<Entry>): (r: Applied)
    ensures ConfinedTo(fs, r.fs, dest)
    ensures forall q :: q in r.fs && (q !in fs || r.fs[q] != fs[q]) && r.fs[q].File? ==>
              exists i :: 0 <= i < |es| && WritesFileAt(dest, es[i], q)
    decreases |es|
  {
    if |es| == 0 then Applied(fs, Pass)
    else
      var t := Join(dest, es[0].name);
      if !Contained(dest, t) then Applied(fs, Fail(UnsafeArchivePath))
      else
        var a := ExtractMember(fs, t, es[0]);
        MemberConfined(fs, dest, t, es[0]);
        if a.outcome.Fail? then a
        else
          var r := UnzipEntries(a.fs, dest, es[1..]);
          forall q | q in r.fs && (q !in fs || r.fs[q] != fs[q]) && r.fs[q].File?
            ensures exists i :: 0 <= i < |es| && WritesFileAt(dest, es[i], q)
          {
            if q in a.fs && r.fs[q] == a.fs[q] {
              assert WritesFileAt(dest, es[0], q);
            } else {
              var i :| 0 <= i < |es[1..]| && WritesFileAt(dest, es[1..][i], q);
              assert WritesFileAt(dest, es[i + 1], q);
            }
          }
          r
  }

  /** Member `e` is a file member whose target is `q`. */
  predicate WritesFileAt(dest: Path, e: Entry, q: Path) {
    !e.isDir && Join(dest, e.name) == q
  }

  /** `unzip(src, dest)`: opening the archive may fail, then the member loop runs. */
  function Unzip(fs: FS, archive: Option<seq<Entry>>, dest: Path): (r: Applied)
    ensures archive.None? ==> r == Applied(fs, Fail(BadArchive))
    ensures ConfinedTo(fs, r.fs, dest)
  {
    match archive
    case None => Applied(fs, Fail(BadArchive))
    case Some(es) => UnzipEntries(fs, dest, es)
  }

  /** A prefix of a path strictly inside `c` is an ancestor-or-self of `c` or strictly inside it. */
  lemma PrefixOfInside(c: Path, t: Path, q: Path)
    requires StrictlyInside(c, t) && IsPrefixOf(q, t)
    ensures IsPrefixOf(q, c) || StrictlyInside(c, q)
  {
    if |q.segs| <= |c.segs| {
      assert q.segs == t.segs[..|q.segs|] == c.segs[..|q.segs|];
    } else {
      assert c.segs == t.segs[..|c.segs|] == q.segs[..|c.segs|];
    }
  }

  /** One member changes only paths `MayWrite` allows, and a directory member only adds
      directories. */
  lemma MemberConfined(fs: FS, dest: Path, t: Path, e: Entry)
    requires Contained(dest, t)
    ensures ConfinedTo(fs, ExtractMember(fs, t, e).fs, dest)
    ensures e.isDir ==> AddsOnlyDirsOn(fs, ExtractMember(fs, t, e).fs, t)
    ensures forall q :: (q in ExtractMember(fs, t, e).fs && ExtractMember(fs, t, e).fs[q].File?
                         && (q !in fs || ExtractMember(fs, t, e).fs[q] != fs[q])) ==> !e.isDir && q == t
  {
    var c := Clean(dest);
    if e.isDir {
      match MkdirAll(fs, t)
      case Ok(f) =>
        forall q | q in f && q !in fs ensures MayWrite(dest, q, f[q]) {
          PrefixOfInside(c, t, q);
        }
      case Err(_) =>
    } else {
      match MkdirAll(fs, Parent(t))
      case Err(_) =>
      case Ok(f1) =>
        forall q | q in f1 && q !in fs ensures MayWrite(dest, q, f1[q]) {
          assert IsPrefixOf(q, t);
          PrefixOfInside(c, t, q);
        }
    }
  }

  // ---------------------------------------------------------------------------
  // Properties of unzip

  /** Extracting `a + b` is extracting `a` and, if that succeeded, `b` on top of its
      result; a failure inside `a` ends the run with `a`'s effects kept. */
  lemma {:induction false} UnzipSequential(fs: FS, dest: Path, a: seq<Entry>, b: seq<Entry>)
    ensures UnzipEntries(fs, dest, a + b) ==
      (var ra := UnzipEntries(fs, dest, a);
       if ra.outcome.Fail? then ra else UnzipEntries(ra.fs, dest, b))
    decreases |a|
  {
    if |a| == 0 {
      assert a + b == b;
    } else {
      assert (a + b)[0] == a[0];
      assert (a + b)[1..] == a[1..] + b;
      var t := Join(dest, a[0].name);
      if Contained(dest, t) {
        var m := ExtractMember(fs, t, a[0]);
        if m.outcome.Pass? {
          UnzipSequential(m.fs, dest, a[1..], b);
        }
      }
    }
  }

  /** The first member that escapes the destination aborts with `UnsafeArchivePath`, and
      the members before it stay extracted: there is no rollback. */
  lemma FirstUnsafeMemberAborts(fs: FS, dest: Path, es: seq<Entry>, j: nat)
    requires j < |es| && !Contained(dest, Join(dest, es[j].name))
    requires UnzipEntries(fs, dest, es[..j]).outcome.Pass?
    ensures UnzipEntries(fs, dest, es) == Applied(UnzipEntries(fs, dest, es[..j]).fs, Fail(UnsafeArchivePath))
  {
    assert es == es[..j] + es[j..];
    UnzipSequential(fs, dest, es[..j], es[j..]);
    assert es[j..][0] == es[j];
    UnsafeHeadAborts(UnzipEntries(fs, dest, es[..j]).fs, dest, es[j..]);
  }

  /** The first member of a run, when admitted, is extracted first; the rest runs on its
      result unless it failed. */
  lemma UnzipHead(fs: FS, dest: Path, es: seq<Entry>)
    requires |es| > 0 && Contained(dest, Join(dest, es[0].name))
    ensures var m := ExtractMember(fs, Join(dest, es[0].name), es[0]);
            UnzipEntries(fs, dest, es) == if m.outcome.Fail? then m else UnzipEntries(m.fs, dest, es[1..])
  {
  }

  lemma UnsafeHeadAborts(fs: FS, dest: Path, es: seq<Entry>)
    requires |es| > 0 && !Contained(dest, Join(dest, es[0].name))
    ensures UnzipEntries(fs, dest, es) == Applied(fs, Fail(UnsafeArchivePath))
  {
  }

  /** A file present before the run keeps its bytes unless some file member targets it. */
  lemma {:induction false} UnzipKeepsUntargetedFile(fs: FS, dest: Path, es: seq<Entry>, p: Path)
    requires p in fs && fs[p].File?
    requires forall i :: 0 <= i < |es| ==> !WritesFileAt(dest, es[i], p)
    ensures p in UnzipEntries(fs, dest, es).fs && UnzipEntries(fs, dest, es).fs[p] == fs[p]
    decreases |es|
  {
    if |es| > 0 {
      var t := Join(dest, es[0].name);
      if Contained(dest, t) {
        var m := ExtractMember(fs, t, es[0]);
        MemberConfined(fs, dest, t, es[0]);
        MemberKeepsFile(fs, t, es[0], p);
        if m.outcome.Pass? {
          UnzipKeepsUntargetedFile(m.fs, dest, es[1..], p);
        }
      }
    }
  }

  lemma MemberKeepsFile(fs: FS, t: Path, e: Entry, p: Path)
    requires p in fs && fs[p].File? && (e.isDir || t != p)
    ensures p in ExtractMember(fs, t, e).fs && ExtractMember(fs, t, e).fs[p] == fs[p]
  {
  }

  /** After a successful run, every file member that no later file member overwrites holds
      exactly its own bytes at its target. */
  lemma {:induction false} UnzipWritesMember(fs: FS, dest: Path, es: seq<Entry>, i: nat)
    requires i < |es| && !es[i].isDir
    requires UnzipEntries(fs, dest, es).outcome.Pass?
    requires forall j :: i < j < |es| ==> !WritesFileAt(dest, es[j], Join(dest, es[i].name))
    ensures var t := Join(dest, es[i].name);
            t in UnzipEntries(fs, dest, es).fs && UnzipEntries(fs, dest, es).fs[t] == File(es[i].data)
    decreases |es|
  {
    var t := Join(dest, es[0].name);
    var m := ExtractMember(fs, t, es[0]);
    if i == 0 {
      forall j | 0 <= j < |es[1..]| ensures !WritesFileAt(dest, es[1..][j], t) {
        assert es[1..][j] == es[j + 1];
      }
      UnzipKeepsUntargetedFile(m.fs, dest, es[1..], t);
    } else {
      forall j | i - 1 < j < |es[1..]|
        ensures !WritesFileAt(dest, es[1..][j], Join(dest, es[1..][i - 1].name))
      {
        assert es[1..][j] == es[j + 1];
      }
      UnzipWritesMember(m.fs, dest, es[1..], i - 1);
    }
  }

  // ---------------------------------------------------------------------------
  // Which member names the guard admits

  /** A member whose name has only plain pieces is admitted under any destination that has
      at least one segment. */
  lemma PlainMemberAdmitted(dest: Path, name: string)
    requires |Clean(dest).segs| > 0 && Plain(Pieces(name))
    ensures Contained(dest, Join(dest, name))
  {
    JoinCleans(dest, name);
    JoinPlain(Clean(dest), name);
  }

  /** Under a destination with no segments the guard admits a member exactly when the
      destination is "." (no drive, not rooted) and the member's cleaned path is relative
      with a ':' in its first element; a drive root admits nothing. */
  lemma EmptyDestinationAdmitsOnlyColonFirst(dest: Path, name: string)
    requires |Clean(dest).segs| == 0
    ensures var t := Join(dest, name);
            Contained(dest, t) <==> dest.volume == [] && !dest.rooted && |t.segs| > 0 && ':' in t.segs[0]
  {
  }

  /** Under "." the member "ab:c" is admitted (Go writes `.\ab:c`), and "abc" is not. */
  lemma DotDestinationExamples()
    ensures Contained(Path([], false, []), Join(Path([], false, []), "ab:c"))
    ensures !Contained(Path([], false, []), Join(Path([], false, []), "abc"))
  {
    var dot := Path([], false, []);
    JoinName(dot, "ab:c");
    JoinName(dot, "abc");
    assert "ab:c"[2] == ':';
  }

  /** A member that starts with ".." under a clean destination `.../d` is admitted exactly
      when it climbs straight back into `d` and names something below it, as
      "../d/x" does; "../evil.txt" is refused. */
  lemma {:induction false} ClimbingMember(dest: Path, name: string, rest: seq<string>)
    requires IsClean(dest) && |dest.segs| > 0 && dest.segs[|dest.segs| - 1] != ".."
    requires Pieces(name) == [".."] + rest && Plain(rest)
    ensures Contained(dest, Join(dest, name)) <==>
              |rest| >= 2 && rest[0] == dest.segs[|dest.segs| - 1]
  {
    var n := |dest.segs|;
    var init := dest.segs[..n - 1];
    CleanIdempotent(dest);
    ClimbingSegs(dest, name, rest);
    var t := Join(dest, name);
    if |rest| >= 2 && rest[0] == dest.segs[n - 1] {
      assert t.segs[..n] == init + [rest[0]] == dest.segs;
    }
    if Contained(dest, t) {
      assert t.segs[n - 1] == dest.segs[n - 1];
    }
  }

  /** The ".." of a climbing member cancels the destination's last segment. */
  lemma ClimbingSegs(dest: Path, name: string, rest: seq<string>)
    requires IsClean(dest) && |dest.segs| > 0 && dest.segs[|dest.segs| - 1] != ".."
    requires Pieces(name) == [".."] + rest && Plain(rest)
    ensures Join(dest, name).segs == dest.segs[..|dest.segs| - 1] + rest
  {
    var n := |dest.segs|;
    var init := dest.segs[..n - 1];
    assert dest.segs + Pieces(name) == (dest.segs + [".."]) + rest;
    ResolveAppend(dest.segs + [".."], rest, dest.rooted);
    ResolveClean(dest.segs, dest.rooted);
    assert (dest.segs + [".."])[..n] == dest.segs;
    assert Resolve(dest.segs + [".."], dest.rooted) == init;
    CleanSegsPrefix(dest.segs, dest.rooted);
    AppendPlainIsClean(init, rest, dest.rooted);
    ResolveClean(init + rest, dest.rooted);
  }

  /** The classic zip-slip member "../evil.txt" is refused under any ordinary clean
      destination, before anything is written. */
  lemma EvilMemberRefused(fs: FS, dest: Path, data: seq<byte>, more: seq<Entry>)
    requires IsClean(dest) && |dest.segs| > 0 && dest.segs[|dest.segs| - 1] != ".."
    ensures UnzipEntries(fs, dest, [Entry("../evil.txt", false, data)] + more)
            == Applied(fs, Fail(UnsafeArchivePath))
  {
    var name := "../evil.txt";
    PiecesOfEvil();
    ClimbingMember(dest, name, ["evil.txt"]);
    var es := [Entry(name, false, data)] + more;
    assert es[0].name == name;
    assert !Contained(dest, Join(dest, es[0].name));
  }

  lemma PiecesOfEvil()
    ensures Pieces("../evil.txt") == [".."] + ["evil.txt"]
  {
    var name := "../evil.txt";
    SlashFree(name);
    SplitEvil();
  }

  lemma SlashFree(s: string)
    requires '\\' !in s
    ensures ToSlash(s) == s
  {
    forall i | 0 <= i < |s| ensures ToSlash(s)[i] == s[i] {}
  }

  lemma SplitEvil()
    ensures Split("../evil.txt", '/') == [".."] + ["evil.txt"]
  {
    var a: string, b: string := "..", "evil.txt";
    assert a + ['/'] + b == "../evil.txt";
    assert '/' !in a && '/' !in b;
    SplitTwo(a, '/', b);
  }

  lemma SplitTwo(a: string, c: char, b: string)
    requires c !in a && c !in b
    ensures Split(a + [c] + b, c) == [a] + [b]
  {
    SplitLeading(a, c, b);
    SplitOfFree(b, c);
  }

  // ---------------------------------------------------------------------------
  // ExtractFile

  /** The index of the first member whose slash-normalised name is `want`. */
  function FirstNamed(es: seq<Entry>, want: string): (r: Option<nat>)
    ensures r.Some? ==> r.value < |es| && ToSlash(es[r.value].name) == want
    ensures r.Some? ==> forall j :: 0 <= j < r.value ==> ToSlash(es[j].name) != want
    ensures r.None? <==> forall j :: 0 <= j < |es| ==> ToSlash(es[j].name) != want
  {
    if |es| == 0 then None
    else if ToSlash(es[0].name) == want then Some(0)
    else match FirstNamed(es[1..], want)
      case None => None
      case Some(i) => Some(i + 1)
  }

  /** `Manager.ExtractFile`: copies the first member whose slash-normalised name equals the
      slash-normalised request to `destPath`, creating its parent directory first. Member
      kind is not consulted: a directory member yields its (empty) contents. */
  function ExtractFile(fs: FS, archive: Option<seq<Entry>>, member: string, destPath: Path): (r: Applied)
    ensures archive.None? ==> r == Applied(fs, Fail(BadArchive))
    ensures archive.Some? && FirstNamed(archive.value, ToSlash(member)).None? ==>
              r == Applied(fs, Fail(ArchiveMemberNotFound(ToSlash(member))))
    ensures r.outcome.Pass? ==>
              (archive.Some? &&
               var i := FirstNamed(archive.value, ToSlash(member));
               i.Some? && Clean(destPath) in r.fs && r.fs[Clean(destPath)] == File(archive.value[i.value].data))
    ensures r.outcome.Fail? && r.outcome.error.ArchiveMemberNotFound? ==>
              archive.Some? && FirstNamed(archive.value, ToSlash(member)).None?
    ensures forall q :: q in fs && q != Clean(destPath) ==> q in r.fs && r.fs[q] == fs[q]
    ensures forall q :: q in r.fs && q !in fs && q != Clean(destPath) ==>
              r.fs[q] == Dir && IsPrefixOf(q, Parent(Clean(destPath)))
  {
    match archive
    case None => Applied(fs, Fail(BadArchive))
    case Some(es) =>
      match FirstNamed(es, ToSlash(member))
      case None => Applied(fs, Fail(ArchiveMemberNotFound(ToSlash(member))))
      case Some(i) =>
        var d := Clean(destPath);
        match MkdirAll(fs, Parent(d))
        case Err(e) => Applied(fs, Fail(e))
        case Ok(f1) =>
          match CreateFile(f1, d, es[i].data)
          case Err(e) => Applied(f1, Fail(e))
          case Ok(f2) => Applied(f2, Pass)
  }
}

=== FILE: assetmgr.dfy ===
/** The asset manager of assetmgr/manager.go: a catalog of named downloadable artifacts,
    a cache directory they are downloaded into (skipping the transfer when a file of the
    announced size is already there), and the step that unpacks or copies a cached
    artifact into its final directory under the root. The network is an oracle: what the
    HTTP server answers for a URL and what the FTP server answers for a path. */
module AssetManager {
  import opened Wrappers
  import opened Text
  import opened Paths
  import opened FileSystem
  import opened Archive

  /** One catalog entry (`config.AssetInfo`). */
  datatype AssetInfo = AssetInfo(url: string, kind: string, destination: string, downloadMethod: string)

  /** The part of `config.Config` the manager reads. */
  datatype Config = Config(rootPath: string, cachePath: string, catalog: map<string, AssetInfo>)

  /** What one HTTP GET yields: whether a request could be built and sent, the status code,
      the announced `Content-Length` (-1 when unknown), the bytes received, and whether
      streaming them to disk completed (when it did not, `body` is what arrived before the
      interruption). */
  datatype HttpReply = HttpReply(requestOk: bool, status: int, contentLength: int, body: seq<byte>, copyOk: bool)

  /** What one FTP session for a path yields: dial, login, the `SIZE` answer (None when
      the server refuses it), whether `RETR` started, the bytes received, and whether
      streaming completed. */
  datatype FtpReply = FtpReply(dialOk: bool, loginOk: bool, size: Option<int>, retrOk: bool, body: seq<byte>, copyOk: bool)

  datatype Network = Network(http: string -> HttpReply, ftp: string -> FtpReply)

  /** A downloader's effect: the disk afterwards and `Ok(skipped)` or the error. */
  datatype Fetch = Fetch(fs: FS, result: Result<bool>)

  /** An operation that yields a path: the disk afterwards and the path or the error. */
  datatype Located = Located(fs: FS, result: Result<Path>)

  const StatusOK := 200

  // ---------------------------------------------------------------------------
  // Downloaders

  /** What a downloader may do to the disk besides `local`: add directories on the way to
      `local`'s parent. */
  predicate TouchesOnly(fs: FS, fs2: FS, local: Path) {
    && (forall q :: q in fs && q != local ==> q in fs2 && fs2[q] == fs[q])
    && (forall q :: q in fs2 && q !in fs && q != local ==> fs2[q] == Dir && IsPrefixOf(q, Parent(local)))
  }

  /** `local` is exactly as it was: present in `fs2` when and only when in `fs`, with the
      same contents. */
  predicate Keeps(fs: FS, fs2: FS, local: Path) {
    (local in fs2 <==> local in fs) && (local in fs ==> fs2[local] == fs[local])
  }

  /** The local file already matches: it exists and its size equals a positive announced size. */
  predicate AlreadyCached(fs: FS, local: Path, remoteSize: int) {
    local in fs && remoteSize > 0 && SizeOf(fs[local]) == remoteSize
  }

  /** The part both downloaders share once the server has answered: skip on a size match,
      otherwise create the file and stream into it. When streaming fails the code removes
      the file while its handle is still open (the deferred `Close` has not run yet), so on
      Windows the removal is refused and the bytes received so far stay on disk. */
  function Store(fs: FS, local: Path, remoteSize: int, body: seq<byte>, copyOk: bool): (r: Fetch)
    ensures r.result == Ok(true) <==> AlreadyCached(fs, local, remoteSize)
    ensures r.result == Ok(true) ==> r.fs == fs
    ensures r.result == Ok(false) ==> copyOk && r.fs == fs[local := File(body)]
    ensures r.result.Err? ==> r.fs == fs || (!copyOk && r.fs == fs[local := File(body)])
    ensures TouchesOnly(fs, r.fs, local)
  {
    if AlreadyCached(fs, local, remoteSize) then Fetch(fs, Ok(true))
    else
      match CreateFile(fs, local, body)
      case Err(e) => Fetch(fs, Err(e))
      case Ok(f) =>
        if copyOk then Fetch(f, Ok(false))
        else Fetch(Remove(f, local, true), Err(NetworkError("stream interrupted")))
  }

  /** `MkdirAll` of `local`'s parent never touches `local` itself. */
  lemma MkdirParentKeeps(fs: FS, local: Path)
    requires MkdirAll(fs, Parent(local)).Ok?
    ensures Keeps(fs, MkdirAll(fs, Parent(local)).value, local)
  {
  }

  /** `DownloadHTTPWithProgress`: parent directory, request, status check (before the
      local file is looked at), then `Store` with the announced length. */
  function DownloadHTTP(fs: FS, reply: HttpReply, local: Path): (r: Fetch)
    ensures r.result.Ok? ==> reply.requestOk && reply.status == StatusOK
    ensures r.result == Ok(true) ==>
              AlreadyCached(fs, local, reply.contentLength) && local in r.fs && r.fs[local] == fs[local]
    ensures r.result == Ok(false) ==> reply.copyOk && local in r.fs && r.fs[local] == File(reply.body)
    ensures !(reply.requestOk && reply.status == StatusOK) ==> Keeps(fs, r.fs, local)
    ensures r.result.Err? ==>
              Keeps(fs, r.fs, local) || (!reply.copyOk && local in r.fs && r.fs[local] == File(reply.body))
    ensures TouchesOnly(fs, r.fs, local)
  {
    match MkdirAll(fs, Parent(local))
    case Err(e) => Fetch(fs, Err(e))
    case Ok(f1) =>
      MkdirParentKeeps(fs, local);
      if !reply.requestOk then Fetch(f1, Err(NetworkError("request failed")))
      else if reply.status != StatusOK then Fetch(f1, Err(NetworkError("bad status")))
      else Store(f1, local, reply.contentLength, reply.body, reply.copyOk)
  }

  /** The size the FTP downloader compares against: a refused `SIZE` becomes -1, which
      never matches. */
  function FtpRemoteSize(reply: FtpReply): int {
    match reply.size case Some(n) => n case None => -1
  }

  /** `DownloadFTPWithProgress`: parent directory, dial, login, `SIZE`, local check,
      `RETR` (before the local file is created), then the shared tail. */
  function DownloadFTP(fs: FS, reply: FtpReply, local: Path): (r: Fetch)
    ensures r.result.Ok? ==> reply.dialOk && reply.loginOk
    ensures r.result == Ok(true) ==>
              reply.size.Some? && AlreadyCached(fs, local, reply.size.value) && local in r.fs && r.fs[local] == fs[local]
    ensures r.result == Ok(false) ==> reply.retrOk && reply.copyOk && local in r.fs && r.fs[local] == File(reply.body)
    ensures !(reply.dialOk && reply.loginOk && reply.retrOk) ==> Keeps(fs, r.fs, local)
    ensures r.result.Err? ==>
              Keeps(fs, r.fs, local) || (!reply.copyOk && local in r.fs && r.fs[local] == File(reply.body))
    ensures r.result.Err? ==> !r.result.error.RuntimePanic?
    ensures TouchesOnly(fs, r.fs, local)
  {
    match MkdirAll(fs, Parent(local))
    case Err(e) => Fetch(fs, Err(e))
    case Ok(f1) =>
      MkdirParentKeeps(fs, local);
      if !reply.dialOk then Fetch(f1, Err(NetworkError("dial failed")))
      else if !reply.loginOk then Fetch(f1, Err(NetworkError("login failed")))
      else
        var size := FtpRemoteSize(reply);
        if AlreadyCached(f1, local, size) then Fetch(f1, Ok(true))
        else if !reply.retrOk then Fetch(f1, Err(NetworkError("retr failed")))
        else Store(f1, local, size, reply.body, reply.copyOk)
  }

  /** A successful HTTP download whose body has the announced positive length makes the
      next identical download a skip that changes nothing. */
  lemma HttpDownloadThenSkip(fs: FS, reply: HttpReply, local: Path)
    requires DownloadHTTP(fs, reply, local).result.Ok?
    requires |reply.body| == reply.contentLength > 0
    ensures var fs1 := DownloadHTTP(fs, reply, local).fs;
            DownloadHTTP(fs1, reply, local) == Fetch(fs1, Ok(true))
  {
    var fs1 := DownloadHTTP(fs, reply, local).fs;
    assert local in fs1 && SizeOf(fs1[local]) == reply.contentLength;
    assert IsDir(fs1, Parent(local)) by { ParentStaysDir(fs, reply, local); }
    MkdirAllExisting(fs1, Parent(local));
  }

  /** The same for FTP, when the server answers `SIZE` with the length of the data. */
  lemma FtpDownloadThenSkip(fs: FS, reply: FtpReply, local: Path)
    requires DownloadFTP(fs, reply, local).result.Ok?
    requires reply.size == Some(|reply.body|) && |reply.body| > 0
    ensures var fs1 := DownloadFTP(fs, reply, local).fs;
            DownloadFTP(fs1, reply, local) == Fetch(fs1, Ok(true))
  {
    var fs1 := DownloadFTP(fs, reply, local).fs;
    assert local in fs1 && SizeOf(fs1[local]) == |reply.body|;
    var f1 := MkdirAll(fs, Parent(local)).value;
    assert IsDir(f1, Parent(local));
    StoreKeepsParent(f1, local, FtpRemoteSize(reply), reply.body, reply.copyOk);
    MkdirAllExisting(fs1, Parent(local));
  }

  lemma ParentStaysDir(fs: FS, reply: HttpReply, local: Path)
    requires DownloadHTTP(fs, reply, local).result.Ok?
    ensures IsDir(DownloadHTTP(fs, reply, local).fs, Parent(local))
  {
    var f1 := MkdirAll(fs, Parent(local)).value;
    StoreKeepsParent(f1, local, reply.contentLength, reply.body, reply.copyOk);
  }

  /** Storing `local` leaves its parent a directory. */
  lemma StoreKeepsParent(fs: FS, local: Path, remoteSize: int, body: seq<byte>, copyOk: bool)
    requires IsDir(fs, Parent(local))
    requires Store(fs, local, remoteSize, body, copyOk).result.Ok?
    ensures IsDir(Store(fs, local, remoteSize, body, copyOk).fs, Parent(local))
  {
    if !AlreadyCached(fs, local, remoteSize) {
      assert |local.segs| > 0;
      assert Parent(local) != local;
    }
  }

  /** `MkdirAll` of an existing directory changes nothing. */
  lemma MkdirAllExisting(fs: FS, p: Path)
    requires IsDir(fs, p)
    ensures MkdirAll(fs, p) == Ok(fs)
  {
  }

  // ---------------------------------------------------------------------------
  // DownloadToCache

  datatype Transport = Http | Ftp | Unsupported(name: string)

  /** The transport named by `download_method`, upper-cased; empty means HTTP. */
  function TransportOf(downloadMethod: string): (t: Transport)
    ensures t.Unsupported? ==> t.name == ToUpper(downloadMethod)
  {
    var m := ToUpper(downloadMethod);
    if m == "" || m == "HTTP" then Http
    else if m == "FTP" then Ftp
    else Unsupported(m)
  }

  /** Exactly the spellings of "http" in any mix of ASCII case, and the empty string, select
      HTTP; exactly those of "ftp" select FTP. */
  lemma TransportSpellings(m: string)
    ensures TransportOf(m) == Http <==>
              |m| == 0 || (|m| == 4 && m[0] in "Hh" && m[1] in "Tt" && m[2] in "Tt" && m[3] in "Pp")
    ensures TransportOf(m) == Ftp <==>
              |m| == 3 && m[0] in "Ff" && m[1] in "Tt" && m[2] in "Pp"
  {
    var u := ToUpper(m);
    if |m| == 4 && u == "HTTP" {
      assert UpperRune(m[0]) == 'H' && UpperRune(m[1]) == 'T' && UpperRune(m[2]) == 'T' && UpperRune(m[3]) == 'P';
    }
    if |m| == 3 && u == "FTP" {
      assert UpperRune(m[0]) == 'F' && UpperRune(m[1]) == 'T' && UpperRune(m[2]) == 'P';
    }
    if |m| == 4 && m[0] in "Hh" && m[1] in "Tt" && m[2] in "Tt" && m[3] in "Pp" {
      assert u == "HTTP";
    }
    if |m| == 3 && m[0] in "Ff" && m[1] in "Tt" && m[2] in "Pp" {
      assert u == "FTP";
    }
  }

  /** The text of `s` before the first `c` (all of it when there is none). */
  function Before(s: string, c: char): (r: string)
    ensures |r| <= |s| && r == s[..|r|] && c !in r
    ensures |r| < |s| ==> s[|r|] == c
  {
    if |s| == 0 || s[0] == c then [] else [s[0]] + Before(s[1..], c)
  }

  predicate IsSchemeChar(c: char) {
    IsAsciiLetter(c) || IsDigit(c) || c == '+' || c == '-' || c == '.'
  }

  /** A URL scheme: a letter followed by letters, digits, `+`, `-` or `.`. */
  predicate IsScheme(s: string) {
    |s| > 0 && IsAsciiLetter(s[0]) && forall k :: 0 <= k < |s| ==> IsSchemeChar(s[k])
  }

  /** The path component `url.Parse(u).Path` yields for the URLs a catalog holds:
      fragment and query dropped, then the scheme, then an authority introduced by "//";
      a scheme followed by something other than "/" is opaque and has no path. */
  function UrlPath(u: string): (p: string)
    ensures '#' !in p && '?' !in p
  {
    PathAfterScheme(Before(Before(u, '#'), '?'))
  }

  /** Without a scheme, `url.Parse` reads an authority only when the text does not start
      with "///"; with three slashes the whole text is the path. */
  function PathAfterScheme(s: string): (p: string)
    ensures |p| <= |s| && p == s[|s| - |p|..]
    ensures |s| >= 3 && s[..3] == "///" ==> p == s
  {
    var scheme := Before(s, ':');
    if |scheme| < |s| && IsScheme(scheme) then
      assert s[0] == scheme[0] != '/';
      var rest := s[|scheme| + 1..];
      var p := if |rest| > 0 && rest[0] == '/' then AuthorityPath(rest) else [];
      assert rest[|rest| - |p|..] == s[|s| - |p|..];
      p
    else if |s| >= 3 && s[..3] == "///" then s
    else AuthorityPath(s)
  }

  /** Drops a leading "//authority" up to (not including) the next "/". */
  function AuthorityPath(rest: string): (p: string)
    ensures |p| <= |rest| && p == rest[|rest| - |p|..]
  {
    if |rest| >= 2 && rest[..2] == "//" then
      var authority := Before(rest[2..], '/');
      rest[2 + |authority|..]
    else rest
  }

  /** Reading back the parts a URL was assembled from: the path of
      `scheme://host/path` is `/path` (no percent-escapes involved). */
  lemma UrlPathOfComposed(scheme: string, host: string, path: string)
    requires IsScheme(scheme)
    requires '/' !in host && '?' !in host && '#' !in host
    requires |path| > 0 && path[0] == '/' && '?' !in path && '#' !in path
    ensures UrlPath(scheme + "://" + host + path) == path
  {
    var u := scheme + "://" + host + path;
    SchemeChars(scheme);
    NoQueryOrFragment(scheme, host, path);
    NoCharBefore(u, '#');
    NoCharBefore(u, '?');
    var rest := "//" + host + path;
    assert u == scheme + ":" + rest;
    assert UrlPath(u) == PathAfterScheme(u);
    SchemeThenRest(scheme, rest);
    AuthorityPathOf(host, path);
  }

  /** A scheme-less URL that starts with three slashes is its own path: "///dist/x.zip"
      names the path "///dist/x.zip", not "/x.zip" below an empty authority. */
  lemma UrlPathOfTripleSlash(u: string)
    requires |u| >= 3 && u[..3] == "///" && '#' !in u && '?' !in u
    ensures UrlPath(u) == u
  {
    NoCharBefore(u, '#');
    NoCharBefore(u, '?');
  }

  lemma NoQueryOrFragment(scheme: string, host: string, path: string)
    requires '#' !in scheme && '?' !in scheme && '?' !in host && '#' !in host && '?' !in path && '#' !in path
    ensures var u := scheme + "://" + host + path; '#' !in u && '?' !in u
  {
    var u := scheme + "://" + host + path;
    forall k | 0 <= k < |u| ensures u[k] != '#' && u[k] != '?' {
      if k < |scheme| { assert u[k] == scheme[k]; }
      else if k < |scheme| + 3 { assert u[k] == "://"[k - |scheme|]; }
      else if k < |scheme| + 3 + |host| { assert u[k] == host[k - |scheme| - 3]; }
      else { assert u[k] == path[k - |scheme| - 3 - |host|]; }
    }
  }

  lemma SchemeThenRest(scheme: string, rest: string)
    requires IsScheme(scheme) && ':' !in scheme && |rest| > 0 && rest[0] == '/'
    ensures PathAfterScheme(scheme + ":" + rest) == AuthorityPath(rest)
  {
    var s := scheme + ":" + rest;
    assert s == scheme + (":" + rest);
    PrefixBefore(scheme, ':', ":" + rest);
    assert s[|scheme| + 1..] == rest;
  }

  lemma AuthorityPathOf(host: string, path: string)
    requires '/' !in host && |path| > 0 && path[0] == '/'
    ensures AuthorityPath("//" + host + path) == path
  {
    var rest := "//" + host + path;
    assert rest[..2] == "//";
    assert rest[2..] == host + path;
    PrefixBefore(host, '/', path);
  }

  lemma SchemeChars(scheme: string)
    requires IsScheme(scheme)
    ensures ':' !in scheme && '#' !in scheme && '?' !in scheme
  {
    forall k | 0 <= k < |scheme| ensures scheme[k] != ':' && scheme[k] != '#' && scheme[k] != '?' {
      assert IsSchemeChar(scheme[k]);
    }
  }

  lemma NoCharBefore(s: string, c: char)
    requires c !in s
    ensures Before(s, c) == s
  {
    if |s| > 0 {
      assert c !in s[1..];
      NoCharBefore(s[1..], c);
      assert [s[0]] + s[1..] == s;
    }
  }

  lemma {:induction false} PrefixBefore(a: string, c: char, b: string)
    requires c !in a && |b| > 0 && b[0] == c
    ensures Before(a + b, c) == a
    decreases |a|
  {
    if |a| == 0 {
      assert a + b == b;
    } else {
      assert (a + b)[1..] == a[1..] + b;
      assert c !in a[1..];
      PrefixBefore(a[1..], c, b);
      assert [a[0]] + a[1..] == a;
    }
  }

  /** Where an asset's download lands: the cache directory joined with the URL's base name. */
  function CachePathFor(cfg: Config, info: AssetInfo): Path {
    Join(Parse(cfg.cachePath), Base(info.url))
  }

  /** Two URLs with the same base name share one cache file. */
  lemma CachePathByBaseName(cfg: Config, a: AssetInfo, b: AssetInfo)
    requires Base(a.url) == Base(b.url)
    ensures CachePathFor(cfg, a) == CachePathFor(cfg, b)
  {
  }

  /** An ASCII control character. */
  predicate IsControl(c: char) { c < ' ' || c == '\U{7F}' }

  /** The rejections of `url.Parse` the model covers: a control character before the
      first `#`, or a `:` where the scheme would begin ("missing protocol scheme"). */
  predicate UrlRejected(u: string) {
    var s := Before(u, '#');
    (exists k :: 0 <= k < |s| && IsControl(s[k])) || (|s| > 0 && s[0] == ':')
  }

  /** The bytes the transport chosen for `info` delivers. */
  function Received(net: Network, info: AssetInfo): seq<byte> {
    match TransportOf(info.downloadMethod)
    case Http => net.http(info.url).body
    case Ftp => net.ftp(UrlPath(info.url)).body
    case Unsupported(_) => []
  }

  /** `DownloadToCache`: look the asset up, pick the transport, download into the cache
      path (the FTP downloader is given the URL's path), and report the cache path
      whether the transfer ran or was skipped. The error of `url.Parse` is discarded and
      its nil result dereferenced, so a URL it rejects panics on the FTP branch. */
  function DownloadToCache(fs: FS, cfg: Config, net: Network, name: string): (r: Located)
    ensures name !in cfg.catalog ==> r == Located(fs, Err(AssetNotFound(name)))
    ensures name in cfg.catalog && TransportOf(cfg.catalog[name].downloadMethod).Unsupported? ==>
              r == Located(fs, Err(UnknownTransport(ToUpper(cfg.catalog[name].downloadMethod))))
    ensures name in cfg.catalog && TransportOf(cfg.catalog[name].downloadMethod) == Ftp &&
            UrlRejected(cfg.catalog[name].url) ==>
              r == Located(fs, Err(RuntimePanic("nil pointer dereference")))
    ensures r.result.Ok? ==>
              && name in cfg.catalog
              && var local := CachePathFor(cfg, cfg.catalog[name]);
                 && r.result.value == local && local in r.fs && r.fs[local].File?
                 && (r.fs[local] == File(Received(net, cfg.catalog[name])) || (local in fs && r.fs[local] == fs[local]))
    ensures name in cfg.catalog ==> TouchesOnly(fs, r.fs, CachePathFor(cfg, cfg.catalog[name]))
    ensures name in cfg.catalog && r.result.Err? ==>
              var local := CachePathFor(cfg, cfg.catalog[name]);
              Keeps(fs, r.fs, local) || (local in r.fs && r.fs[local] == File(Received(net, cfg.catalog[name])))
  {
    if name !in cfg.catalog then Located(fs, Err(AssetNotFound(name)))
    else
      var info := cfg.catalog[name];
      var local := CachePathFor(cfg, info);
      var f :=
        match TransportOf(info.downloadMethod)
        case Http => DownloadHTTP(fs, net.http(info.url), local)
        case Ftp =>
          if UrlRejected(info.url) then Fetch(fs, Err(RuntimePanic("nil pointer dereference")))
          else DownloadFTP(fs, net.ftp(UrlPath(info.url)), local)
        case Unsupported(m) => Fetch(fs, Err(UnknownTransport(m)));
      match f.result
      case Ok(_) => Located(f.fs, Ok(local))
      case Err(e) => Located(f.fs, Err(e))
  }

  // ---------------------------------------------------------------------------
  // ProcessFromCache and Get

  /** `copyFile(src, dst)`: open `src`, create (truncate) `dst`, stream. Opening a
      directory succeeds but reading it fails, leaving `dst` empty; copying a file onto
      itself truncates it before the read, leaving it empty without an error. */
  function CopyFile(fs: FS, src: Path, dst: Path): (r: Applied)
    ensures !IsDir(fs, src) && src !in fs ==> r == Applied(fs, Fail(FilesystemError("open")))
    ensures r.outcome.Pass? ==>
              src in fs && fs[src].File? && dst in r.fs && r.fs[dst] == File(if src == dst then [] else fs[src].data)
    ensures forall q :: q != dst ==> (q in r.fs <==> q in fs) && (q in fs ==> r.fs[q] == fs[q])
  {
    if !IsDir(fs, src) && src !in fs then Applied(fs, Fail(FilesystemError("open")))
    else
      var content := if IsDir(fs, src) || src == dst then [] else fs[src].data;
      match CreateFile(fs, dst, content)
      case Err(e) => Applied(fs, Fail(e))
      case Ok(f) =>
        if IsDir(fs, src) then Applied(f, Fail(FilesystemError("read directory")))
        else Applied(f, Pass)
  }

  /** The directory an asset is installed into: the root joined with its destination. */
  function FinalDirFor(cfg: Config, info: AssetInfo): Path {
    Join(Parse(cfg.rootPath), info.destination)
  }

  /** Where a "file" asset is copied to: its URL's base name inside the final directory. */
  function InstalledFileFor(cfg: Config, info: AssetInfo): Path {
    Join(FinalDirFor(cfg, info), Base(info.url))
  }

  /** `ProcessFromCache`: create the final directory (even when the type then turns out to
      be unknown), then unpack a "zip" asset into it or copy a "file" asset to the URL's
      base name inside it. Type names are matched exactly. */
  function ProcessFromCache(fs: FS, cfg: Config, decode: Decoder, name: string, cachePath: Path): (r: Applied)
    ensures name !in cfg.catalog ==> r == Applied(fs, Fail(AssetNotFound(name)))
    ensures name in cfg.catalog ==>
              var info := cfg.catalog[name];
              var made := MkdirAll(fs, FinalDirFor(cfg, info));
              made.Err? ==> r == Applied(fs, Fail(made.error))
    ensures name in cfg.catalog ==>
              var info := cfg.catalog[name];
              var final := FinalDirFor(cfg, info);
              var made := MkdirAll(fs, final);
              made.Ok? ==>
                && (r.outcome.Pass? ==> info.kind in {"zip", "file"} && IsDir(r.fs, final))
                && (info.kind == "zip" ==> r == Unzip(made.value, OpenZip(fs, decode, cachePath), final))
                && (info.kind == "zip" ==> forall q :: q in fs ==> q in r.fs)
                && (info.kind == "file" ==> r == CopyFile(made.value, cachePath, InstalledFileFor(cfg, info)))
                && (info.kind !in {"zip", "file"} ==> r == Applied(made.value, Fail(UnknownArtifactType(info.kind))))
  {
    if name !in cfg.catalog then Applied(fs, Fail(AssetNotFound(name)))
    else
      var info := cfg.catalog[name];
      var final := FinalDirFor(cfg, info);
      match MkdirAll(fs, final)
      case Err(e) => Applied(fs, Fail(e))
      case Ok(f1) => InstallFromCache(fs, f1, info, final, decode, cachePath)
  }

  /** The type switch of `ProcessFromCache`, once the final directory exists. */
  function InstallFromCache(fs: FS, f1: FS, info: AssetInfo, final: Path, decode: Decoder, cachePath: Path): (r: Applied)
    requires AddsOnlyDirsOn(fs, f1, final) && IsDir(f1, final) && IsClean(final)
    ensures r.outcome.Pass? ==> info.kind in {"zip", "file"} && IsDir(r.fs, final)
    ensures info.kind == "zip" ==> r == Unzip(f1, OpenZip(fs, decode, cachePath), final)
    ensures info.kind == "zip" ==> forall q :: q in fs ==> q in r.fs
  {
    if info.kind == "zip" then
      UnzipKeepsDestination(f1, OpenZip(f1, decode, cachePath), final);
      OpenZipAfterMkdir(fs, f1, final, decode, cachePath);
      Unzip(f1, OpenZip(f1, decode, cachePath), final)
    else if info.kind == "file" then
      CopyFile(f1, cachePath, Join(final, Base(info.url)))
    else Applied(f1, Fail(UnknownArtifactType(info.kind)))
  }

  /** Unpacking into a directory that is clean and exists leaves it a directory. */
  lemma UnzipKeepsDestination(fs: FS, archive: Option<seq<Entry>>, dest: Path)
    requires IsDir(fs, dest) && IsClean(dest)
    ensures IsDir(Unzip(fs, archive, dest).fs, dest)
  {
    CleanIdempotent(dest);
  }

  /** Creating directories does not change what a cache file decodes to. */
  lemma OpenZipAfterMkdir(fs: FS, f1: FS, p: Path, decode: Decoder, src: Path)
    requires AddsOnlyDirsOn(fs, f1, p)
    ensures OpenZip(f1, decode, src) == OpenZip(fs, decode, src)
  {
  }

  /** A "file" asset that was processed successfully sits at its URL's base name in the
      final directory with the cached file's bytes (none when the two paths coincide, since
      the copy truncates its own source). */
  lemma ProcessedFileCopied(fs: FS, cfg: Config, decode: Decoder, name: string, cachePath: Path)
    requires name in cfg.catalog && cfg.catalog[name].kind == "file"
    requires ProcessFromCache(fs, cfg, decode, name, cachePath).outcome.Pass?
    ensures var t := InstalledFileFor(cfg, cfg.catalog[name]);
            var r := ProcessFromCache(fs, cfg, decode, name, cachePath).fs;
            cachePath in fs && fs[cachePath].File? &&
            t in r && r[t] == File(if cachePath == t then [] else fs[cachePath].data)
  {
    var f1 := MkdirAll(fs, FinalDirFor(cfg, cfg.catalog[name])).value;
    assert cachePath in f1 && f1[cachePath].File?;
  }

  /** A "zip" asset that was processed successfully has each of its file members that no
      later member overwrites in place below the final directory, holding its own bytes. */
  lemma ProcessedZipPlacesMember(fs: FS, cfg: Config, decode: Decoder, name: string, cachePath: Path,
                                 es: seq<Entry>, i: nat)
    requires name in cfg.catalog && cfg.catalog[name].kind == "zip"
    requires ProcessFromCache(fs, cfg, decode, name, cachePath).outcome.Pass?
    requires OpenZip(fs, decode, cachePath) == Some(es)
    requires i < |es| && !es[i].isDir
    requires var final := FinalDirFor(cfg, cfg.catalog[name]);
             forall j :: i < j < |es| ==> !WritesFileAt(final, es[j], Join(final, es[i].name))
    ensures var t := Join(FinalDirFor(cfg, cfg.catalog[name]), es[i].name);
            var r := ProcessFromCache(fs, cfg, decode, name, cachePath).fs;
            t in r && r[t] == File(es[i].data)
  {
    var final := FinalDirFor(cfg, cfg.catalog[name]);
    var f1 := MkdirAll(fs, final).value;
    UnzipWritesMember(f1, final, es, i);
  }

  /** `Get`: download into the cache, process from the cache, and answer the final
      directory. The first step's error is returned as it is, and so is the second's. */
  function Get(fs: FS, cfg: Config, net: Network, decode: Decoder, name: string): (r: Located)
    ensures name !in cfg.catalog ==> r == Located(fs, Err(AssetNotFound(name)))
    ensures var c := DownloadToCache(fs, cfg, net, name);
            c.result.Err? ==> r == Located(c.fs, Err(c.result.error))
    ensures var c := DownloadToCache(fs, cfg, net, name);
            c.result.Ok? ==>
              var p := ProcessFromCache(c.fs, cfg, decode, name, c.result.value);
              && r.fs == p.fs
              && (r.result.Ok? <==> p.outcome.Pass?)
              && (p.outcome.Fail? ==> r.result == Err(p.outcome.error))
    ensures r.result.Ok? ==> name in cfg.catalog && r.result.value == FinalDirFor(cfg, cfg.catalog[name])
                             && IsDir(r.fs, r.result.value)
  {
    var c := DownloadToCache(fs, cfg, net, name);
    match c.result
    case Err(e) => Located(c.fs, Err(e))
    case Ok(cachePath) =>
      var p := ProcessFromCache(c.fs, cfg, decode, name, cachePath);
      if p.outcome.Fail? then Located(p.fs, Err(p.outcome.error))
      else Located(p.fs, Ok(FinalDirFor(cfg, cfg.catalog[name])))
  }

  /** End to end: a "file" asset fetched over HTTP with no copy in the cache ends up in its
      final directory holding exactly the bytes the server sent, whenever `Get` succeeds
      and the cache file is not itself the installed file. */
  lemma GetDeliversDownloadedFile(fs: FS, cfg: Config, net: Network, decode: Decoder, name: string)
    requires name in cfg.catalog && cfg.catalog[name].kind == "file"
    requires TransportOf(cfg.catalog[name].downloadMethod) == Http
    requires CachePathFor(cfg, cfg.catalog[name]) !in fs
    requires CachePathFor(cfg, cfg.catalog[name]) != InstalledFileFor(cfg, cfg.catalog[name])
    requires Get(fs, cfg, net, decode, name).result.Ok?
    ensures var t := InstalledFileFor(cfg, cfg.catalog[name]);
            var r := Get(fs, cfg, net, decode, name).fs;
            t in r && r[t] == File(net.http(cfg.catalog[name].url).body)
  {
    var info := cfg.catalog[name];
    var local := CachePathFor(cfg, info);
    var d := DownloadHTTP(fs, net.http(info.url), local);
    assert d.result == Ok(false);
    var c := DownloadToCache(fs, cfg, net, name);
    assert c.fs == d.fs && c.result == Ok(local);
    ProcessedFileCopied(c.fs, cfg, decode, name, local);
  }

  // ---------------------------------------------------------------------------
  // ListFTP

  /** The entry kinds the FTP client library reports. */
  datatype EntryKind = EntryFile | EntryFolder | EntryLink

  datatype RemoteEntry = RemoteEntry(name: string, kind: EntryKind)

  /** `core.FTPEntry`: the name and the kind as the library's integer code. */
  datatype FtpEntry = FtpEntry(name: string, code: nat)

  /** The library's numbering of entry kinds. */
  function KindCode(k: EntryKind): (c: nat)
    ensures c < 3
  {
    match k case EntryFile => 0 case EntryFolder => 1 case EntryLink => 2
  }

  function KindOfCode(c: nat): Option<EntryKind> {
    if c == 0 then Some(EntryFile) else if c == 1 then Some(EntryFolder)
    else if c == 2 then Some(EntryLink) else None
  }

  /** The code of a kind decodes back to it, so distinct kinds get distinct codes. */
  lemma KindCodeRoundTrip(k: EntryKind)
    ensures KindOfCode(KindCode(k)) == Some(k)
  {
  }

  /** `ListFTP`: dial, login and `LIST` may each fail; otherwise every listed entry is
      reported, in order, with its name and kind code. */
  function ListFTP(dialOk: bool, loginOk: bool, listing: Result<seq<RemoteEntry>>): (r: Result<seq<FtpEntry>>)
    ensures r.Ok? <==> dialOk && loginOk && listing.Ok?
    ensures r.Ok? ==>
              && |r.value| == |listing.value|
              && forall i :: 0 <= i < |r.value| ==>
                   r.value[i].name == listing.value[i].name && KindOfCode(r.value[i].code) == Some(listing.value[i].kind)
  {
    if !dialOk then Err(NetworkError("dial failed"))
    else if !loginOk then Err(NetworkError("login failed"))
    else match listing
      case Err(e) => Err(e)
      case Ok(es) => Ok(seq(|es|, i requires 0 <= i < |es| => FtpEntry(es[i].name, KindCode(es[i].kind))))
  }
}

=== FILE: filesystem.dfy ===
/** The local disk as a finite map from clean paths to nodes, with the operations the
    tool uses: `os.MkdirAll`, `os.Create`/`os.OpenFile(O_TRUNC)` followed by a full write, `os.ReadFile` and
    `os.Remove`. A path with no segments (a drive root, or "." for relative paths) always
    exists as a directory. */
module FileSystem {
  import opened Wrappers
  import opened Paths

  newtype byte = b: int | 0 <= b < 256

  datatype Node = Dir | File(data: seq<byte>)

  type FS = map<Path, Node>

  /** `os.Stat(p)` succeeds and reports a directory. */
  predicate IsDir(fs: FS, p: Path) {
    |p.segs| == 0 || (p in fs && fs[p].Dir?)
  }

  /** The size `os.Stat` reports: a file's length, 0 for a directory. */
  function SizeOf(n: Node): nat {
    if n.File? then |n.data| else 0
  }

  /** `fs2` keeps every entry of `fs` and only adds directories on ancestors-or-self of `p`. */
  predicate AddsOnlyDirsOn(fs: FS, fs2: FS, p: Path) {
    && (forall q :: q in fs ==> q in fs2 && fs2[q] == fs[q])
    && (forall q :: q in fs2 && q !in fs ==> fs2[q] == Dir && IsPrefixOf(q, p) && |q.segs| > 0)
  }

  /** `os.MkdirAll(p)`: walking up from `p`, the first existing ancestor-or-self decides: a
      directory means create everything below it, a file means fail and create nothing. */
  function MkdirAll(fs: FS, p: Path): (r: Result<FS>)
    ensures r.Ok? ==> AddsOnlyDirsOn(fs, r.value, p) && IsDir(r.value, p)
    ensures r.Err? ==> exists q :: IsPrefixOf(q, p) && q in fs && fs[q].File?
    ensures r.Err? ==> r.error.FilesystemError?
    decreases |p.segs|
  {
    if |p.segs| == 0 then Ok(fs)
    else if p in fs then
      if fs[p].Dir? then Ok(fs) else Err(FilesystemError("not a directory"))
    else
      match MkdirAll(fs, Parent(p))
      case Err(e) => PrefixOfParent(p); Err(e)
      case Ok(fs1) => PrefixOfParent(p); Ok(fs1[p := Dir])
  }

  /** An ancestor-or-self of the parent is an ancestor-or-self of the path. */
  lemma PrefixOfParent(p: Path)
    requires |p.segs| > 0
    ensures forall q :: IsPrefixOf(q, Parent(p)) ==> IsPrefixOf(q, p)
    ensures IsPrefixOf(p, p)
  {
  }

  /** `os.Create(p)` (or `os.OpenFile` with `O_CREATE|O_TRUNC`) followed by a complete
      write of `data`: fails when `p` is a directory or its parent is not one. */
  function CreateFile(fs: FS, p: Path, data: seq<byte>): (r: Result<FS>)
    ensures r.Ok? <==> |p.segs| > 0 && !(p in fs && fs[p].Dir?) && IsDir(fs, Parent(p))
    ensures r.Ok? ==> r.value == fs[p := File(data)]
    ensures r.Err? ==> r.error.FilesystemError?
  {
    if |p.segs| == 0 || (p in fs && fs[p].Dir?) then Err(FilesystemError("is a directory"))
    else if !IsDir(fs, Parent(p)) then Err(FilesystemError("parent missing"))
    else Ok(fs[p := File(data)])
  }

  /** `os.ReadFile(p)` / `os.Open` plus a full read. */
  function ReadFile(fs: FS, p: Path): (r: Result<seq<byte>>)
    ensures r.Ok? <==> p in fs && fs[p].File?
    ensures r.Ok? ==> r.value == fs[p].data
  {
    if p in fs && fs[p].File? then Ok(fs[p].data) else Err(FilesystemError("cannot open"))
  }

  /** `os.Remove(p)` on Windows with its error ignored, as every caller in the tool does.
      Go opens files without `FILE_SHARE_DELETE`, so while the calling process still holds
      `p` open (`open`) the deletion is refused and the disk stays as it was. */
  function Remove(fs: FS, p: Path, open: bool): (r: FS)
    ensures open ==> r == fs
    ensures !open ==> p !in r
    ensures forall q :: q != p ==> (q in r <==> q in fs) && (q in r ==> r[q] == fs[q])
  {
    if open then fs else fs - {p}
  }
}

=== FILE: frpc.dfy ===
/** The FRP client module (modules/frpc/frpc.go): finding the executables inside the
    downloaded zips, choosing a free remote port, appending a proxy section to frpc.ini,
    reading back the remote ports frpc.ini already claims, and registering the client as a
    service through nssm. The FRPS admin API, stdin, the disk reads of frpc.ini and the
    child processes arrive as values. */
module Frpc {
  import opened Wrappers
  import opened Text
  import opened Paths
  import opened FileSystem
  import opened Archive
  import opened WinUtils
  import AssetManager

  // ---------------------------------------------------------------------------
  // findPathInZip

  /** A file member (directories are skipped) whose slash-normalised name ends with `suffix`.
      The test is on characters, not on path segments: "xfrpc.exe" ends with "frpc.exe". */
  predicate EndsWith(e: Entry, suffix: string) {
    !e.isDir && HasSuffix(ToSlash(e.name), suffix)
  }

  function FirstEndingWith(es: seq<Entry>, suffix: string): (r: Option<nat>)
    ensures r.Some? ==> r.value < |es| && EndsWith(es[r.value], suffix)
    ensures r.Some? ==> forall j :: 0 <= j < r.value ==> !EndsWith(es[j], suffix)
    ensures r.None? <==> forall j :: 0 <= j < |es| ==> !EndsWith(es[j], suffix)
  {
    if |es| == 0 then None
    else if EndsWith(es[0], suffix) then Some(0)
    else match FirstEndingWith(es[1..], suffix)
      case None => None
      case Some(i) => Some(i + 1)
  }

  /** `findPathInZip`: the original (unnormalised) name of the first file member whose
      slash-normalised name ends with the slash-normalised suffix. */
  function FindPathInZip(archive: Option<seq<Entry>>, suffix: string): (r: Result<string>)
    ensures archive.None? ==> r == Err(BadArchive)
    ensures archive.Some? ==>
              (r.Ok? <==> exists i :: 0 <= i < |archive.value| && EndsWith(archive.value[i], ToSlash(suffix)))
    ensures archive.Some? && r.Err? ==> r.error == ArchiveMemberNotFound(ToSlash(suffix))
    ensures r.Ok? ==> (archive.Some? &&
              exists i :: (0 <= i < |archive.value| && EndsWith(archive.value[i], ToSlash(suffix))
                           && archive.value[i].name == r.value
                           && forall j :: 0 <= j < i ==> !EndsWith(archive.value[j], ToSlash(suffix))))
  {
    match archive
    case None => Err(BadArchive)
    case Some(es) =>
      match FirstEndingWith(es, ToSlash(suffix))
      case None => Err(ArchiveMemberNotFound(ToSlash(suffix)))
      case Some(i) => Ok(es[i].name)
  }

  /** The name `FindPathInZip` returns is one `ExtractFile` finds: the member it then copies
      carries the same slash-normalised name, so that name ends with the suffix too. */
  lemma FoundMemberIsExtractable(fs: FS, es: seq<Entry>, suffix: string, dest: Path)
    requires FindPathInZip(Some(es), suffix).Ok?
    ensures var n := FindPathInZip(Some(es), suffix).value;
            var i := FirstNamed(es, ToSlash(n));
            && i.Some?
            && HasSuffix(ToSlash(es[i.value].name), ToSlash(suffix))
            && !(ExtractFile(fs, Some(es), n, dest).outcome.Fail? &&
                 ExtractFile(fs, Some(es), n, dest).outcome.error.ArchiveMemberNotFound?)
  {
    var n := FindPathInZip(Some(es), suffix).value;
    var k := FirstEndingWith(es, ToSlash(suffix)).value;
    assert es[k].name == n;
    assert ToSlash(es[k].name) == ToSlash(n);
    var i := FirstNamed(es, ToSlash(n));
    assert i.Some?;
    assert ToSlash(es[i.value].name) == ToSlash(es[k].name);
    assert EndsWith(es[k], ToSlash(suffix));
  }

  // ---------------------------------------------------------------------------
  // The install directory

  /** The files the module keeps in its install directory, as `filepath.Join` names them. */
  datatype InstallFiles = InstallFiles(dir: string, nssmExe: string, frpcExe: string, frpcIni: string, frpcLog: string)

  function FilesIn(installPath: string): (r: InstallFiles)
    ensures r.dir == installPath
  {
    InstallFiles(installPath, JoinString(installPath, "nssm.exe"), JoinString(installPath, "frpc.exe"),
                 JoinString(installPath, "frpc.ini"), JoinString(installPath, "frpc.log"))
  }

  // ---------------------------------------------------------------------------
  // downloadAndExtractComponents

  /** One half of `downloadAndExtractComponents`: download a zip into the cache, locate the
      member by suffix and copy it to the install directory. */
  function FetchMember(fs: FS, decode: Decoder, reply: AssetManager.HttpReply, zip: Path,
                       suffix: string, dest: Path): (r: Applied)
    ensures r.outcome.Pass? ==>
              && AssetManager.DownloadHTTP(fs, reply, zip).result.Ok?
              && var es := OpenZip(AssetManager.DownloadHTTP(fs, reply, zip).fs, decode, zip);
                 es.Some? && Clean(dest) in r.fs &&
                 exists i :: 0 <= i < |es.value| && HasSuffix(ToSlash(es.value[i].name), ToSlash(suffix))
                   && r.fs[Clean(dest)] == File(es.value[i].data)
  {
    var d := AssetManager.DownloadHTTP(fs, reply, zip);
    match d.result
    case Err(e) => Applied(d.fs, Fail(e))
    case Ok(_) =>
      var es := OpenZip(d.fs, decode, zip);
      match FindPathInZip(es, suffix)
      case Err(e) => Applied(d.fs, Fail(e))
      case Ok(n) =>
        FoundMemberIsExtractable(d.fs, es.value, suffix, dest);
        ExtractFile(d.fs, es, n, dest)
  }

  /** `downloadAndExtractComponents`: frpc.exe from frpc.zip, then nssm.exe from the
      `win64` or `win32` folder of nssm.zip, both into the install directory; the first
      failure stops the rest. */
  function DownloadAndExtract(fs: FS, decode: Decoder, cachePath: string, files: InstallFiles,
                              frpcReply: AssetManager.HttpReply, nssmReply: AssetManager.HttpReply,
                              is64: bool): (r: Applied)
    ensures r.outcome.Pass? ==>
              FetchMember(fs, decode, frpcReply, Join(Parse(cachePath), "frpc.zip"), "frpc.exe",
                          Parse(files.frpcExe)).outcome.Pass?
    ensures r.outcome.Pass? ==> Clean(Parse(files.nssmExe)) in r.fs
    ensures FetchMember(fs, decode, frpcReply, Join(Parse(cachePath), "frpc.zip"), "frpc.exe",
                        Parse(files.frpcExe)).outcome.Fail? ==>
              r == FetchMember(fs, decode, frpcReply, Join(Parse(cachePath), "frpc.zip"), "frpc.exe",
                               Parse(files.frpcExe))
  {
    var first := FetchMember(fs, decode, frpcReply, Join(Parse(cachePath), "frpc.zip"), "frpc.exe",
                             Parse(files.frpcExe));
    if first.outcome.Fail? then first
    else
      var arch := if is64 then "win64" else "win32";
      FetchMember(first.fs, decode, nssmReply, Join(Parse(cachePath), "nssm.zip"), arch + "\\nssm.exe",
                  Parse(files.nssmExe))
  }

  // ---------------------------------------------------------------------------
  // findFreePort

  /** A proxy as the FRPS admin API reports it; `remotePort` is absent when `conf` is null. */
  datatype Proxy = Proxy(name: string, status: string, remotePort: Option<int>)

  datatype PortSearch =
    | Found(port: int)
    | Failed(error: Error)
    | AwaitingInput   // offline proxies exist and no answer so far was a number
    | Panicked        // the configured range has no '-' and `parts[1]` is out of bounds

  predicate HasOffline(ps: seq<Proxy>) {
    exists i :: 0 <= i < |ps| && ps[i].status == "offline"
  }

  /** Remote ports the server knows of, plus those frpc.ini already claims. */
  function UsedPorts(ps: seq<Proxy>, local: seq<int>): set<int> {
    (set i | 0 <= i < |ps| && ps[i].remotePort.Some? :: ps[i].remotePort.value) + (set p | p in local)
  }

  /** A line the manual-entry loop accepts: an integer once trimmed. */
  predicate IsNumber(line: string) { Atoi(TrimSpace(line)).Some? }

  /** The index of the first element satisfying `f`. */
  function FirstWhere<T>(s: seq<T>, f: T -> bool): (r: Option<nat>)
    ensures r.Some? ==> r.value < |s| && f(s[r.value])
    ensures r.Some? ==> forall j :: 0 <= j < r.value ==> !f(s[j])
    ensures r.None? <==> forall j :: 0 <= j < |s| ==> !f(s[j])
  {
    if |s| == 0 then None
    else if f(s[0]) then Some(0)
    else
      match FirstWhere(s[1..], f)
      case None => None
      case Some(i) => Some(i + 1)
  }

  /** The index of the first answer that reads as an integer once trimmed. */
  function FirstNumber(answers: seq<string>): (r: Option<nat>)
    ensures r.Some? ==> r.value < |answers| && IsNumber(answers[r.value])
    ensures r.Some? ==> forall j :: 0 <= j < r.value ==> !IsNumber(answers[j])
    ensures r.None? <==> forall j :: 0 <= j < |answers| ==> !IsNumber(answers[j])
  {
    FirstWhere(answers, IsNumber)
  }

  /** The manual-entry loop: re-prompt until a line is an integer, and take it as it is,
      without a range check (negative numbers included). */
  function ManualPort(answers: seq<string>): (r: Option<int>)
    ensures r.None? <==> forall j :: 0 <= j < |answers| ==> !IsNumber(answers[j])
    ensures r.Some? ==> exists i :: 0 <= i < |answers| && Atoi(TrimSpace(answers[i])) == r
  {
    match FirstNumber(answers)
    case None => None
    case Some(i) => Atoi(TrimSpace(answers[i]))
  }

  /** `port_range` split at '-': the first two pieces read with errors ignored; None when
      there is no '-' at all. */
  function RangeBounds(portRange: string): (r: Option<(int, int)>)
    ensures r.None? <==> '-' !in portRange
    ensures r.Some? ==> MinInt64 <= r.value.0 <= MaxInt64 && MinInt64 <= r.value.1 <= MaxInt64
  {
    var parts := Split(portRange, '-');
    SplitSeveralIff(portRange, '-');
    if |parts| < 2 then None else Some((AtoiLenient(parts[0]), AtoiLenient(parts[1])))
  }

  /** "8000-9000" gives (8000, 9000): two decimal bounds round-trip through the range. */
  lemma RangeOfBounds(a: string, b: string)
    requires |a| > 0 && AllDigits(a) && DigitsValue(a) <= MaxInt64
    requires |b| > 0 && AllDigits(b) && DigitsValue(b) <= MaxInt64
    ensures RangeBounds(a + "-" + b) == Some((DigitsValue(a), DigitsValue(b)))
  {
    assert '-' !in a by { forall k | 0 <= k < |a| ensures a[k] != '-' { assert IsDigit(a[k]); } }
    assert '-' !in b by { forall k | 0 <= k < |b| ensures b[k] != '-' { assert IsDigit(b[k]); } }
    assert a + "-" + b == a + ['-'] + b;
    SplitLeading(a, '-', b);
    SplitOfFree(b, '-');
  }

  /** The range scan: the smallest port in [lo, hi] not in `used`, None when all are. */
  function ScanPorts(lo: int, hi: int, used: set<int>): (r: Option<int>)
    ensures r.Some? ==> lo <= r.value <= hi && r.value !in used
    ensures r.Some? ==> forall q :: lo <= q < r.value ==> q in used
    ensures r.None? <==> forall q :: lo <= q <= hi ==> q in used
    decreases hi - lo + 1
  {
    if lo > hi then None
    else if lo !in used then Some(lo)
    else ScanPorts(lo + 1, hi, used)
  }

  /** The members of `used` at or above `p`. */
  function UsedFrom(used: set<int>, p: int): set<int> {
    set q | q in used && q >= p
  }

  lemma UsedFromShrinks(used: set<int>, p: int)
    requires p in used
    ensures |UsedFrom(used, p + 1)| < |UsedFrom(used, p)|
  {
    assert UsedFrom(used, p) == UsedFrom(used, p + 1) + {p};
  }

  /** The first integer at or above `p` not in `used` (one always exists: `used` is finite). */
  function FirstUnusedFrom(p: int, used: set<int>): (r: int)
    ensures r >= p && r !in used
    ensures forall q :: p <= q < r ==> q in used
    decreases |UsedFrom(used, p)|
  {
    if p !in used then p
    else
      UsedFromShrinks(used, p);
      FirstUnusedFrom(p + 1, used)
  }

  /** The scan as the Go loop runs it on 64-bit `int`: when `hi` is the largest int,
      `port <= hi` never fails and `port++` wraps to the smallest int, so an exhausted
      range still yields a port, one far outside the range. */
  function ScanPortsAsWritten(lo: int, hi: int, used: set<int>): (r: Option<int>)
    requires hi <= MaxInt64
    ensures hi == MaxInt64 && lo <= hi ==> r.Some?
    ensures r.Some? && !(lo <= r.value <= hi) ==> ScanPorts(lo, hi, used).None?
    ensures ScanPorts(lo, hi, used).Some? ==> r == ScanPorts(lo, hi, used)
  {
    match ScanPorts(lo, hi, used)
    case Some(p) => Some(p)
    case None => if hi == MaxInt64 && lo <= hi then Some(FirstUnusedFrom(MinInt64, used)) else None
  }

  /** The wrap-around: with the range "9223372036854775807-9223372036854775807" and that
      port taken, the loop returns -9223372036854775808 where an error was meant. */
  lemma ScanWrapsAround()
    ensures ScanPorts(MaxInt64, MaxInt64, {MaxInt64}) == None
    ensures ScanPortsAsWritten(MaxInt64, MaxInt64, {MaxInt64}) == Some(MinInt64)
  {
    assert MinInt64 !in {MaxInt64};
  }

  /** `findFreePort`: an API failure is returned; any offline proxy switches to manual
      entry; otherwise the smallest port of the configured range that neither the server nor
      frpc.ini uses. The range scan is the corrected `ScanPorts`. */
  function FindFreePort(api: Result<seq<Proxy>>, localIni: Option<string>, portRange: string,
                        answers: seq<string>): (r: PortSearch)
    ensures api.Err? ==> r == Failed(api.error)
    ensures api.Ok? && HasOffline(api.value) ==>
              (r.Found? <==> ManualPort(answers).Some?) &&
              (r.Found? ==> ManualPort(answers) == Some(r.port)) &&
              (!r.Found? ==> r == AwaitingInput)
    ensures api.Ok? && !HasOffline(api.value) ==> (r == Panicked <==> '-' !in portRange)
    ensures api.Ok? && !HasOffline(api.value) && r.Found? ==>
              var used := UsedPorts(api.value, LocalUsedPorts(localIni));
              var (lo, hi) := RangeBounds(portRange).value;
              && lo <= r.port <= hi && r.port !in used
              && forall q :: lo <= q < r.port ==> q in used
    ensures api.Ok? && !HasOffline(api.value) && RangeBounds(portRange).Some? ==>
              var used := UsedPorts(api.value, LocalUsedPorts(localIni));
              var (lo, hi) := RangeBounds(portRange).value;
              && (r.Failed? <==> forall q :: lo <= q <= hi ==> q in used)
              && (r.Failed? ==> r.error == NoFreePort)
              && (r.Failed? || r.Found?)
  {
    match api
    case Err(e) => Failed(e)
    case Ok(ps) =>
      if HasOffline(ps) then
        match ManualPort(answers)
        case None => AwaitingInput
        case Some(p) => Found(p)
      else
        var used := UsedPorts(ps, LocalUsedPorts(localIni));
        match RangeBounds(portRange)
        case None => Panicked
        case Some((lo, hi)) =>
          match ScanPorts(lo, hi, used)
          case None => Failed(NoFreePort)
          case Some(p) => Found(p)
  }

  // ---------------------------------------------------------------------------
  // getLocalUsedPorts: the pattern ^\s*remote_port\s*=\s*(\d+)

  /** RE2's `\s`: tab, newline, form feed, carriage return and space. */
  predicate IsRe2Space(c: char) {
    c == ' ' || c == '\t' || c == '\n' || c == '\r' || c == '\U{C}'
  }

  predicate AllRe2Space(s: string) { forall k :: 0 <= k < |s| ==> IsRe2Space(s[k]) }

  function DropSpaces(s: string): (r: string)
    ensures |r| <= |s| && r == s[|s| - |r|..]
    ensures forall k :: 0 <= k < |s| - |r| ==> IsRe2Space(s[k])
    ensures r == [] || !IsRe2Space(r[0])
  {
    if |s| > 0 && IsRe2Space(s[0]) then DropSpaces(s[1..]) else s
  }

  const RemotePortKey := "remote_port"

  /** The captured digits of the pattern in one line, or None when the line does not match.
      `\d+` is greedy, so the capture is the whole digit run after `=`. The matcher is
      layered like the pattern: leading space, key, space, `=`, space, digits. */
  function RemotePortDigits(line: string): (r: Option<string>)
    ensures r.Some? ==> |r.value| > 0 && AllDigits(r.value)
  {
    KeyThenValue(DropSpaces(line))
  }

  function KeyThenValue(a: string): (r: Option<string>)
    ensures r.Some? ==> |r.value| > 0 && AllDigits(r.value)
  {
    if !HasPrefix(a, RemotePortKey) then None else EqualsThenValue(DropSpaces(a[|RemotePortKey|..]))
  }

  function EqualsThenValue(b: string): (r: Option<string>)
    ensures r.Some? ==> |r.value| > 0 && AllDigits(r.value)
  {
    if |b| == 0 || b[0] != '=' then None else DigitsOf(DropSpaces(b[1..]))
  }

  function DigitsOf(c: string): (r: Option<string>)
    ensures r.Some? ==> |r.value| > 0 && AllDigits(r.value) && HasPrefix(c, r.value)
    ensures r.Some? ==> |r.value| == |c| || !IsDigit(c[|r.value|])
    ensures r.None? <==> c == [] || !IsDigit(c[0])
  {
    var d := LeadingDigits(c);
    if |d| == 0 then None else Some(d)
  }

  /** A line of the pattern's shape, assembled from its parts. */
  function Assembled(ws1: string, ws2: string, ws3: string, d: string, rest: string): string {
    ws1 + (RemotePortKey + (ws2 + ("=" + (ws3 + (d + rest)))))
  }

  /** A line that matches the pattern, with the parts the match decomposes it into. */
  predicate MatchesAs(line: string, ws1: string, ws2: string, ws3: string, d: string, rest: string) {
    && AllRe2Space(ws1) && AllRe2Space(ws2) && AllRe2Space(ws3)
    && |d| > 0 && AllDigits(d) && (rest == [] || !IsDigit(rest[0]))
    && line == Assembled(ws1, ws2, ws3, d, rest)
  }

  lemma {:induction false} DropSpacesOver(ws: string, x: string)
    requires AllRe2Space(ws) && (x == [] || !IsRe2Space(x[0]))
    ensures DropSpaces(ws + x) == x
    decreases |ws|
  {
    if |ws| == 0 {
      assert ws + x == x;
    } else {
      assert (ws + x)[1..] == ws[1..] + x;
      DropSpacesOver(ws[1..], x);
    }
  }

  lemma KeyThenValueOver(ws2: string, b: string)
    requires AllRe2Space(ws2) && (b == [] || !IsRe2Space(b[0]))
    ensures KeyThenValue(RemotePortKey + (ws2 + b)) == EqualsThenValue(b)
  {
    var a := RemotePortKey + (ws2 + b);
    assert a[..|RemotePortKey|] == RemotePortKey;
    assert a[|RemotePortKey|..] == ws2 + b;
    DropSpacesOver(ws2, b);
  }

  lemma EqualsThenValueOver(ws3: string, c: string)
    requires AllRe2Space(ws3) && (c == [] || !IsRe2Space(c[0]))
    ensures EqualsThenValue("=" + (ws3 + c)) == DigitsOf(c)
  {
    assert ("=" + (ws3 + c))[1..] == ws3 + c;
    DropSpacesOver(ws3, c);
  }

  lemma ValueComplete(ws3: string, d: string, rest: string)
    requires AllRe2Space(ws3)
    requires |d| > 0 && AllDigits(d) && (rest == [] || !IsDigit(rest[0]))
    ensures EqualsThenValue("=" + (ws3 + (d + rest))) == Some(d)
  {
    var c := d + rest;
    assert IsDigit(c[0]);
    EqualsThenValueOver(ws3, c);
    LeadingDigitsOver(d, rest);
  }

  lemma KeyComplete(ws2: string, ws3: string, d: string, rest: string)
    requires AllRe2Space(ws2) && AllRe2Space(ws3)
    requires |d| > 0 && AllDigits(d) && (rest == [] || !IsDigit(rest[0]))
    ensures KeyThenValue(RemotePortKey + (ws2 + ("=" + (ws3 + (d + rest))))) == Some(d)
  {
    KeyThenValueOver(ws2, "=" + (ws3 + (d + rest)));
    ValueComplete(ws3, d, rest);
  }

  /** Every line of the pattern's shape reports exactly its digit run. */
  lemma RemotePortDigitsComplete(line: string, ws1: string, ws2: string, ws3: string, d: string, rest: string)
    requires MatchesAs(line, ws1, ws2, ws3, d, rest)
    ensures RemotePortDigits(line) == Some(d)
  {
    var a := RemotePortKey + (ws2 + ("=" + (ws3 + (d + rest))));
    assert line == ws1 + a;
    assert a[0] == 'r';
    DropSpacesOver(ws1, a);
    KeyComplete(ws2, ws3, d, rest);
  }

  lemma PrefixSplit(a: string, k: string)
    requires HasPrefix(a, k)
    ensures a == k + a[|k|..]
  {
    assert a[..|k|] == k;
  }

  lemma KeyThenValueSound(a: string) returns (ws2: string, b: string)
    requires KeyThenValue(a).Some?
    ensures AllRe2Space(ws2) && a == RemotePortKey + (ws2 + b) && EqualsThenValue(b) == KeyThenValue(a)
  {
    PrefixSplit(a, RemotePortKey);
    var a2 := a[|RemotePortKey|..];
    b := DropSpaces(a2);
    ws2 := SpacesDropped(a2);
  }

  /** A string whose first character is `c` is `[c]` followed by the rest. */
  lemma HeadSplit(b: string, c: char)
    requires |b| > 0 && b[0] == c
    ensures b == [c] + b[1..]
  {
  }

  lemma EqualsThenValueSound(b: string) returns (ws3: string, c: string)
    requires EqualsThenValue(b).Some?
    ensures AllRe2Space(ws3) && b == "=" + (ws3 + c) && DigitsOf(c) == EqualsThenValue(b)
  {
    var b2 := b[1..];
    c := DropSpaces(b2);
    ws3 := SpacesDropped(b2);
    HeadSplit(b, '=');
    assert "=" == ['='];
  }

  lemma ValueSound(b: string) returns (ws3: string, rest: string)
    requires EqualsThenValue(b).Some?
    ensures var d := EqualsThenValue(b).value;
            AllRe2Space(ws3) && b == "=" + (ws3 + (d + rest)) && (rest == [] || !IsDigit(rest[0]))
  {
    var c;
    ws3, c := EqualsThenValueSound(b);
    var d := DigitsOf(c).value;
    PrefixSplit(c, d);
    rest := c[|d|..];
    assert rest == [] || rest[0] == c[|d|];
  }

  lemma KeySound(a: string) returns (ws2: string, ws3: string, rest: string)
    requires KeyThenValue(a).Some?
    ensures var d := KeyThenValue(a).value;
            && AllRe2Space(ws2) && AllRe2Space(ws3) && (rest == [] || !IsDigit(rest[0]))
            && a == RemotePortKey + (ws2 + ("=" + (ws3 + (d + rest))))
  {
    var b;
    ws2, b := KeyThenValueSound(a);
    ws3, rest := ValueSound(b);
  }

  /** Every reported digit run comes from a line of the pattern's shape. */
  lemma RemotePortDigitsSound(line: string) returns (ws1: string, ws2: string, ws3: string, rest: string)
    requires RemotePortDigits(line).Some?
    ensures MatchesAs(line, ws1, ws2, ws3, RemotePortDigits(line).value, rest)
  {
    var a := DropSpaces(line);
    ws1 := SpacesDropped(line);
    ws2, ws3, rest := KeySound(a);
  }

  /** The run of spaces `DropSpaces` removes. */
  lemma SpacesDropped(s: string) returns (ws: string)
    ensures AllRe2Space(ws) && s == ws + DropSpaces(s)
  {
    var r := DropSpaces(s);
    ws := s[..|s| - |r|];
    assert s == ws + r;
  }

  /** Appending to a line of the pattern's shape appends to its tail. */
  lemma AssembledAppend(ws1: string, ws2: string, ws3: string, d: string, rest: string, x: string)
    ensures Assembled(ws1, ws2, ws3, d, rest) + x == Assembled(ws1, ws2, ws3, d, rest + x)
  {
    Nest6Append(ws1, RemotePortKey, ws2, "=", ws3, d, rest, x);
  }

  lemma Nest6Append(p1: string, p2: string, p3: string, p4: string, p5: string, p6: string,
                    rest: string, x: string)
    ensures (p1 + (p2 + (p3 + (p4 + (p5 + (p6 + rest)))))) + x
         == p1 + (p2 + (p3 + (p4 + (p5 + (p6 + (rest + x))))))
  {
    assert (p6 + rest) + x == p6 + (rest + x);
    assert (p5 + (p6 + rest)) + x == p5 + ((p6 + rest) + x);
    assert (p4 + (p5 + (p6 + rest))) + x == p4 + ((p5 + (p6 + rest)) + x);
    assert (p3 + (p4 + (p5 + (p6 + rest)))) + x == p3 + ((p4 + (p5 + (p6 + rest))) + x);
    assert (p2 + (p3 + (p4 + (p5 + (p6 + rest))))) + x == p2 + ((p3 + (p4 + (p5 + (p6 + rest)))) + x);
  }

  /** The part of an assembled line in front of the digit run. */
  function KeyPart(ws1: string, ws2: string, ws3: string): string {
    ws1 + (RemotePortKey + (ws2 + ("=" + ws3)))
  }

  lemma Nest5(p1: string, p2: string, p3: string, p4: string, p5: string, y: string)
    ensures p1 + (p2 + (p3 + (p4 + (p5 + y)))) == (p1 + (p2 + (p3 + (p4 + p5)))) + y
  {
    assert p4 + (p5 + y) == (p4 + p5) + y;
    assert p3 + ((p4 + p5) + y) == (p3 + (p4 + p5)) + y;
    assert p2 + ((p3 + (p4 + p5)) + y) == (p2 + (p3 + (p4 + p5))) + y;
  }

  lemma AssembledSplit(ws1: string, ws2: string, ws3: string, d: string, rest: string)
    ensures Assembled(ws1, ws2, ws3, d, rest) == KeyPart(ws1, ws2, ws3) + (d + rest)
  {
    Nest5(ws1, RemotePortKey, ws2, "=", ws3, d + rest);
  }

  /** Cutting a non-digit off the end of `p + (d + rest)` with `d` a non-empty digit run
      cuts it off `rest`. */
  lemma CutLast(p: string, d: string, rest: string, l: string, c: char)
    requires |d| > 0 && AllDigits(d) && !IsDigit(c)
    requires p + (d + rest) == l + [c]
    ensures rest != [] && rest[|rest| - 1] == c && l == p + (d + rest[..|rest| - 1])
  {
    var w := p + (d + rest);
    LastOfDigitRun(p, d, rest);
    assert w[|w| - 1] == c;
    var rest' := rest[..|rest| - 1];
    assert rest == rest' + [rest[|rest| - 1]];
    assert w == (p + (d + rest')) + [rest[|rest| - 1]];
    assert l == w[..|w| - 1];
  }

  lemma LastOfDigitRun(p: string, d: string, rest: string)
    requires |d| > 0
    ensures var w := p + (d + rest);
            w[|w| - 1] == if rest == [] then d[|d| - 1] else rest[|rest| - 1]
  {
    if rest == [] {
      assert p + (d + rest) == p + d;
    }
  }

  lemma RestAppend(rest: string, x: string)
    requires rest == [] || !IsDigit(rest[0])
    requires x == [] || !IsDigit(x[0])
    ensures rest + x == [] || !IsDigit((rest + x)[0])
  {
    if rest == [] { assert rest + x == x; }
  }

  /** Appending text that does not start with a digit keeps what a matching line reports. */
  lemma MatchAppend(l: string, x: string)
    requires RemotePortDigits(l).Some?
    requires x == [] || !IsDigit(x[0])
    ensures RemotePortDigits(l + x) == RemotePortDigits(l)
  {
    var d := RemotePortDigits(l).value;
    var ws1, ws2, ws3, rest := RemotePortDigitsSound(l);
    AssembledAppend(ws1, ws2, ws3, d, rest, x);
    RestAppend(rest, x);
    RemotePortDigitsComplete(l + x, ws1, ws2, ws3, d, rest + x);
  }

  /** Dropping a final non-digit keeps what a matching line reports. */
  lemma MatchUnappend(l: string, c: char)
    requires !IsDigit(c) && RemotePortDigits(l + [c]).Some?
    ensures RemotePortDigits(l) == RemotePortDigits(l + [c])
  {
    var d := RemotePortDigits(l + [c]).value;
    var ws1, ws2, ws3, rest := RemotePortDigitsSound(l + [c]);
    AssembledSplit(ws1, ws2, ws3, d, rest);
    CutLast(KeyPart(ws1, ws2, ws3), d, rest, l, c);
    var rest' := rest[..|rest| - 1];
    AssembledSplit(ws1, ws2, ws3, d, rest');
    assert rest' == [] || rest'[0] == rest[0];
    RemotePortDigitsComplete(l, ws1, ws2, ws3, d, rest');
  }

  /** A trailing carriage return (what a CRLF file leaves on each line after the split at
      '\n') never changes what a line reports. */
  lemma RemotePortIgnoresCR(l: string)
    ensures RemotePortDigits(l + "\r") == RemotePortDigits(l)
  {
    assert "\r" == ['\r'];
    if RemotePortDigits(l).Some? {
      MatchAppend(l, "\r");
    } else if RemotePortDigits(l + "\r").Some? {
      MatchUnappend(l, '\r');
    }
  }

  /** The port one line reports: the digit run read with its error ignored, so a run too
      long for 64 bits reports the largest int. */
  function PortOfLine(line: string): (r: Option<int>)
    ensures r.Some? <==> RemotePortDigits(line).Some?
    ensures r.Some? ==> MinInt64 <= r.value <= MaxInt64
  {
    match RemotePortDigits(line)
    case None => None
    case Some(d) => Some(AtoiLenient(d))
  }

  /** The ports the lines report, in line order, duplicates kept. */
  function PortsOfLines(lines: seq<string>): (r: seq<int>)
    ensures |r| <= |lines|
    decreases |lines|
  {
    if |lines| == 0 then []
    else
      var rest := PortsOfLines(lines[1..]);
      match PortOfLine(lines[0])
      case None => rest
      case Some(p) => [p] + rest
  }

  lemma {:induction false} PortsOfLinesAppend(a: seq<string>, b: seq<string>)
    ensures PortsOfLines(a + b) == PortsOfLines(a) + PortsOfLines(b)
    decreases |a|
  {
    if |a| == 0 {
      assert a + b == b;
    } else {
      assert (a + b)[0] == a[0];
      assert (a + b)[1..] == a[1..] + b;
      PortsOfLinesAppend(a[1..], b);
    }
  }

  /** `getLocalUsedPorts`: an unreadable frpc.ini claims nothing. */
  function LocalUsedPorts(content: Option<string>): (r: seq<int>)
    ensures content.None? ==> r == []
  {
    match content
    case None => []
    case Some(c) => PortsOfLines(Split(c, '\n'))
  }

  // ---------------------------------------------------------------------------
  // updateFrpcIni

  /** The parts of the FRPS server settings the client configuration needs. */
  datatype FrpsServer = FrpsServer(host: string, tunnelPort: int)

  const IniSep := "\r\n"

  function SectionName(alias: string): string { "[" + alias + "-MH]" }

  /** The `[common]` header written when frpc.ini cannot be read. */
  function DefaultIni(server: FrpsServer, files: InstallFiles): seq<string> {
    [ "[common]",
      "server_addr = " + server.host,
      "server_port = " + Itoa(server.tunnelPort),
      "log_file = " + files.frpcLog,
      "log_level = info" ]
  }

  function SectionLines(alias: string, localPort: string, remotePort: string): seq<string> {
    [ "", SectionName(alias), "type = tcp", "local_ip = 127.0.0.1",
      "local_port = " + localPort, "remote_port = " + remotePort ]
  }

  /** Some line, trimmed, is exactly `name`. */
  predicate HasSection(lines: seq<string>, name: string) {
    exists i :: 0 <= i < |lines| && TrimSpace(lines[i]) == name
  }

  /** The lines `updateFrpcIni` starts from: the file split at '\n' (a CRLF file leaves a
      '\r' on every line but the last), or the default header. */
  function IniLines(content: Option<string>, server: FrpsServer, files: InstallFiles): (r: seq<string>)
    ensures |r| >= 1
  {
    match content
    case None => DefaultIni(server, files)
    case Some(c) => Split(c, '\n')
  }

  /** `updateFrpcIni`: the text written to frpc.ini, or None when a section for the alias
      already exists and nothing is written. The lines are re-joined with CRLF. */
  function UpdateFrpcIni(content: Option<string>, server: FrpsServer, files: InstallFiles,
                         alias: string, localPort: string, remotePort: string): (r: Option<string>)
    ensures r.None? <==> HasSection(IniLines(content, server, files), SectionName(alias))
    ensures r.Some? ==> r.value == JoinWith(IniLines(content, server, files), IniSep) + IniSep
                                    + JoinWith(SectionLines(alias, localPort, remotePort), IniSep)
  {
    var lines := IniLines(content, server, files);
    if HasSection(lines, SectionName(alias)) then None
    else
      var s := SectionLines(alias, localPort, remotePort);
      JoinWithAppend(lines, s, IniSep);
      Some(JoinWith(lines + s, IniSep))
  }

  /** A line with one trailing carriage return removed. */
  function StripCR(l: string): (r: string)
    ensures r == l || l == r + "\r"
    ensures '\n' !in l ==> '\n' !in r
  {
    if |l| > 0 && l[|l| - 1] == '\r' then l[..|l| - 1] else l
  }

  function StripCRs(ls: seq<string>): (r: seq<string>)
    ensures |r| == |ls|
    ensures forall i :: 0 <= i < |ls| ==> r[i] == StripCR(ls[i])
  {
    seq(|ls|, i requires 0 <= i < |ls| => StripCR(ls[i]))
  }

  /** The corrected starting lines: the file split into CRLF or LF lines. */
  function IniLinesCorrected(content: Option<string>, server: FrpsServer, files: InstallFiles): (r: seq<string>)
    ensures |r| >= 1
    ensures content.Some? ==> forall i :: 0 <= i < |r| ==> '\n' !in r[i]
  {
    match content
    case None => DefaultIni(server, files)
    case Some(c) =>
      SplitJoinRoundTrip(c, '\n');
      StripCRs(Split(c, '\n'))
  }

  /** `updateFrpcIni` with each line's own carriage return removed before the CRLF join,
      so that a file it wrote is extended and never rewritten. */
  function UpdateFrpcIniCorrected(content: Option<string>, server: FrpsServer, files: InstallFiles,
                                  alias: string, localPort: string, remotePort: string): (r: Option<string>)
    ensures r.None? <==> HasSection(IniLinesCorrected(content, server, files), SectionName(alias))
    ensures r.Some? ==> r.value == JoinWith(IniLinesCorrected(content, server, files), IniSep) + IniSep
                                    + JoinWith(SectionLines(alias, localPort, remotePort), IniSep)
  {
    var lines := IniLinesCorrected(content, server, files);
    if HasSection(lines, SectionName(alias)) then None
    else
      var s := SectionLines(alias, localPort, remotePort);
      JoinWithAppend(lines, s, IniSep);
      Some(JoinWith(lines + s, IniSep))
  }

  /** Where the section header sits in the split of a text that appended it: splitting at
      '\n' leaves it with one '\r' behind, at index `i`. */
  lemma SectionSurvivesSplit(lines: seq<string>, alias: string, localPort: string, remotePort: string)
    returns (i: nat)
    requires |lines| >= 1 && '\n' !in alias
    ensures var ps := Split(JoinWith(lines + SectionLines(alias, localPort, remotePort), IniSep), '\n');
            i < |ps| && ps[i] == SectionName(alias) + "\r"
  {
    var h := SectionName(alias);
    var s := SectionLines(alias, localPort, remotePort);
    var tl := s[2..];
    assert lines + s == (lines + [""]) + ([h] + tl);
    JoinWithAppend(lines + [""], [h] + tl, IniSep);
    assert ([h] + tl)[1..] == tl;
    var a := JoinWith(lines + [""], IniSep);
    var b := JoinWith(tl, IniSep);
    var w := JoinWith(lines + s, IniSep);
    assert w == (a + "\r") + ['\n'] + ((h + "\r") + ['\n'] + b);
    SplitAround(a + "\r", '\n', (h + "\r") + ['\n'] + b);
    assert '\n' !in h + "\r";
    SplitLeading(h + "\r", '\n', b);
    i := |Split(a + "\r", '\n')|;
  }

  lemma SectionNameTrimmed(alias: string)
    ensures TrimSpace(SectionName(alias) + "\r") == SectionName(alias)
  {
    var h := SectionName(alias);
    TrimSpaceDropsTrailingSpace(h, '\r');
    TrimSpaceOfTrimmed(h);
  }

  /** Idempotence: updating with the same alias again writes nothing, whatever ports are
      passed the second time. */
  lemma UpdateIsIdempotent(content: Option<string>, server: FrpsServer, files: InstallFiles,
                           alias: string, lp: string, rp: string, lp2: string, rp2: string)
    requires '\n' !in alias
    requires UpdateFrpcIni(content, server, files, alias, lp, rp).Some?
    ensures var w := UpdateFrpcIni(content, server, files, alias, lp, rp).value;
            UpdateFrpcIni(Some(w), server, files, alias, lp2, rp2).None?
  {
    var lines := IniLines(content, server, files);
    var i := SectionSurvivesSplit(lines, alias, lp, rp);
    SectionNameTrimmed(alias);
  }

  /** No line contains a line feed. */
  predicate NoLF(ls: seq<string>) {
    forall i :: 0 <= i < |ls| ==> '\n' !in ls[i]
  }

  /** A line that does not end with a carriage return. */
  predicate EndsWithoutCR(l: string) {
    l == [] || l[|l| - 1] != '\r'
  }

  lemma NoLFAppend(a: seq<string>, b: seq<string>)
    requires NoLF(a) && NoLF(b)
    ensures NoLF(a + b)
  {
    forall i | 0 <= i < |a + b| ensures '\n' !in (a + b)[i] {
      if i >= |a| { assert (a + b)[i] == b[i - |a|]; }
    }
  }

  lemma ItoaNoLF(n: int)
    requires n >= 0
    ensures '\n' !in Itoa(n)
  {
    var d := NatDigits(n);
    forall k | 0 <= k < |d| ensures d[k] != '\n' { assert IsDigit(d[k]); }
  }

  lemma SectionLinesNoLF(alias: string, lp: string, rp: string)
    requires '\n' !in alias && '\n' !in lp && '\n' !in rp
    ensures NoLF(SectionLines(alias, lp, rp))
  {
    var s := SectionLines(alias, lp, rp);
    assert '\n' !in s[1];
    assert '\n' !in s[4];
    assert '\n' !in s[5];
  }

  lemma SectionEndsWithoutCR(alias: string, lp: string, rp: string)
    requires '\r' !in rp
    ensures EndsWithoutCR(SectionLines(alias, lp, rp)[5])
  {
    var l := SectionLines(alias, lp, rp)[5];
    if |rp| > 0 { assert l[|l| - 1] == rp[|rp| - 1]; }
  }

  /** What the update writes is the join of the old lines followed by the new section. */
  lemma WrittenIsJoin(lines: seq<string>, alias: string, lp: string, rp: string)
    requires |lines| >= 1
    ensures JoinWith(lines + SectionLines(alias, lp, rp), IniSep)
            == JoinWith(lines, IniSep) + IniSep + JoinWith(SectionLines(alias, lp, rp), IniSep)
  {
    JoinWithAppend(lines, SectionLines(alias, lp, rp), IniSep);
  }

  lemma StripCRAppended(x: string)
    ensures StripCR(x + "\r") == x
  {
    assert (x + "\r")[..|x|] == x;
  }

  /** A header followed by the '\r' the split leaves still counts once the '\r' is stripped. */
  lemma SectionAfterStrip(ps: seq<string>, i: nat, h: string)
    requires i < |ps| && ps[i] == h + "\r" && TrimSpace(h) == h
    ensures HasSection(StripCRs(ps), h)
  {
    StripCRAppended(h);
    assert StripCRs(ps)[i] == h;
  }

  /** A text the corrected update produced from `lines` already has the section. */
  lemma WrittenHasSection(lines: seq<string>, server: FrpsServer, files: InstallFiles,
                          alias: string, lp: string, rp: string)
    requires |lines| >= 1 && '\n' !in alias
    ensures var w := JoinWith(lines + SectionLines(alias, lp, rp), IniSep);
            HasSection(IniLinesCorrected(Some(w), server, files), SectionName(alias))
  {
    var i := SectionSurvivesSplit(lines, alias, lp, rp);
    var w := JoinWith(lines + SectionLines(alias, lp, rp), IniSep);
    var h := SectionName(alias);
    TrimSpaceOfTrimmed(h);
    SectionAfterStrip(Split(w, '\n'), i, h);
  }

  lemma UpdateCorrectedIsIdempotent(content: Option<string>, server: FrpsServer, files: InstallFiles,
                                    alias: string, lp: string, rp: string, lp2: string, rp2: string)
    requires '\n' !in alias
    requires UpdateFrpcIniCorrected(content, server, files, alias, lp, rp).Some?
    ensures var w := UpdateFrpcIniCorrected(content, server, files, alias, lp, rp).value;
            UpdateFrpcIniCorrected(Some(w), server, files, alias, lp2, rp2).None?
  {
    var lines := IniLinesCorrected(content, server, files);
    WrittenIsJoin(lines, alias, lp, rp);
    WrittenHasSection(lines, server, files, alias, lp, rp);
  }

  /** The pieces a CRLF join splits into at '\n': every line but the last keeps a '\r'. */
  function CrLines(ls: seq<string>): seq<string>
    decreases |ls|
  {
    if |ls| <= 1 then ls else [ls[0] + "\r"] + CrLines(ls[1..])
  }

  lemma {:induction false} SplitCrlfJoin(ls: seq<string>)
    requires |ls| >= 1 && NoLF(ls)
    ensures Split(JoinWith(ls, IniSep), '\n') == CrLines(ls)
    decreases |ls|
  {
    if |ls| == 1 {
      SplitOfFree(ls[0], '\n');
    } else {
      var rest := JoinWith(ls[1..], IniSep);
      assert JoinWith(ls, IniSep) == (ls[0] + "\r") + ['\n'] + rest;
      assert '\n' !in ls[0] + "\r";
      SplitLeading(ls[0] + "\r", '\n', rest);
      assert NoLF(ls[1..]) by {
        forall i | 0 <= i < |ls| - 1 ensures '\n' !in ls[1..][i] { assert ls[1..][i] == ls[i + 1]; }
      }
      SplitCrlfJoin(ls[1..]);
    }
  }

  lemma {:induction false} StripCrLines(ls: seq<string>)
    requires |ls| >= 1 && EndsWithoutCR(ls[|ls| - 1])
    ensures StripCRs(CrLines(ls)) == ls
    decreases |ls|
  {
    if |ls| > 1 {
      assert ls[1..][|ls| - 2] == ls[|ls| - 1];
      StripCrLines(ls[1..]);
      StripCRAppended(ls[0]);
      StripCRsCons(ls[0] + "\r", CrLines(ls[1..]));
      assert ls == [ls[0]] + ls[1..];
    }
  }

  lemma StripCRsCons(x: string, xs: seq<string>)
    ensures StripCRs([x] + xs) == [StripCR(x)] + StripCRs(xs)
  {
    var l := [x] + xs;
    var lhs := StripCRs(l);
    var rhs := [StripCR(x)] + StripCRs(xs);
    forall i | 0 <= i < |lhs| ensures lhs[i] == rhs[i] {
      if i > 0 { assert l[i] == xs[i - 1]; }
    }
    assert lhs == rhs;
  }

  /** The corrected update only ever appends: a second section added to a file the first
      update wrote leaves every byte of it in place. */
  lemma CorrectedUpdateAppendsOnly(content: Option<string>, server: FrpsServer, files: InstallFiles,
                                   a1: string, lp1: string, rp1: string, a2: string, lp2: string, rp2: string)
    requires NoLF(IniLinesCorrected(content, server, files))
    requires '\n' !in a1 && '\n' !in lp1 && '\n' !in rp1 && '\r' !in rp1
    requires UpdateFrpcIniCorrected(content, server, files, a1, lp1, rp1).Some?
    requires var w1 := UpdateFrpcIniCorrected(content, server, files, a1, lp1, rp1).value;
             UpdateFrpcIniCorrected(Some(w1), server, files, a2, lp2, rp2).Some?
    ensures var w1 := UpdateFrpcIniCorrected(content, server, files, a1, lp1, rp1).value;
            UpdateFrpcIniCorrected(Some(w1), server, files, a2, lp2, rp2).value
              == w1 + IniSep + JoinWith(SectionLines(a2, lp2, rp2), IniSep)
  {
    var lines := IniLinesCorrected(content, server, files);
    var s1 := SectionLines(a1, lp1, rp1);
    var l1 := lines + s1;
    var w1 := JoinWith(l1, IniSep);
    WrittenIsJoin(lines, a1, lp1, rp1);
    SectionLinesNoLF(a1, lp1, rp1);
    NoLFAppend(lines, s1);
    SplitCrlfJoin(l1);
    SectionEndsWithoutCR(a1, lp1, rp1);
    assert l1[|l1| - 1] == s1[5];
    StripCrLines(l1);
    assert IniLinesCorrected(Some(w1), server, files) == l1;
  }

  /** A join of two or more lines starts with the first line and the separator. */
  lemma JoinHead(ls: seq<string>, sep: string)
    requires |ls| >= 2
    ensures HasPrefix(JoinWith(ls, sep), ls[0] + sep)
  {
    var t := JoinWith(ls[1..], sep);
    assert JoinWith(ls, sep) == (ls[0] + sep) + t;
    assert (ls[0] + sep + t)[..|ls[0] + sep|] == ls[0] + sep;
  }

  lemma CrLinesHead(ls: seq<string>)
    requires |ls| >= 2
    ensures |CrLines(ls)| >= 2 && CrLines(ls)[0] == ls[0] + "\r"
  {
    if |ls| == 2 {
      assert CrLines(ls[1..]) == ls[1..];
    } else {
      CrLinesHead(ls[1..]);
    }
  }

  /** Texts that start "first\r\n" and "first\r\r\n" differ at the character after the
      first '\r'. */
  lemma ExtraCRDiffers(first: string, w1: string, w2: string)
    requires HasPrefix(w1, first + IniSep)
    requires HasPrefix(w2, (first + "\r") + IniSep)
    ensures !HasPrefix(w2, w1)
  {
    var k := |first| + 1;
    assert w1[k] == (first + IniSep)[k] == '\n';
    assert w2[k] == ((first + "\r") + IniSep)[k] == '\r';
  }

  /** The code as written re-splits a file it wrote with CRLF at '\n' and joins again with
      CRLF, so every earlier line gains one more '\r' on each update: the file is no longer
      a prefix of what is written next. */
  lemma CarriageReturnsAccumulate(content: Option<string>, server: FrpsServer, files: InstallFiles,
                                  a1: string, lp1: string, rp1: string, a2: string, lp2: string, rp2: string)
    requires NoLF(IniLines(content, server, files))
    requires '\n' !in a1 && '\n' !in lp1 && '\n' !in rp1
    requires UpdateFrpcIni(content, server, files, a1, lp1, rp1).Some?
    requires var w1 := UpdateFrpcIni(content, server, files, a1, lp1, rp1).value;
             UpdateFrpcIni(Some(w1), server, files, a2, lp2, rp2).Some?
    ensures var w1 := UpdateFrpcIni(content, server, files, a1, lp1, rp1).value;
            var w2 := UpdateFrpcIni(Some(w1), server, files, a2, lp2, rp2).value;
            var first := IniLines(content, server, files)[0];
            && HasPrefix(w1, first + IniSep)
            && HasPrefix(w2, (first + "\r") + IniSep)
            && !HasPrefix(w2, w1)
  {
    var lines := IniLines(content, server, files);
    var s1 := SectionLines(a1, lp1, rp1);
    var l1 := lines + s1;
    var w1 := JoinWith(l1, IniSep);
    WrittenIsJoin(lines, a1, lp1, rp1);
    SectionLinesNoLF(a1, lp1, rp1);
    NoLFAppend(lines, s1);
    SplitCrlfJoin(l1);
    JoinHead(l1, IniSep);
    assert l1[0] == lines[0];
    var c1 := CrLines(l1);
    assert IniLines(Some(w1), server, files) == c1;
    WrittenIsJoin(c1, a2, lp2, rp2);
    var l2 := c1 + SectionLines(a2, lp2, rp2);
    CrLinesHead(l1);
    JoinHead(l2, IniSep);
    assert l2[0] == lines[0] + "\r";
    ExtraCRDiffers(lines[0], w1, JoinWith(l2, IniSep));
  }

  /** Reading back a file the corrected update wrote reports the ports it reported before,
      then the new remote port: the port just chosen is now claimed locally. */
  lemma NewSectionPortIsReported(content: Option<string>, server: FrpsServer, files: InstallFiles,
                                 alias: string, lp: string, n: int)
    requires NoLF(IniLinesCorrected(content, server, files))
    requires '\n' !in alias && '\n' !in lp
    requires 0 <= n <= MaxInt64
    requires UpdateFrpcIniCorrected(content, server, files, alias, lp, Itoa(n)).Some?
    ensures var w := UpdateFrpcIniCorrected(content, server, files, alias, lp, Itoa(n)).value;
            LocalUsedPorts(Some(w)) == LocalUsedPorts(content) + [n]
  {
    var lines := IniLinesCorrected(content, server, files);
    var s := SectionLines(alias, lp, Itoa(n));
    var l := lines + s;
    WrittenIsJoin(lines, alias, lp, Itoa(n));
    ItoaNoLF(n);
    SectionLinesNoLF(alias, lp, Itoa(n));
    NoLFAppend(lines, s);
    SplitCrlfJoin(l);
    CrLinesReportSame(l);
    PortsOfLinesAppend(lines, s);
    SectionReportsPort(alias, lp, n);
    StartingLinesReport(content, server, files);
  }

  /** The '\r' a CRLF split leaves behind changes no line's report. */
  lemma {:induction false} CrLinesReportSame(ls: seq<string>)
    ensures PortsOfLines(CrLines(ls)) == PortsOfLines(ls)
    decreases |ls|
  {
    if |ls| > 1 {
      CrLinesReportSame(ls[1..]);
      RemotePortIgnoresCR(ls[0]);
      assert CrLines(ls) == [ls[0] + "\r"] + CrLines(ls[1..]);
      assert ([ls[0] + "\r"] + CrLines(ls[1..]))[1..] == CrLines(ls[1..]);
    }
  }

  /** A line that is empty or starts with neither a space nor 'r' reports nothing. */
  lemma QuietLine(l: string)
    requires l == [] || (l[0] != 'r' && !IsRe2Space(l[0]))
    ensures PortOfLine(l).None?
  {
    assert DropSpaces(l) == l;
    assert RemotePortKey[0] == 'r';
  }

  lemma HeadOf(x: string, y: string)
    requires |x| > 0
    ensures (x + y)[0] == x[0]
  {
  }

  /** The appended `remote_port` line has the pattern's shape. */
  lemma RemotePortLineShape(d: string)
    ensures "remote_port = " + d == Assembled("", " ", " ", d, "")
  {
    assert "remote_port = " == RemotePortKey + " = ";
  }

  /** The `remote_port` line for a non-negative 64-bit `n` reports `n`. */
  lemma RemotePortLineReports(n: int)
    requires 0 <= n <= MaxInt64
    ensures PortOfLine("remote_port = " + Itoa(n)) == Some(n)
  {
    var d := NatDigits(n);
    assert Itoa(n) == d;
    RemotePortLineShape(d);
    RemotePortDigitsComplete("remote_port = " + d, "", " ", " ", d, "");
    ItoaAtoiRoundTrip(n);
  }

  /** A line that reports nothing can be skipped. */
  lemma SkipQuiet(ls: seq<string>, k: nat)
    requires k < |ls| && PortOfLine(ls[k]).None?
    ensures PortsOfLines(ls[k..]) == PortsOfLines(ls[k + 1..])
  {
    assert ls[k..][0] == ls[k];
    assert ls[k..][1..] == ls[k + 1..];
  }

  /** A single line reporting `n` reports `n`. */
  lemma OneLine(ls: seq<string>, n: int)
    requires |ls| == 1 && PortOfLine(ls[0]) == Some(n)
    ensures PortsOfLines(ls) == [n]
  {
  }

  lemma SectionLineQuiet(alias: string, lp: string, rp: string, k: nat)
    requires k < 5
    ensures PortOfLine(SectionLines(alias, lp, rp)[k]).None?
  {
    var s := SectionLines(alias, lp, rp);
    if k == 1 {
      HeadOf("[" + alias, "-MH]");
      HeadOf("[", alias);
    } else if k == 4 {
      HeadOf("local_port = ", lp);
    }
    QuietLine(s[k]);
  }

  lemma SectionLineSkips(alias: string, lp: string, rp: string, k: nat)
    requires k < 5
    ensures var s := SectionLines(alias, lp, rp);
            PortsOfLines(s[k..]) == PortsOfLines(s[k + 1..])
  {
    SectionLineQuiet(alias, lp, rp, k);
    SkipQuiet(SectionLines(alias, lp, rp), k);
  }

  /** Of the six appended lines only the last reports a port, and it reports `n`. */
  lemma SectionReportsPort(alias: string, lp: string, n: int)
    requires 0 <= n <= MaxInt64
    ensures PortsOfLines(SectionLines(alias, lp, Itoa(n))) == [n]
  {
    var s := SectionLines(alias, lp, Itoa(n));
    assert s[0..] == s;
    SectionLineSkips(alias, lp, Itoa(n), 0);
    SectionLineSkips(alias, lp, Itoa(n), 1);
    SectionLineSkips(alias, lp, Itoa(n), 2);
    SectionLineSkips(alias, lp, Itoa(n), 3);
    SectionLineSkips(alias, lp, Itoa(n), 4);
    LastSectionLineReports(alias, lp, n);
  }

  lemma LastSectionLineReports(alias: string, lp: string, n: int)
    requires 0 <= n <= MaxInt64
    ensures PortsOfLines(SectionLines(alias, lp, Itoa(n))[5..]) == [n]
  {
    var s := SectionLines(alias, lp, Itoa(n));
    RemotePortLineReports(n);
    OneLine(s[5..], n);
  }

  lemma DefaultLineQuiet(server: FrpsServer, files: InstallFiles, k: nat)
    requires k < 5
    ensures PortOfLine(DefaultIni(server, files)[k]).None?
  {
    var h := DefaultIni(server, files);
    if k == 1 {
      HeadOf("server_addr = ", server.host);
    } else if k == 2 {
      HeadOf("server_port = ", Itoa(server.tunnelPort));
    } else if k == 3 {
      HeadOf("log_file = ", files.frpcLog);
    }
    QuietLine(h[k]);
  }

  lemma DefaultLineSkips(server: FrpsServer, files: InstallFiles, k: nat)
    requires k < 5
    ensures var h := DefaultIni(server, files);
            PortsOfLines(h[k..]) == PortsOfLines(h[k + 1..])
  {
    DefaultLineQuiet(server, files, k);
    SkipQuiet(DefaultIni(server, files), k);
  }

  /** The default header reports nothing. */
  lemma DefaultIniQuiet(server: FrpsServer, files: InstallFiles)
    ensures PortsOfLines(DefaultIni(server, files)) == []
  {
    var h := DefaultIni(server, files);
    assert h[0..] == h;
    DefaultLineSkips(server, files, 0);
    DefaultLineSkips(server, files, 1);
    DefaultLineSkips(server, files, 2);
    DefaultLineSkips(server, files, 3);
    DefaultLineSkips(server, files, 4);
    assert h[5..] == [];
  }

  /** Stripping carriage returns off the starting lines changes no report either; the
      default header reports nothing. */
  lemma StartingLinesReport(content: Option<string>, server: FrpsServer, files: InstallFiles)
    ensures PortsOfLines(IniLinesCorrected(content, server, files)) == LocalUsedPorts(content)
  {
    match content
    case None =>
      DefaultIniQuiet(server, files);
    case Some(c) =>
      StripReportsSame(Split(c, '\n'));
  }

  /** Removing a trailing carriage return keeps what a line reports. */
  lemma StripCRReportsSame(l: string)
    ensures PortOfLine(StripCR(l)) == PortOfLine(l)
  {
    if StripCR(l) != l {
      RemotePortIgnoresCR(StripCR(l));
    }
  }

  lemma {:induction false} StripReportsSame(ls: seq<string>)
    ensures PortsOfLines(StripCRs(ls)) == PortsOfLines(ls)
    decreases |ls|
  {
    if |ls| > 0 {
      StripReportsSame(ls[1..]);
      var t := StripCRs(ls);
      assert t[0] == StripCR(ls[0]);
      assert t[1..] == StripCRs(ls[1..]);
      StripCRReportsSame(ls[0]);
    }
  }

  // ---------------------------------------------------------------------------
  // setupNssmService

  /** The three nssm invocations: install the service, make it start automatically, and
      set its working directory. */
  function NssmCommands(files: InstallFiles, serviceName: string): (r: seq<Command>)
    ensures |r| == 3 && |r[0].args| > 0 && |r[1].args| > 0 && |r[2].args| > 0
    ensures r[0].program == r[1].program == r[2].program == files.nssmExe
  {
    [ Command(files.nssmExe, ["install", serviceName, files.frpcExe, "-c", files.frpcIni]),
      Command(files.nssmExe, ["set", serviceName, "Start", "SERVICE_AUTO_START"]),
      Command(files.nssmExe, ["set", serviceName, "AppDirectory", files.dir]) ]
  }

  /** Runs the commands in order and stops at the first that does not exit with 0; the
      error names that command's first argument. */
  function RunInOrder(shell: Shell, cmds: seq<Command>): (r: Outcome)
    requires forall i :: 0 <= i < |cmds| ==> |cmds[i].args| > 0
    ensures r.Pass? <==> forall i :: 0 <= i < |cmds| ==> Succeeded(shell(cmds[i]))
    ensures r.Fail? ==>
              exists i :: (0 <= i < |cmds| && !Succeeded(shell(cmds[i]))
                           && (forall j :: 0 <= j < i ==> Succeeded(shell(cmds[j])))
                           && r.error == CommandFailed("ошибка при выполнении nssm " + cmds[i].args[0] + ": "
                                                       + ExecErrorText(shell(cmds[i]).status)))
    decreases |cmds|
  {
    if |cmds| == 0 then Pass
    else
      var e := shell(cmds[0]);
      if !Succeeded(e) then
        Fail(CommandFailed("ошибка при выполнении nssm " + cmds[0].args[0] + ": " + ExecErrorText(e.status)))
      else
        var r := RunInOrder(shell, cmds[1..]);
        assert forall i :: 1 <= i < |cmds| ==> cmds[1..][i - 1] == cmds[i];
        r
  }

  /** `setupNssmService`. */
  function SetupNssmService(shell: Shell, files: InstallFiles, serviceName: string): (r: Outcome)
    ensures var cs := NssmCommands(files, serviceName);
            r.Pass? <==> Succeeded(shell(cs[0])) && Succeeded(shell(cs[1])) && Succeeded(shell(cs[2]))
    ensures var cs := NssmCommands(files, serviceName);
            !Succeeded(shell(cs[0])) ==>
              r == Fail(CommandFailed("ошибка при выполнении nssm install: " + ExecErrorText(shell(cs[0]).status)))
  {
    var cs := NssmCommands(files, serviceName);
    var r := RunInOrder(shell, cs);
    assert r.Pass? <==> forall i :: 0 <= i < |cs| ==> Succeeded(shell(cs[i]));
    r
  }
}

=== FILE: iiko.dfy ===
/** The decisions of the iiko installer (modules/iiko/iiko.go): which FTP directories are
    versions and which configured components each holds, the distribution menu, which
    patches the route file offers for a version and which of them are fetched, and how
    the installer is started and its end read. The FTP server is an oracle from a path to
    what `ListFTP` returns; the route file arrives as the records the CSV reader yields. */
module Iiko {
  import opened Wrappers
  import opened Text
  import opened Paths
  import opened Sorting
  import opened Selection
  import opened WinUtils
  import opened AssetManager

  /** `config.IikoComponent`; `version` and `ftpPath` are filled in at run time. */
  datatype Component = Component(
    id: string, menuText: string, fileName: string, installArgs: string, runAfter: string,
    version: string, ftpPath: string)

  datatype IikoConfig = IikoConfig(
    baseFtpPath: string, patchRouteFile: string, componentsToFind: seq<Component>, cardPos: Component)

  /** `am.ListFTP`: the listing of a server directory, or the error it fails with. */
  type Lister = string -> Result<seq<FtpEntry>>

  // ---------------------------------------------------------------------------
  // discoverVersions

  /** `^\d{3}$`: exactly three ASCII digits. */
  predicate IsVersionName(s: string) { |s| == 3 && AllDigits(s) }

  /** A directory (kind code 1) named like a version. */
  predicate IsVersionEntry(e: FtpEntry) { e.code == 1 && IsVersionName(e.name) }

  /** The server directory of a version: base and version joined by `filepath.Join`, then
      every `\` made `/`. */
  function VersionPath(base: string, version: string): (r: string)
    ensures '\\' !in r
  {
    ReplaceChars(JoinString(base, version), {'\\'}, '/')
  }

  /** A component template as found in a version directory. */
  function Stamp(t: Component, version: string, versionPath: string): Component {
    t.(version := version, ftpPath := versionPath + "/" + t.fileName)
  }

  /** The names a listing holds. */
  function Names(es: seq<FtpEntry>): (r: set<string>)
    ensures forall i :: 0 <= i < |es| ==> es[i].name in r
    ensures forall n :: n in r ==> exists i :: 0 <= i < |es| && es[i].name == n
  {
    set i | 0 <= i < |es| :: es[i].name
  }

  /** The templates whose file the directory holds, in configuration order, stamped with the
      version and the file's path. */
  function FoundComponents(templates: seq<Component>, names: set<string>, version: string, versionPath: string): (r: seq<Component>)
    ensures |r| <= |templates|
  {
    if |templates| == 0 then []
    else (if templates[0].fileName in names then [Stamp(templates[0], version, versionPath)] else [])
         + FoundComponents(templates[1..], names, version, versionPath)
  }

  /** A component is found exactly when its file is in the directory. */
  lemma {:induction false} FoundExactly(templates: seq<Component>, names: set<string>, version: string, versionPath: string, c: Component)
    ensures c in FoundComponents(templates, names, version, versionPath) <==>
              exists t :: t in templates && t.fileName in names && c == Stamp(t, version, versionPath)
    decreases |templates|
  {
    if |templates| > 0 {
      FoundExactly(templates[1..], names, version, versionPath, c);
      assert forall t :: t in templates <==> t == templates[0] || t in templates[1..];
    }
  }

  /** Found components keep the order of the configuration. */
  lemma {:induction false} FoundAppend(a: seq<Component>, b: seq<Component>, names: set<string>, version: string, versionPath: string)
    ensures FoundComponents(a + b, names, version, versionPath)
            == FoundComponents(a, names, version, versionPath) + FoundComponents(b, names, version, versionPath)
    decreases |a|
  {
    if |a| > 0 {
      assert (a + b)[1..] == a[1..] + b;
      FoundAppend(a[1..], b, names, version, versionPath);
    } else {
      assert a + b == b;
    }
  }

  /** Every found component carries the version and the path of its file in it. */
  lemma {:induction false} FoundStamped(templates: seq<Component>, names: set<string>, version: string, versionPath: string)
    ensures forall c :: c in FoundComponents(templates, names, version, versionPath) ==>
              c.version == version && c.ftpPath == versionPath + "/" + c.fileName && c.fileName in names
    decreases |templates|
  {
    if |templates| > 0 {
      FoundStamped(templates[1..], names, version, versionPath);
    }
  }

  /** What a version entry contributes: its components, when the listing of its directory
      succeeds and holds at least one configured file. */
  function VersionComponents(cfg: IikoConfig, list: Lister, version: string): (r: Option<seq<Component>>)
    ensures r.Some? ==> |r.value| > 0
  {
    var vp := VersionPath(cfg.baseFtpPath, version);
    match list(vp)
    case Err(_) => None
    case Ok(files) =>
      var found := FoundComponents(cfg.componentsToFind, Names(files), version, vp);
      if |found| == 0 then None else Some(found)
  }

  /** Some entry of the listing is a version directory with this name. */
  predicate HasVersionEntry(entries: seq<FtpEntry>, v: string) {
    exists i :: 0 <= i < |entries| && IsVersionEntry(entries[i]) && entries[i].name == v
  }

  /** The loop over the base listing, in order; `found` says what a version entry adds. */
  function Scan(entries: seq<FtpEntry>, found: string -> Option<seq<Component>>): map<string, seq<Component>>
  {
    if |entries| == 0 then map[]
    else
      var m := Scan(entries[..|entries| - 1], found);
      var e := entries[|entries| - 1];
      if !IsVersionEntry(e) then m
      else match found(e.name)
        case None => m
        case Some(cs) => m[e.name := cs]
  }

  /** The versions the loop keeps are exactly the version directories for which `found`
      gives components, each with those components. */
  lemma {:induction false} ScanExactly(entries: seq<FtpEntry>, found: string -> Option<seq<Component>>, v: string)
    ensures v in Scan(entries, found) <==> HasVersionEntry(entries, v) && found(v).Some?
    ensures v in Scan(entries, found) ==> Scan(entries, found)[v] == found(v).value
    decreases |entries|
  {
    if |entries| > 0 {
      var init := entries[..|entries| - 1];
      ScanExactly(init, found, v);
      if HasVersionEntry(entries, v) {
        var i :| 0 <= i < |entries| && IsVersionEntry(entries[i]) && entries[i].name == v;
        if i < |init| {
          assert init[i] == entries[i];
        }
      }
      if HasVersionEntry(init, v) {
        var i :| 0 <= i < |init| && IsVersionEntry(init[i]) && init[i].name == v;
        assert entries[i] == init[i];
      }
    }
  }

  /** `discoverVersions`: a failure to list the base directory is the only error. */
  function DiscoverVersions(cfg: IikoConfig, list: Lister): (r: Result<map<string, seq<Component>>>)
    ensures r.Err? <==> list(cfg.baseFtpPath).Err?
  {
    var entries :- list(cfg.baseFtpPath);
    Ok(Scan(entries, v => VersionComponents(cfg, list, v)))
  }

  /** The versions discovered are exactly the three-digit directories of the base listing
      whose own listing succeeds and holds at least one configured file; each of their
      components is a configured template whose file is there, stamped with the version and
      the file's path. */
  lemma DiscoveredExactly(cfg: IikoConfig, list: Lister, v: string)
    requires DiscoverVersions(cfg, list).Ok?
    ensures var vp := VersionPath(cfg.baseFtpPath, v);
            v in DiscoverVersions(cfg, list).value <==>
              && HasVersionEntry(list(cfg.baseFtpPath).value, v)
              && list(vp).Ok?
              && exists t :: t in cfg.componentsToFind && t.fileName in Names(list(vp).value)
  {
    var vp := VersionPath(cfg.baseFtpPath, v);
    var found := v => VersionComponents(cfg, list, v);
    ScanExactly(list(cfg.baseFtpPath).value, found, v);
    if list(vp).Ok? {
      var names := Names(list(vp).value);
      var fc := FoundComponents(cfg.componentsToFind, names, v, vp);
      if exists t :: t in cfg.componentsToFind && t.fileName in names {
        var t :| t in cfg.componentsToFind && t.fileName in names;
        FoundExactly(cfg.componentsToFind, names, v, vp, Stamp(t, v, vp));
      }
      if |fc| > 0 {
        FoundExactly(cfg.componentsToFind, names, v, vp, fc[0]);
      }
    }
  }

  lemma DiscoveredComponents(cfg: IikoConfig, list: Lister, v: string, c: Component)
    requires DiscoverVersions(cfg, list).Ok? && v in DiscoverVersions(cfg, list).value
    requires c in DiscoverVersions(cfg, list).value[v]
    ensures IsVersionName(v)
    ensures var vp := VersionPath(cfg.baseFtpPath, v);
            && list(vp).Ok?
            && c.version == v && c.ftpPath == vp + "/" + c.fileName
            && (exists t :: t in cfg.componentsToFind && t.fileName in Names(list(vp).value) && c == Stamp(t, v, vp))
  {
    var entries := list(cfg.baseFtpPath).value;
    var vp := VersionPath(cfg.baseFtpPath, v);
    ScanExactly(entries, v => VersionComponents(cfg, list, v), v);
    var i :| 0 <= i < |entries| && IsVersionEntry(entries[i]) && entries[i].name == v;
    FoundStamped(cfg.componentsToFind, Names(list(vp).value), v, vp);
    FoundExactly(cfg.componentsToFind, Names(list(vp).value), v, vp, c);
  }

  /** Discovery stamps every component with the version it was found under. */
  lemma DiscoveredStamped(cfg: IikoConfig, list: Lister)
    requires DiscoverVersions(cfg, list).Ok?
    ensures Stamped(DiscoverVersions(cfg, list).value)
  {
    var m: map<string, seq<Component>> := DiscoverVersions(cfg, list).value;
    forall v: string, i: int | v in m && 0 <= i < |m[v]| ensures m[v][i].version == v {
      DiscoveredComponents(cfg, list, v, m[v][i]);
    }
  }

  // ---------------------------------------------------------------------------
  // showDistroMenu

  /** Option 0: the card client, at the top of the base directory. */
  function CardOption(cfg: IikoConfig): Component {
    cfg.cardPos.(id := "iikoCard", version := "Card", ftpPath := cfg.baseFtpPath + "/" + cfg.cardPos.fileName)
  }

  /** The components of the given versions, version by version. */
  function Flatten(keys: seq<string>, m: map<string, seq<Component>>): seq<Component>
    requires forall k :: 0 <= k < |keys| ==> keys[k] in m
  {
    if |keys| == 0 then [] else m[keys[0]] + Flatten(keys[1..], m)
  }

  /** The options of the distribution menu: the card client, then every version newest first
      with its components in configuration order. */
  function MenuOptions(cfg: IikoConfig, versions: map<string, seq<Component>>): (r: seq<Component>)
    ensures |r| > 0 && r[0] == CardOption(cfg)
  {
    [CardOption(cfg)] + Flatten(Descending(versions.Keys), versions)
  }

  /** Every option after the first belongs to some version, and every component of every
      version is offered. */
  lemma MenuOffersEveryComponent(cfg: IikoConfig, versions: map<string, seq<Component>>, c: Component)
    ensures c in MenuOptions(cfg, versions)[1..] <==> exists v :: v in versions && c in versions[v]
  {
    var keys := Descending(versions.Keys);
    FlattenMembers(keys, versions, c);
    assert MenuOptions(cfg, versions)[1..] == Flatten(keys, versions);
  }

  lemma {:induction false} FlattenMembers(keys: seq<string>, m: map<string, seq<Component>>, c: Component)
    requires forall k :: 0 <= k < |keys| ==> keys[k] in m
    ensures c in Flatten(keys, m) <==> exists k :: 0 <= k < |keys| && c in m[keys[k]]
    decreases |keys|
  {
    if |keys| > 0 {
      FlattenMembers(keys[1..], m, c);
      if exists k :: 0 <= k < |keys| && c in m[keys[k]] {
        var k :| 0 <= k < |keys| && c in m[keys[k]];
        if k > 0 { assert keys[1..][k - 1] == keys[k]; }
      }
      if exists k :: 0 <= k < |keys[1..]| && c in m[keys[1..][k]] {
        var k :| 0 <= k < |keys[1..]| && c in m[keys[1..][k]];
        assert keys[k + 1] == keys[1..][k];
      }
    }
  }

  /** Every component of a version carries that version, as discovery stamps them. */
  predicate Stamped(m: map<string, seq<Component>>) {
    forall v :: v in m ==> forall i :: 0 <= i < |m[v]| ==> m[v][i].version == v
  }

  /** Newer versions come first: along the menu after option 0, no option's version is
      older than a later option's. */
  lemma MenuNewestFirst(cfg: IikoConfig, versions: map<string, seq<Component>>, i: nat, j: nat)
    requires Stamped(versions) && 1 <= i < j < |MenuOptions(cfg, versions)|
    ensures !Less(MenuOptions(cfg, versions)[i].version, MenuOptions(cfg, versions)[j].version)
  {
    var keys := Descending(versions.Keys);
    var r := MenuOptions(cfg, versions);
    assert r[1..] == Flatten(keys, versions);
    assert r[i] == r[1..][i - 1] && r[j] == r[1..][j - 1];
    FlattenDescending(keys, versions, i - 1, j - 1);
  }

  /** The option at position `i` of the flattened list comes from one of the versions. */
  lemma {:induction false} FlattenFrom(keys: seq<string>, m: map<string, seq<Component>>, i: nat)
    requires forall k :: 0 <= k < |keys| ==> keys[k] in m
    requires i < |Flatten(keys, m)|
    ensures exists k :: 0 <= k < |keys| && Flatten(keys, m)[i] in m[keys[k]]
    decreases |keys|
  {
    var b := m[keys[0]];
    if i >= |b| {
      FlattenFrom(keys[1..], m, i - |b|);
      var k :| 0 <= k < |keys[1..]| && Flatten(keys[1..], m)[i - |b|] in m[keys[1..][k]];
      assert keys[k + 1] == keys[1..][k];
    }
  }

  lemma {:induction false} FlattenDescending(keys: seq<string>, m: map<string, seq<Component>>, i: nat, j: nat)
    requires forall k :: 0 <= k < |keys| ==> keys[k] in m
    requires StrictlyDescending(keys) && Stamped(m) && i < j < |Flatten(keys, m)|
    ensures !Less(Flatten(keys, m)[i].version, Flatten(keys, m)[j].version)
    decreases |keys|
  {
    var b := m[keys[0]];
    var f := Flatten(keys, m);
    var rest := Flatten(keys[1..], m);
    assert f == b + rest;
    if j < |b| {
      assert f[i] == b[i] && f[j] == b[j];
      LessIrreflexive(keys[0]);
    } else if i < |b| {
      assert f[i] == b[i] && f[j] == rest[j - |b|];
      FlattenFrom(keys[1..], m, j - |b|);
      var k :| 0 <= k < |keys[1..]| && rest[j - |b|] in m[keys[1..][k]];
      var c := rest[j - |b|];
      var v := keys[k + 1];
      assert keys[1..][k] == v;
      var x :| 0 <= x < |m[v]| && m[v][x] == c;
      assert c.version == v;
      assert Less(v, keys[0]);
      LessAsymmetric(v, keys[0]);
    } else {
      assert f[i] == rest[i - |b|] && f[j] == rest[j - |b|];
      FlattenDescending(keys[1..], m, i - |b|, j - |b|);
    }
  }

  /** One answer to the menu: an integer in `0..|options|-1` picks that option; anything else
      asks again. */
  function DistroChoice(options: seq<Component>, line: string): (r: Option<Component>)
    ensures r.Some? <==> Atoi(TrimSpace(line)).Some? && 0 <= Atoi(TrimSpace(line)).value < |options|
    ensures r.Some? ==> r.value == options[Atoi(TrimSpace(line)).value]
  {
    match ChooseNumber(line, 0, |options| - 1)
    case Some(n) => Some(options[n])
    case None => None
  }

  /** Typing the number an option is shown with picks that option; 0 is the card client. */
  lemma DistroPicksTypedNumber(options: seq<Component>, n: int)
    requires 0 <= n < |options| && n <= MaxInt64
    ensures DistroChoice(options, Itoa(n) + "\n") == Some(options[n])
  {
    ChooseTypedNumber(n, 0, |options| - 1);
  }

  /** The position of the first answer that picks something. */
  function FirstSome<T>(answers: seq<Option<T>>): (r: Option<nat>)
    ensures r.None? <==> forall k :: 0 <= k < |answers| ==> answers[k].None?
    ensures r.Some? ==> r.value < |answers| && answers[r.value].Some?
    ensures r.Some? ==> forall j :: 0 <= j < r.value ==> answers[j].None?
  {
    if |answers| == 0 then None
    else if answers[0].Some? then Some(0)
    else
      var r := FirstSome(answers[1..]);
      assert forall k :: 1 <= k < |answers| ==> answers[k] == answers[1..][k - 1];
      match r
      case None => None
      case Some(k) => Some(k + 1)
  }

  /** The answer each typed line gives. */
  function DistroAnswers(options: seq<Component>, lines: seq<string>): (r: seq<Option<Component>>)
    ensures |r| == |lines| && forall k :: 0 <= k < |lines| ==> r[k] == DistroChoice(options, lines[k])
  {
    seq(|lines|, k requires 0 <= k < |lines| => DistroChoice(options, lines[k]))
  }

  /** `showDistroMenu` over the lines typed: the first line that picks an option decides;
      `None` while every line asks again. */
  function ShowDistroMenu(options: seq<Component>, lines: seq<string>): (r: Option<Component>)
    ensures r.None? <==> forall k :: 0 <= k < |lines| ==> DistroAnswers(options, lines)[k].None?
    ensures r.Some? ==> exists k :: 0 <= k < |lines| && DistroAnswers(options, lines)[k] == r
                          && forall j :: 0 <= j < k ==> DistroAnswers(options, lines)[j].None?
  {
    var answers := DistroAnswers(options, lines);
    match FirstSome(answers)
    case None => None
    case Some(k) => answers[k]
  }

  // ---------------------------------------------------------------------------
  // handlePatches

  datatype Patch = Patch(
    path: string, name: string, description: string, version: string, localPath: string, downloaded: bool)

  /** `csv.Reader` with `FieldsPerRecord = 4`: `ReadAll` fails when any record has another
      number of fields. */
  function CheckRecords(rows: seq<seq<string>>): (r: Result<seq<seq<string>>>)
    ensures r.Ok? <==> FourFields(rows)
    ensures r.Ok? ==> r.value == rows
  {
    if FourFields(rows) then Ok(rows)
    else Err(InvalidInput("wrong number of fields"))
  }

  predicate FourFields(rows: seq<seq<string>>) {
    forall i :: 0 <= i < |rows| ==> |rows[i]| == 4
  }

  /** The elements that pass `keep`, in order. */
  function Filter<T>(xs: seq<T>, keep: T -> bool): (r: seq<T>)
    ensures |r| <= |xs|
  {
    if |xs| == 0 then [] else (if keep(xs[0]) then [xs[0]] else []) + Filter(xs[1..], keep)
  }

  lemma {:induction false} FilterExactly<T>(xs: seq<T>, keep: T -> bool, x: T)
    ensures x in Filter(xs, keep) <==> x in xs && keep(x)
    decreases |xs|
  {
    if |xs| > 0 {
      FilterExactly(xs[1..], keep, x);
      assert x in xs <==> x == xs[0] || x in xs[1..];
    }
  }

  lemma {:induction false} FilterAppend<T>(a: seq<T>, b: seq<T>, keep: T -> bool)
    ensures Filter(a + b, keep) == Filter(a, keep) + Filter(b, keep)
    decreases |a|
  {
    if |a| > 0 {
      assert (a + b)[1..] == a[1..] + b;
      FilterAppend(a[1..], b, keep);
    } else {
      assert a + b == b;
    }
  }

  /** The route record is for the version: the fourth field, trimmed, is the version. */
  predicate ForVersionRecord(rec: seq<string>, version: string) {
    |rec| == 4 && TrimSpace(rec[3]) == version
  }

  /** The records of a version, in file order. */
  function ForVersion(rows: seq<seq<string>>, version: string): (r: seq<seq<string>>)
  {
    Filter(rows, rec => ForVersionRecord(rec, version))
  }

  /** A record is offered exactly when it is in the file and its version matches. */
  lemma ForVersionExactly(rows: seq<seq<string>>, version: string, rec: seq<string>)
    ensures rec in ForVersion(rows, version) <==> rec in rows && ForVersionRecord(rec, version)
  {
    FilterExactly(rows, rec => ForVersionRecord(rec, version), rec);
  }

  /** The offered records keep the order of the file: those of a longer file are those of
      its first part followed by those of the rest. */
  lemma ForVersionAppend(a: seq<seq<string>>, b: seq<seq<string>>, version: string)
    ensures ForVersion(a + b, version) == ForVersion(a, version) + ForVersion(b, version)
  {
    FilterAppend(a, b, rec => ForVersionRecord(rec, version));
  }

  /** Every offered record has its four fields. */
  lemma ForVersionFourFields(rows: seq<seq<string>>, version: string)
    ensures FourFields(ForVersion(rows, version))
  {
    var r := ForVersion(rows, version);
    forall i | 0 <= i < |r| ensures |r[i]| == 4 {
      ForVersionExactly(rows, version, r[i]);
    }
  }

  /** The patches on offer for a version, in file order, not yet fetched. */
  function AvailablePatches(rows: seq<seq<string>>, version: string): (r: seq<Patch>)
    ensures |r| == |ForVersion(rows, version)|
    ensures forall i :: 0 <= i < |r| ==>
              var rec := ForVersion(rows, version)[i];
              |rec| == 4 && r[i] == Patch(rec[0], rec[1], rec[2], rec[3], "", false)
  {
    var recs := ForVersion(rows, version);
    ForVersionFourFields(rows, version);
    seq(|recs|, i requires 0 <= i < |recs| => Patch(recs[i][0], recs[i][1], recs[i][2], recs[i][3], "", false))
  }

  /** Every patch on offer is for the version asked for. */
  lemma AvailableForVersion(rows: seq<seq<string>>, version: string, i: nat)
    requires i < |AvailablePatches(rows, version)|
    ensures TrimSpace(AvailablePatches(rows, version)[i].version) == version
  {
    var rec := ForVersion(rows, version)[i];
    ForVersionExactly(rows, version, rec);
  }

  /** A chosen patch goes to the target directory under the last element of its path. */
  function Prepare(p: Patch, targetDir: string): (q: Patch)
    ensures q.path == p.path && q.name == p.name && q.version == p.version && !q.downloaded
  {
    p.(localPath := JoinString(targetDir, Base(p.path)), downloaded := false)
  }

  /** The patches chosen on the line typed (an empty line chooses none), in the order typed. */
  function SelectPatches(available: seq<Patch>, line: string, targetDir: string): (r: seq<Patch>)
    ensures forall i :: 0 <= i < |r| ==> r[i].localPath == JoinString(targetDir, Base(r[i].path)) && !r[i].downloaded
  {
    PrepareAll(Picked(available, line), targetDir)
  }

  /** The patches the line names; an empty line names none. */
  function Picked(available: seq<Patch>, line: string): seq<Patch> {
    if TrimSpace(line) == "" then [] else PickByNumbers(available, line)
  }

  function PrepareAll(ps: seq<Patch>, targetDir: string): (r: seq<Patch>)
    ensures |r| == |ps|
    ensures forall i :: 0 <= i < |r| ==> r[i] == Prepare(ps[i], targetDir)
    ensures forall i :: 0 <= i < |r| ==> r[i].localPath == JoinString(targetDir, Base(r[i].path)) && !r[i].downloaded
  {
    seq(|ps|, i requires 0 <= i < |ps| => Prepare(ps[i], targetDir))
  }

  /** Whatever is typed, only patches on offer are chosen. */
  lemma SelectedFromAvailable(available: seq<Patch>, line: string, targetDir: string, i: nat)
    requires i < |SelectPatches(available, line, targetDir)|
    ensures exists k :: 0 <= k < |available| && SelectPatches(available, line, targetDir)[i] == Prepare(available[k], targetDir)
  {
    var picked := Picked(available, line);
    assert picked[i] in available;
    var k :| 0 <= k < |available| && available[k] == picked[i];
    assert SelectPatches(available, line, targetDir)[i] == Prepare(available[k], targetDir);
  }

  /** Typing patch numbers separated by commas chooses exactly those patches, in that order,
      each placed in the target directory. */
  lemma TypedPatchesSelected(available: seq<Patch>, ns: seq<int>, targetDir: string)
    requires |ns| > 0
    requires forall i :: 0 <= i < |ns| ==> 1 <= ns[i] <= |available| && ns[i] <= MaxInt64
    ensures var r := SelectPatches(available, JoinWith(Numerals(ns), ","), targetDir);
            |r| == |ns| && forall i :: 0 <= i < |ns| ==> r[i] == Prepare(available[ns[i] - 1], targetDir)
  {
    TypedNumbersTrimmed(ns);
    PickTypedNumbers(available, ns);
  }

  /** `am.DownloadFTPWithProgress(url, localPath)` succeeds or not. The answer depends on
      the server path and the local path only, not on what is already on disk, so a second
      download of the same patch in one run answers as the first did. */
  type Downloader = (string, string) -> bool

  /** Each chosen patch is fetched from the base directory plus its path; it is marked
      downloaded exactly when that succeeds. */
  function DownloadPatches(base: string, selected: seq<Patch>, download: Downloader): (r: seq<Patch>)
    ensures |r| == |selected|
    ensures forall i :: 0 <= i < |r| ==>
              r[i] == selected[i].(downloaded := download(base + selected[i].path, selected[i].localPath))
  {
    seq(|selected|, i requires 0 <= i < |selected| =>
      selected[i].(downloaded := download(base + selected[i].path, selected[i].localPath)))
  }

  /** `handlePatches`: the route file is fetched from the base directory plus its name and
      read as four-field records (`route` gives the records, or why fetching, opening or
      reading failed); nothing on offer, or an empty line, gives no patches. */
  function HandlePatches(cfg: IikoConfig, version: string, targetDir: string,
                         route: string -> Result<seq<seq<string>>>, line: string, download: Downloader): (r: Result<seq<Patch>>)
    ensures r.Err? <==> route(cfg.baseFtpPath + cfg.patchRouteFile).Err? || !FourFields(route(cfg.baseFtpPath + cfg.patchRouteFile).value)
    ensures r.Ok? ==> forall i :: 0 <= i < |r.value| ==>
              && r.value[i].localPath == JoinString(targetDir, Base(r.value[i].path))
              && (r.value[i].downloaded <==> download(cfg.baseFtpPath + r.value[i].path, r.value[i].localPath))
  {
    var rows :- route(cfg.baseFtpPath + cfg.patchRouteFile);
    var records :- CheckRecords(rows);
    var available := AvailablePatches(records, version);
    if |available| == 0 then Ok([])
    else Ok(DownloadPatches(cfg.baseFtpPath, SelectPatches(available, line, targetDir), download))
  }

  lemma HandlePatchesOk(cfg: IikoConfig, version: string, targetDir: string,
                        route: string -> Result<seq<seq<string>>>, line: string, download: Downloader)
    requires HandlePatches(cfg, version, targetDir, route, line, download).Ok?
    requires |HandlePatches(cfg, version, targetDir, route, line, download).value| > 0
    ensures var available := AvailablePatches(route(cfg.baseFtpPath + cfg.patchRouteFile).value, version);
            HandlePatches(cfg, version, targetDir, route, line, download).value
              == DownloadPatches(cfg.baseFtpPath, SelectPatches(available, line, targetDir), download)
  {
  }

  /** The patches returned are the ones chosen, in the order chosen, each for the version
      asked for; only the downloaded mark is added. */
  lemma PatchesOnOffer(cfg: IikoConfig, version: string, targetDir: string,
                       route: string -> Result<seq<seq<string>>>, line: string, download: Downloader, i: nat)
    requires HandlePatches(cfg, version, targetDir, route, line, download).Ok?
    requires i < |HandlePatches(cfg, version, targetDir, route, line, download).value|
    ensures var p := HandlePatches(cfg, version, targetDir, route, line, download).value[i];
            var available := AvailablePatches(route(cfg.baseFtpPath + cfg.patchRouteFile).value, version);
            && TrimSpace(p.version) == version
            && i < |SelectPatches(available, line, targetDir)|
            && p == SelectPatches(available, line, targetDir)[i].(downloaded := p.downloaded)
  {
    var rows := route(cfg.baseFtpPath + cfg.patchRouteFile).value;
    var available := AvailablePatches(rows, version);
    var selected := SelectPatches(available, line, targetDir);
    HandlePatchesOk(cfg, version, targetDir, route, line, download);
    SelectedFromAvailable(available, line, targetDir, i);
    var k :| 0 <= k < |available| && selected[i] == Prepare(available[k], targetDir);
    AvailableForVersion(rows, version, k);
  }

  // ---------------------------------------------------------------------------
  // runInstaller

  /** The installer's arguments: the configured ones split at spaces, then `/log` and the
      temporary log path. */
  function InstallerArgs(args: string, tempLog: string): (r: seq<string>)
    ensures |r| >= 2 && r[|r| - 2..] == ["/log", tempLog]
  {
    Fields(args) + ["/log", tempLog]
  }

  /** Arguments written as words separated by single spaces reach the installer unchanged,
      followed by the log option. */
  lemma InstallerArgsOfWords(ws: seq<string>, tempLog: string)
    requires forall i :: 0 <= i < |ws| ==> IsWord(ws[i])
    ensures InstallerArgs(JoinWith(ws, " "), tempLog) == ws + ["/log", tempLog]
  {
    FieldsOfJoinedWords(ws);
  }

  /** The name of the installer's log: `installer_log_<Unix seconds>.txt`. */
  function LogFileName(unixSeconds: int): string {
    "installer_log_" + Itoa(unixSeconds) + ".txt"
  }

  function InstallerCommand(installerPath: string, args: string, tempLog: string): Command {
    Command(installerPath, InstallerArgs(args, tempLog))
  }

  /** What `runInstaller` returns: the exit code, and an error when the installer could not be
      run at all (with -1 as the code). */
  datatype InstallOutcome = InstallOutcome(exitCode: int, error: Option<Error>)

  /** `runInstaller` as written: the type assertion `err.(*exec.ExitError)` is applied to the
      error `RunCommand` returns, which formats the exec error with `%v` into a new error, so it
      never holds; every failure, a non-zero exit included, ends with -1 and an error. */
  function RunInstallerAsWritten(shell: Shell, installerPath: string, args: string, tempLog: string): (r: InstallOutcome)
    ensures r.error.None? <==> Succeeded(shell(InstallerCommand(installerPath, args, tempLog)))
  {
    match RunCommand(shell, InstallerCommand(installerPath, args, tempLog))
    case Ok(_) => InstallOutcome(0, None)
    case Err(e) => InstallOutcome(-1, Some(e))
  }

  /** `runInstaller` as intended: a process that ran reports its exit code; only a process that
      could not be started is an error. */
  function RunInstaller(shell: Shell, installerPath: string, args: string, tempLog: string): (r: InstallOutcome)
    ensures var e := shell(InstallerCommand(installerPath, args, tempLog));
            && (r.error.None? <==> e.status.Exited?)
            && (e.status.Exited? ==> r.exitCode == e.status.code)
            && (r.error.Some? ==> r.exitCode == -1)
  {
    var cmd := InstallerCommand(installerPath, args, tempLog);
    var e := shell(cmd);
    match e.status
    case Exited(code) => InstallOutcome(code, None)
    case StartFailed(_) => InstallOutcome(-1, Some(CommandFailed(FailureMessage(cmd, e))))
  }

  /** The two agree whenever the installer succeeds or cannot be started; they part only on a
      non-zero exit, where as written the code is lost. */
  lemma AsWrittenLosesExitCode(shell: Shell, installerPath: string, args: string, tempLog: string)
    ensures var cmd := InstallerCommand(installerPath, args, tempLog);
            var w := RunInstallerAsWritten(shell, installerPath, args, tempLog);
            var c := RunInstaller(shell, installerPath, args, tempLog);
            && (shell(cmd).status == Exited(0) ==> w == c == InstallOutcome(0, None))
            && (shell(cmd).status.StartFailed? ==> w == c)
            && (shell(cmd).status.Exited? && shell(cmd).status.code != 0 ==>
                  w.exitCode == -1 && w.error.Some? && c == InstallOutcome(shell(cmd).status.code, None))
  {
  }

  /** What happens to the installer's log once it has run. */
  datatype LogStep = LeaveLog | MoveLog(to: string) | RemoveLog

  /** After an error the function has returned and the log is left where it is; otherwise an
      existing log is kept in the root folder after a failure and removed after success. */
  function AfterRun(o: InstallOutcome, logExists: bool, rootPath: string, logName: string): (s: LogStep)
    ensures s.MoveLog? <==> o.error.None? && logExists && o.exitCode != 0
    ensures s == RemoveLog <==> o.error.None? && logExists && o.exitCode == 0
  {
    if o.error.Some? || !logExists then LeaveLog
    else if o.exitCode != 0 then MoveLog(JoinString(rootPath, logName))
    else RemoveLog
  }

  /** As written, the log of a failed installation is never kept: the branch that moves it is
      unreachable. With the intended exit code it is moved whenever the installer fails and
      wrote one. */
  lemma FailedInstallLogKept(shell: Shell, installerPath: string, args: string, tempLog: string,
                             rootPath: string, logName: string)
    ensures !AfterRun(RunInstallerAsWritten(shell, installerPath, args, tempLog), true, rootPath, logName).MoveLog?
    ensures var st := shell(InstallerCommand(installerPath, args, tempLog)).status;
            st.Exited? && st.code != 0 ==>
              AfterRun(RunInstaller(shell, installerPath, args, tempLog), true, rootPath, logName)
                == MoveLog(JoinString(rootPath, logName))
  {
  }
}

=== FILE: paths.dfy ===
/** Windows paths as Go's `path/filepath` sees them: an optional drive volume ("C:"), a
    rooted flag (a separator right after the volume) and the segments between separators.
    Both `\` and `/` separate. `Clean` is the lexical normalisation of `filepath.Clean`. */
module Paths {
  import opened Text

  datatype Path = Path(volume: string, rooted: bool, segs: seq<string>)

  predicate IsSep(c: char) { c == '\\' || c == '/' }

  predicate IsAsciiLetter(c: char) { 'a' <= c <= 'z' || 'A' <= c <= 'Z' }

  /** The drive volume `X:` that starts `s`, or "" (UNC volumes are not modelled). */
  function VolumeName(s: string): (v: string)
    ensures v == [] || (|v| == 2 && |s| >= 2 && v == s[..2])
  {
    if |s| >= 2 && IsAsciiLetter(s[0]) && s[1] == ':' then s[..2] else []
  }

  /** `filepath.ToSlash` on Windows: every `\` becomes `/`. */
  function ToSlash(s: string): (r: string)
    ensures |r| == |s| && '\\' !in r
    ensures forall i :: 0 <= i < |s| ==> (r[i] == '/' <==> IsSep(s[i]))
    ensures forall i :: 0 <= i < |s| && !IsSep(s[i]) ==> r[i] == s[i]
  {
    ReplaceChars(s, {'\\'}, '/')
  }

  /** Two names have the same slash form exactly when they have the same length and agree
      at every position, except that either separator may stand where the other has one. */
  lemma SameSlashForm(a: string, b: string)
    ensures ToSlash(a) == ToSlash(b) <==>
              |a| == |b| && forall i :: 0 <= i < |a| ==> a[i] == b[i] || (IsSep(a[i]) && IsSep(b[i]))
  {
    if ToSlash(a) == ToSlash(b) {
      forall i | 0 <= i < |a| ensures a[i] == b[i] || (IsSep(a[i]) && IsSep(b[i])) {
        assert ToSlash(a)[i] == ToSlash(b)[i];
      }
    }
    if |a| == |b| && forall i :: 0 <= i < |a| ==> a[i] == b[i] || (IsSep(a[i]) && IsSep(b[i])) {
      forall i | 0 <= i < |a| ensures ToSlash(a)[i] == ToSlash(b)[i] {
      }
    }
  }

  /** The raw pieces of `s` between separators, empty pieces included. */
  function Pieces(s: string): (r: seq<string>)
    ensures forall i :: 0 <= i < |r| ==> forall k :: 0 <= k < |r[i]| ==> !IsSep(r[i][k])
  {
    var r := Split(ToSlash(s), '/');
    SplitJoinRoundTrip(ToSlash(s), '/');
    assert forall i :: 0 <= i < |r| ==> forall k :: 0 <= k < |r[i]| ==> r[i][k] != '\\' by {
      forall i | 0 <= i < |r| ensures forall k :: 0 <= k < |r[i]| ==> r[i][k] != '\\' {
        SplitPiecesFrom(ToSlash(s), '/', '\\', i);
      }
    }
    r
  }

  /** A character absent from a string is absent from every piece of its split. */
  lemma {:induction false} SplitPiecesFrom(s: string, c: char, d: char, i: int)
    requires d !in s && 0 <= i < |Split(s, c)|
    ensures d !in Split(s, c)[i]
    decreases |s|
  {
    if |s| > 0 {
      var rest := Split(s[1..], c);
      if s[0] == c {
        if i > 0 { SplitPiecesFrom(s[1..], c, d, i - 1); }
      } else if i == 0 {
        SplitPiecesFrom(s[1..], c, d, 0);
      } else {
        SplitPiecesFrom(s[1..], c, d, i);
      }
    }
  }

  /** The path a string denotes before cleaning. */
  function Parse(s: string): Path {
    var v := VolumeName(s);
    var rest := s[|v|..];
    Path(v, |rest| > 0 && IsSep(rest[0]), Pieces(rest))
  }

  // ---------------------------------------------------------------------------
  // Clean

  /** One step of lexical resolution: drop "" and ".", let ".." remove the previous
      segment, and keep a leading ".." only on a relative path. */
  function Step(stack: seq<string>, seg: string, rooted: bool): seq<string> {
    if seg == "" || seg == "." then stack
    else if seg == ".." then
      if |stack| > 0 && stack[|stack| - 1] != ".." then stack[..|stack| - 1]
      else if rooted then stack
      else stack + [".."]
    else stack + [seg]
  }

  /** Resolves the segments left to right. */
  function Resolve(segs: seq<string>, rooted: bool): seq<string>
  {
    if |segs| == 0 then [] else Step(Resolve(segs[..|segs| - 1], rooted), segs[|segs| - 1], rooted)
  }

  /** The shape `Clean` produces: no "" or "." segments, and ".." only in a leading run
      on a relative path. */
  predicate IsCleanSegs(segs: seq<string>, rooted: bool) {
    && (forall i :: 0 <= i < |segs| ==> segs[i] != "" && segs[i] != ".")
    && (forall i :: 0 <= i < |segs| && segs[i] == ".." ==> !rooted && forall j :: 0 <= j < i ==> segs[j] == "..")
  }

  predicate IsClean(p: Path) { IsCleanSegs(p.segs, p.rooted) }

  /** `filepath.Clean`. */
  function Clean(p: Path): (r: Path)
    ensures r.volume == p.volume && r.rooted == p.rooted
    ensures IsClean(r)
  {
    ResolveIsClean(p.segs, p.rooted);
    Path(p.volume, p.rooted, Resolve(p.segs, p.rooted))
  }

  lemma {:induction false} ResolveIsClean(segs: seq<string>, rooted: bool)
    ensures IsCleanSegs(Resolve(segs, rooted), rooted)
  {
    if |segs| > 0 {
      ResolveIsClean(segs[..|segs| - 1], rooted);
    }
  }

  /** Resolving segments that are already clean changes nothing. */
  lemma {:induction false} ResolveClean(segs: seq<string>, rooted: bool)
    requires IsCleanSegs(segs, rooted)
    ensures Resolve(segs, rooted) == segs
  {
    if |segs| > 0 {
      var init := segs[..|segs| - 1];
      var x := segs[|segs| - 1];
      CleanSegsPrefix(segs, rooted);
      ResolveClean(init, rooted);
      assert segs == init + [x];
      assert x != "" && x != ".";
      if x == ".." {
        assert !rooted;
        if |init| > 0 {
          assert init[|init| - 1] == segs[|segs| - 2];
          assert init[|init| - 1] == "..";
        }
        assert Step(init, x, rooted) == init + [".."];
      } else {
        assert Step(init, x, rooted) == init + [x];
      }
    }
  }

  lemma CleanSegsPrefix(segs: seq<string>, rooted: bool)
    requires |segs| > 0 && IsCleanSegs(segs, rooted)
    ensures IsCleanSegs(segs[..|segs| - 1], rooted)
  {
    var init := segs[..|segs| - 1];
    forall i | 0 <= i < |init| && init[i] == ".."
      ensures !rooted && forall j :: 0 <= j < i ==> init[j] == ".."
    {
      assert segs[i] == "..";
    }
  }

  /** `Clean` is idempotent, and it is the identity exactly on clean paths. */
  lemma CleanIdempotent(p: Path)
    ensures Clean(Clean(p)) == Clean(p)
    ensures IsClean(p) <==> Clean(p) == p
  {
    ResolveClean(Clean(p).segs, p.rooted);
    if IsClean(p) {
      ResolveClean(p.segs, p.rooted);
    }
  }

  /** Resolving a concatenation resolves the second part on top of the first. */
  lemma {:induction false} ResolveAppend(a: seq<string>, b: seq<string>, rooted: bool)
    ensures Resolve(a + b, rooted) == Resolve(Resolve(a, rooted) + b, rooted)
    decreases |b|
  {
    if |b| == 0 {
      assert a + b == a;
      assert Resolve(a, rooted) + b == Resolve(a, rooted);
      ResolveIsClean(a, rooted);
      ResolveClean(Resolve(a, rooted), rooted);
    } else {
      var b' := b[..|b| - 1];
      assert a + b == (a + b') + [b[|b| - 1]];
      assert (a + b)[..|a + b| - 1] == a + b';
      assert (Resolve(a, rooted) + b)[..|Resolve(a, rooted) + b| - 1] == Resolve(a, rooted) + b';
      ResolveAppend(a, b', rooted);
    }
  }

  // ---------------------------------------------------------------------------
  // Join, Dir, Base

  /** `filepath.Join(p, name)`: the name's pieces appended to the path, then cleaned. */
  function Join(p: Path, name: string): (r: Path)
    ensures r.volume == p.volume && r.rooted == p.rooted && IsClean(r)
  {
    Clean(Path(p.volume, p.rooted, p.segs + Pieces(name)))
  }

  /** Segments that resolution leaves alone: none is empty, "." or "..". */
  predicate Plain(segs: seq<string>) {
    forall i :: 0 <= i < |segs| ==> segs[i] != "" && segs[i] != "." && segs[i] != ".."
  }

  /** Joining plain pieces onto a clean path just appends them. */
  lemma JoinPlain(dest: Path, name: string)
    requires IsClean(dest) && Plain(Pieces(name))
    ensures Join(dest, name) == Path(dest.volume, dest.rooted, dest.segs + Pieces(name))
  {
    AppendPlainIsClean(dest.segs, Pieces(name), dest.rooted);
    ResolveClean(dest.segs + Pieces(name), dest.rooted);
  }

  lemma AppendPlainIsClean(a: seq<string>, b: seq<string>, rooted: bool)
    requires IsCleanSegs(a, rooted) && Plain(b)
    ensures IsCleanSegs(a + b, rooted)
  {
    var s := a + b;
    forall i | 0 <= i < |s| && s[i] == ".."
      ensures !rooted && forall j :: 0 <= j < i ==> s[j] == ".."
    {
      assert i < |a| && s[i] == a[i];
      forall j | 0 <= j < i ensures s[j] == ".." { assert s[j] == a[j]; }
    }
  }

  /** A separator-free name is a single piece. */
  lemma PiecesOfName(name: string)
    requires forall k :: 0 <= k < |name| ==> !IsSep(name[k])
    ensures Pieces(name) == [name]
  {
    assert ToSlash(name) == name;
    SplitOfFree(name, '/');
  }

  /** Joining a single plain name onto a path appends it as one segment below the path's
      cleaned form. */
  lemma JoinName(p: Path, name: string)
    requires name != "" && name != "." && name != ".."
    requires forall k :: 0 <= k < |name| ==> !IsSep(name[k])
    ensures Join(p, name) == Path(p.volume, p.rooted, Clean(p).segs + [name])
  {
    PiecesOfName(name);
    JoinCleans(p, name);
    JoinPlain(Clean(p), name);
  }

  /** Joining onto a path is joining onto its cleaned form. */
  lemma JoinCleans(p: Path, name: string)
    ensures Join(Clean(p), name) == Join(p, name)
  {
    ResolveAppend(p.segs, Pieces(name), p.rooted);
  }

  /** `filepath.Join(dir, name)` as the text Go produces on Windows. */
  function JoinString(dir: string, name: string): string {
    Render(Join(Parse(dir), name), "\\")
  }

  /** The parent of a clean path (`filepath.Dir`); a path with no segments is its own parent. */
  function Parent(p: Path): (r: Path)
    ensures r.volume == p.volume && r.rooted == p.rooted
    ensures |p.segs| > 0 ==> r.segs == p.segs[..|p.segs| - 1]
    ensures |p.segs| == 0 ==> r == p
  {
    if |p.segs| == 0 then p else Path(p.volume, p.rooted, p.segs[..|p.segs| - 1])
  }

  /** `q` is `p` or one of its ancestors: same anchor, segment prefix. */
  predicate IsPrefixOf(q: Path, p: Path) {
    q.volume == p.volume && q.rooted == p.rooted && |q.segs| <= |p.segs| && q.segs == p.segs[..|q.segs|]
  }

  /** `p` lies strictly below `root`: same anchor and `root`'s segments a proper prefix. */
  predicate StrictlyInside(root: Path, p: Path) {
    IsPrefixOf(root, p) && |root.segs| < |p.segs|
  }

  /** The text of a path with `sep` between segments; an empty relative path is ".". */
  function Render(p: Path, sep: string): string {
    if p.rooted then p.volume + sep + JoinWith(p.segs, sep)
    else if |p.segs| == 0 then p.volume + "."
    else p.volume + JoinWith(p.segs, sep)
  }

  /** `filepath.Dir(s)` as text, `\`-separated. */
  function DirString(s: string): string {
    var p := Parse(s);
    var dropLast := if |p.segs| == 0 then p.segs else p.segs[..|p.segs| - 1];
    Render(Clean(Path(p.volume, p.rooted, dropLast)), "\\")
  }

  function TrimTrailingSeps(s: string): (r: string)
    ensures |r| <= |s| && r == s[..|r|]
    ensures r == [] || !IsSep(r[|r| - 1])
    ensures forall k :: |r| <= k < |s| ==> IsSep(s[k])
  {
    if |s| > 0 && IsSep(s[|s| - 1]) then TrimTrailingSeps(s[..|s| - 1]) else s
  }

  /** The part of `s` after its last separator. */
  function AfterLastSep(s: string): (r: string)
    ensures forall k :: 0 <= k < |r| ==> !IsSep(r[k])
    ensures |r| <= |s| && r == s[|s| - |r|..]
    ensures |r| < |s| ==> IsSep(s[|s| - |r| - 1])
  {
    if |s| == 0 || IsSep(s[|s| - 1]) then [] else AfterLastSep(s[..|s| - 1]) + [s[|s| - 1]]
  }

  /** `filepath.Base` on Windows: the last element after trailing separators and the volume
      are removed; "." for the empty string and `\` for a path of separators only. */
  function Base(s: string): (r: string)
    ensures |r| > 0
    ensures r != "\\" ==> forall k :: 0 <= k < |r| ==> !IsSep(r[k])
  {
    if |s| == 0 then "."
    else
      var t := TrimTrailingSeps(s);
      var u := t[|VolumeName(t)|..];
      var b := AfterLastSep(u);
      if |b| == 0 then "\\" else b
  }

  /** `filepath.Ext`: the part of the last element from its last '.', or "" when it has
      none. */
  function Ext(s: string): (r: string)
    ensures |r| <= |s|
    ensures r == [] || r[0] == '.'
    decreases |s|
  {
    if |s| == 0 || IsSep(s[|s| - 1]) then []
    else if s[|s| - 1] == '.' then s[|s| - 1..]
    else
      var e := Ext(s[..|s| - 1]);
      if e == [] then [] else e + [s[|s| - 1]]
  }

  /** The extension of a name below a directory is the name's own. */
  lemma {:induction false} ExtOfJoined(dir: string, name: string)
    requires |dir| > 0 && IsSep(dir[|dir| - 1])
    requires forall k :: 0 <= k < |name| ==> !IsSep(name[k])
    ensures Ext(dir + name) == Ext(name)
    decreases |name|
  {
    if |name| == 0 {
      assert dir + name == dir;
    } else {
      var s := dir + name;
      assert s[|s| - 1] == name[|name| - 1];
      assert s[..|s| - 1] == dir + name[..|name| - 1];
      ExtOfJoined(dir, name[..|name| - 1]);
      ExtStep(s);
      ExtStep(name);
    }
  }

  /** One step of `Ext` on a string that does not end in a separator. */
  lemma ExtStep(s: string)
    requires |s| > 0 && !IsSep(s[|s| - 1])
    ensures var c := s[|s| - 1];
            var e := Ext(s[..|s| - 1]);
            Ext(s) == if c == '.' then [c] else if e == [] then [] else e + [c]
  {
    assert s[|s| - 1..] == [s[|s| - 1]];
  }

  /** A name without separators is the base of any path ending in it. */
  lemma BaseOfJoined(dir: string, name: string)
    requires |name| > 0 && forall k :: 0 <= k < |name| ==> !IsSep(name[k])
    requires |dir| > 0 && IsSep(dir[|dir| - 1])
    ensures Base(dir + name) == name
  {
    var s := dir + name;
    assert s[|s| - 1] == name[|name| - 1];
    NoTrailingSep(s);
    VolumeWithin(dir, name);
    var v := VolumeName(s);
    var u := s[|v|..];
    assert u == dir[|v|..] + name;
    AfterLastSepOf(dir[|v|..], name);
    assert AfterLastSep(u) == name;
  }

  lemma NoTrailingSep(s: string)
    requires |s| > 0 && !IsSep(s[|s| - 1])
    ensures TrimTrailingSeps(s) == s
  {
  }

  /** A directory ending in a separator holds the whole volume name of anything below it. */
  lemma VolumeWithin(dir: string, name: string)
    requires |dir| > 0 && IsSep(dir[|dir| - 1])
    ensures |VolumeName(dir + name)| <= |dir|
  {
    if |dir| == 1 {
      assert (dir + name)[0] == dir[0];
    } else {
      assert (dir + name)[..2] == dir[..2];
    }
  }

  lemma {:induction false} AfterLastSepOf(d: string, name: string)
    requires forall k :: 0 <= k < |name| ==> !IsSep(name[k])
    requires |d| > 0 && IsSep(d[|d| - 1])
    ensures AfterLastSep(d + name) == name
    decreases |name|
  {
    if |name| == 0 {
      assert d + name == d;
    } else {
      var n' := name[..|name| - 1];
      assert (d + name)[..|d + name| - 1] == d + n';
      AfterLastSepOf(d, n');
    }
  }
}

=== FILE: selection.dfy ===
/** The numbered prompts the modules share: one number read with
    `strconv.Atoi(strings.TrimSpace(line))` and checked against a range, and a
    comma-separated list of 1-based item numbers where each bad entry is skipped. */
module Selection {
  import opened Wrappers
  import opened Text

  // ---------------------------------------------------------------------------
  // One number

  /** The number on a line when it is well formed and within `lo..hi`. */
  function ChooseNumber(line: string, lo: int, hi: int): (r: Option<int>)
    ensures r.Some? ==> lo <= r.value <= hi
    ensures r.Some? <==> Atoi(TrimSpace(line)).Some? && lo <= Atoi(TrimSpace(line)).value <= hi
  {
    match Atoi(TrimSpace(line))
    case Some(n) => if lo <= n <= hi then Some(n) else None
    case None => None
  }

  /** A number typed as its decimal text and Enter is the number chosen, whenever the
      range allows it; outside the range nothing is chosen. */
  lemma ChooseTypedNumber(n: int, lo: int, hi: int)
    requires MinInt64 <= n <= MaxInt64
    ensures ChooseNumber(Itoa(n) + "\n", lo, hi) == if lo <= n <= hi then Some(n) else None
  {
    TypedNumberTrims(n);
    ItoaAtoiRoundTrip(n);
  }

  /** Trimming a typed number and its newline leaves the number's text. */
  lemma TypedNumberTrims(n: int)
    ensures TrimSpace(Itoa(n) + "\n") == Itoa(n)
  {
    TrimSpaceDropsTrailingSpace(Itoa(n), '\n');
    assert Itoa(n) + "\n" == Itoa(n) + ['\n'];
    NumeralEdges(n);
    TrimSpaceOfTrimmed(Itoa(n));
  }

  /** A numeral starts with a digit or '-' and ends with a digit. */
  lemma NumeralEdges(n: int)
    ensures |Itoa(n)| > 0 && !IsSpace(Itoa(n)[0]) && IsDigit(Itoa(n)[|Itoa(n)| - 1])
  {
    if n < 0 {
      var d := NatDigits(-n);
      assert Itoa(n) == "-" + d;
      assert Itoa(n)[|Itoa(n)| - 1] == d[|d| - 1];
    }
  }

  // ---------------------------------------------------------------------------
  // A list of numbers

  /** What one comma-separated entry contributes: the item it numbers, or nothing. */
  function PickPart<T>(items: seq<T>, part: string): (r: seq<T>)
    ensures |r| <= 1
  {
    match Atoi(TrimSpace(part))
    case Some(n) => if 1 <= n <= |items| then [items[n - 1]] else []
    case None => []
  }

  /** The entries in order, each contributing its item. */
  function PickParts<T>(items: seq<T>, parts: seq<string>): (r: seq<T>)
    ensures |r| <= |parts|
    ensures forall k :: 0 <= k < |r| ==> r[k] in items
  {
    if |parts| == 0 then []
    else PickPart(items, parts[0]) + PickParts(items, parts[1..])
  }

  /** The selection loop of `collectLogs` and `handlePatches`: the trimmed line split at
      commas, every entry trimmed and read with `Atoi`, numbers in `1..|items|` kept in
      the order typed, duplicates included, everything else skipped. */
  function PickByNumbers<T>(items: seq<T>, line: string): (r: seq<T>)
    ensures |r| <= |Split(TrimSpace(line), ',')|
    ensures forall k :: 0 <= k < |r| ==> r[k] in items
  {
    PickParts(items, Split(TrimSpace(line), ','))
  }

  /** The decimal texts of a list of numbers. */
  function Numerals(ns: seq<int>): (r: seq<string>)
    ensures |r| == |ns| && forall i :: 0 <= i < |ns| ==> r[i] == Itoa(ns[i])
  {
    if |ns| == 0 then [] else [Itoa(ns[0])] + Numerals(ns[1..])
  }

  /** The items the numbers name, in order. */
  function ItemsAt<T>(items: seq<T>, ns: seq<int>): (r: seq<T>)
    requires forall i :: 0 <= i < |ns| ==> 1 <= ns[i] <= |items|
    ensures |r| == |ns| && forall i :: 0 <= i < |ns| ==> r[i] == items[ns[i] - 1]
  {
    if |ns| == 0 then [] else [items[ns[0] - 1]] + ItemsAt(items, ns[1..])
  }

  /** Round trip: typing valid item numbers separated by commas selects exactly those
      items, in that order and with repeats. */
  lemma PickTypedNumbers<T>(items: seq<T>, ns: seq<int>)
    requires forall i :: 0 <= i < |ns| ==> 1 <= ns[i] <= |items| && ns[i] <= MaxInt64
    ensures PickByNumbers(items, JoinWith(Numerals(ns), ",")) == ItemsAt(items, ns)
  {
    var xs := Numerals(ns);
    if |ns| == 0 {
      assert Split(TrimSpace(""), ',') == [""];
    } else {
      TypedNumbersTrimmed(ns);
      forall i | 0 <= i < |xs| ensures ',' !in xs[i] {
        NumeralHasNoComma(ns[i]);
      }
      SplitOfJoin(xs, ',');
      PickNumerals(items, ns);
    }
  }

  /** A typed list of numbers is not blank and has no space to trim at either end. */
  lemma TypedNumbersTrimmed(ns: seq<int>)
    requires |ns| > 0
    ensures var line := JoinWith(Numerals(ns), ",");
            |line| > 0 && TrimSpace(line) == line
  {
    var xs := Numerals(ns);
    forall i | 0 <= i < |xs| ensures |xs[i]| > 0 && !IsSpace(xs[i][0]) && !IsSpace(xs[i][|xs[i]| - 1]) {
      NumeralEdges(ns[i]);
    }
    JoinEdges(xs, ",");
    TrimSpaceOfTrimmed(JoinWith(xs, ","));
  }

  /** Each numeral contributes the item it numbers. */
  lemma {:induction false} PickNumerals<T>(items: seq<T>, ns: seq<int>)
    requires forall i :: 0 <= i < |ns| ==> 1 <= ns[i] <= |items| && ns[i] <= MaxInt64
    ensures PickParts(items, Numerals(ns)) == ItemsAt(items, ns)
    decreases |ns|
  {
    if |ns| > 0 {
      var xs := Numerals(ns);
      TypedPart(items, ns[0]);
      assert xs[1..] == Numerals(ns[1..]);
      PickNumerals(items, ns[1..]);
    }
  }

  /** One numeral in range picks its item. */
  lemma TypedPart<T>(items: seq<T>, n: int)
    requires 1 <= n <= |items| && n <= MaxInt64
    ensures PickPart(items, Itoa(n)) == [items[n - 1]]
  {
    NumeralEdges(n);
    TrimSpaceOfTrimmed(Itoa(n));
    ItoaAtoiRoundTrip(n);
  }

  lemma NumeralHasNoComma(n: int)
    ensures ',' !in Itoa(n)
  {
    if n < 0 {
      assert Itoa(n) == "-" + NatDigits(-n);
    }
  }

  /** Joined non-empty pieces start with the first piece's first character and end with the
      last piece's last character. */
  lemma {:induction false} JoinEdges(xs: seq<string>, sep: string)
    requires |xs| > 0 && forall i :: 0 <= i < |xs| ==> |xs[i]| > 0
    ensures var j := JoinWith(xs, sep);
            |j| > 0 && j[0] == xs[0][0] && j[|j| - 1] == xs[|xs| - 1][|xs[|xs| - 1]| - 1]
    decreases |xs|
  {
    if |xs| > 1 {
      JoinEdges(xs[1..], sep);
    }
  }

  /** Splitting pieces joined by a separator they do not contain gives the pieces back. */
  lemma {:induction false} SplitOfJoin(xs: seq<string>, c: char)
    requires |xs| > 0 && forall i :: 0 <= i < |xs| ==> c !in xs[i]
    ensures Split(JoinWith(xs, [c]), c) == xs
    decreases |xs|
  {
    if |xs| == 1 {
      SplitOfFree(xs[0], c);
    } else {
      SplitLeading(xs[0], c, JoinWith(xs[1..], [c]));
      SplitOfJoin(xs[1..], c);
      assert xs == [xs[0]] + xs[1..];
    }
  }
}

=== FILE: serviceutils.dfy ===
/** The decisions of the maintenance utilities (modules/serviceutils/serviceutils.go): where
    the last lines of a log start, which directories the log collector walks, which files
    it keeps, how archives found among them are unpacked, and the names the collected
    files get on disk and inside the result archive. */
module ServiceUtils {
  import opened Wrappers
  import opened Text
  import opened Paths
  import opened FileSystem
  import opened Selection

  // ---------------------------------------------------------------------------
  // findStartOfLastNLines

  const Newline: byte := 10

  /** The size of the chunks the file is read in, from its end backwards. */
  const BufferSize: nat := 4096

  /** The number of newline bytes in `s`. */
  function Newlines(s: seq<byte>): nat {
    if |s| == 0 then 0 else (if s[0] == Newline then 1 else 0) + Newlines(s[1..])
  }

  /** The newline count the scan stops at. The first newline met already satisfies
      `lineCount >= n` when `n` is below 1, so such an `n` acts as 1. */
  function Need(n: int): nat { if n < 1 then 1 else n }

  /** One backward scan: `data[..i]` is still to be read, and `count` newlines were met
      after it. The scan stops just after the newline that makes the count reach `n`. */
  function BackScan(data: seq<byte>, i: nat, count: nat, n: int): (r: nat)
    requires i <= |data|
    ensures r <= i
    decreases i
  {
    if i == 0 then 0
    else if data[i - 1] == Newline && count + 1 >= n then i
    else BackScan(data, i - 1, if data[i - 1] == Newline then count + 1 else count, n)
  }

  /** The answer of a single backward scan over the whole content. */
  function TailStart(data: seq<byte>, n: int): (r: nat)
    ensures r <= |data|
  {
    BackScan(data, |data|, 0, n)
  }

  /** `findStartOfLastNLines` on a file whose content is `data`: the file is read backwards
      in 4096-byte chunks, each chunk scanned from its end, and the position after the
      newline that completes the count is returned; 0 when the file is empty or has too
      few newlines. The chunked reading gives the answer of a single backward scan. */
  method FindStartOfLastNLines(data: seq<byte>, n: int) returns (r: int)
    ensures r == TailStart(data, n)
  {
    if |data| == 0 {
      return 0;
    }
    var lineCount: nat := 0;
    var readPos: nat := |data|;
    while readPos > 0
      invariant readPos <= |data|
      invariant BackScan(data, readPos, lineCount, n) == TailStart(data, n)
      decreases readPos
    {
      var readSize := BufferSize;
      if readPos < BufferSize {
        readSize := readPos;
      }
      readPos := readPos - readSize;
      var buffer := data[readPos..readPos + readSize];
      var i := readSize - 1;
      while i >= 0
        invariant -1 <= i < readSize
        invariant BackScan(data, readPos + i + 1, lineCount, n) == TailStart(data, n)
        decreases i
      {
        if buffer[i] == Newline {
          lineCount := lineCount + 1;
          if lineCount >= n {
            return readPos + i + 1;
          }
        }
        i := i - 1;
      }
    }
    return 0;
  }

  /** Counting newlines is additive over concatenation. */
  lemma {:induction false} NewlinesAppend(a: seq<byte>, b: seq<byte>)
    ensures Newlines(a + b) == Newlines(a) + Newlines(b)
    decreases |a|
  {
    if |a| > 0 {
      assert (a + b)[1..] == a[1..] + b;
      NewlinesAppend(a[1..], b);
    } else {
      assert a + b == b;
    }
  }

  /** A suffix holds no more newlines than the whole. */
  lemma SuffixNewlines(data: seq<byte>, k: nat)
    requires k <= |data|
    ensures Newlines(data[k..]) <= Newlines(data)
  {
    NewlinesAppend(data[..k], data[k..]);
    assert data[..k] + data[k..] == data;
  }

  /** The scan from `i` on, with the newlines after `i` counted and not yet enough. */
  lemma {:induction false} BackScanFinds(data: seq<byte>, i: nat, count: nat, n: int)
    requires i <= |data| && count == Newlines(data[i..]) && count < Need(n)
    ensures var r := BackScan(data, i, count, n);
            && (r > 0 ==> data[r - 1] == Newline && Newlines(data[r - 1..]) == Need(n))
            && (r == 0 <==> Newlines(data) < Need(n))
    decreases i
  {
    if i == 0 {
      assert data[0..] == data;
    } else {
      assert data[i - 1..][1..] == data[i..];
      if data[i - 1] == Newline && count + 1 >= n {
        SuffixNewlines(data, i - 1);
      } else {
        BackScanFinds(data, i - 1, if data[i - 1] == Newline then count + 1 else count, n);
      }
    }
  }

  /** The tail starts right after a newline and holds exactly `Need(n)` newlines from that
      one on; it starts at 0 exactly when the whole file has fewer. */
  lemma TailStartCounts(data: seq<byte>, n: int)
    ensures var r := TailStart(data, n);
            && (r > 0 ==> data[r - 1] == Newline && Newlines(data[r - 1..]) == Need(n))
            && (r == 0 <==> Newlines(data) < Need(n))
  {
    assert data[|data|..] == [];
    BackScanFinds(data, |data|, 0, n);
  }

  /** The number of lines a text shows: one per newline, plus an unterminated last line. */
  function Lines(s: seq<byte>): nat {
    Newlines(s) + if |s| > 0 && s[|s| - 1] != Newline then 1 else 0
  }

  /** As written, a file that ends with a newline shows one line fewer than asked for: the
      final newline is counted as if it started a line of its own. */
  lemma AsWrittenTailShowsOneLineFewer(data: seq<byte>, n: int)
    requires |data| > 0 && data[|data| - 1] == Newline && Newlines(data) >= Need(n)
    ensures Lines(data) >= Need(n)
    ensures Lines(data[TailStart(data, n)..]) == Need(n) - 1
  {
    var r := TailStart(data, n);
    TailStartCounts(data, n);
    assert data[r - 1..][1..] == data[r..];
  }

  /** The tail of "a\nb\n" for two lines starts at the "b". */
  lemma TwoLineTail()
    ensures TailStart([97, 10, 98, 10], 2) == 2
    ensures Lines([97, 10, 98, 10]) == 2
  {
    var d: seq<byte> := [97, 10, 98, 10];
    assert BackScan(d, 4, 0, 2) == BackScan(d, 3, 1, 2);
    assert BackScan(d, 3, 1, 2) == BackScan(d, 2, 1, 2);
    assert d[1] == Newline;
  }

  /** Where the last `n` lines start when a final newline ends the last line instead of
      counting as a line: the scan then looks for one newline more. */
  function TailStartCorrected(data: seq<byte>, n: int): (r: nat)
    ensures r <= |data|
  {
    var endsWithNewline := |data| > 0 && data[|data| - 1] == Newline;
    TailStart(data, if endsWithNewline then Need(n) + 1 else Need(n))
  }

  /** The corrected tail starts at the beginning of a line and shows `Need(n)` lines, or the
      whole file when it has fewer. */
  lemma CorrectedTailHasNLines(data: seq<byte>, n: int)
    ensures var r := TailStartCorrected(data, n);
            && (r == 0 || data[r - 1] == Newline)
            && Lines(data[r..]) == if Lines(data) < Need(n) then Lines(data) else Need(n)
  {
    var endsWithNewline := |data| > 0 && data[|data| - 1] == Newline;
    var need := if endsWithNewline then Need(n) + 1 else Need(n);
    var r := TailStartCorrected(data, n);
    TailStartCounts(data, need);
    assert Need(need) == need;
    if r > 0 {
      assert data[r - 1..][1..] == data[r..];
      assert r < |data|;
      assert data[r..][|data[r..]| - 1] == data[|data| - 1];
    } else {
      assert data[0..] == data;
    }
  }

  // ---------------------------------------------------------------------------
  // collectLogs: what is typed

  /** The number of days typed: a positive number, or an error. */
  function ParseDays(line: string): (r: Result<int>)
    ensures r.Ok? ==> 0 < r.value <= MaxInt64
    ensures r.Err? ==> r.error.InvalidInput?
  {
    match ChooseNumber(line, 1, MaxInt64)
    case Some(d) => Ok(d)
    case None => Err(InvalidInput("days"))
  }

  /** A positive number typed with Enter is the number of days; anything below 1 is refused. */
  lemma TypedDays(d: int)
    requires MinInt64 <= d <= MaxInt64
    ensures ParseDays(Itoa(d) + "\n") == if d > 0 then Ok(d) else Err(InvalidInput("days"))
  {
    ChooseTypedNumber(d, 1, MaxInt64);
  }

  /** The directories picked from the numbered list, in the order typed; picking none is an
      error. */
  function SelectDirs(available: seq<string>, line: string): (r: Result<seq<string>>)
    ensures r.Ok? ==> |r.value| > 0 && forall k :: 0 <= k < |r.value| ==> r.value[k] in available
    ensures r.Err? ==> r.error.NothingFound?
  {
    var picked := PickByNumbers(available, line);
    if |picked| == 0 then Err(NothingFound("log directory")) else Ok(picked)
  }

  /** Typing valid numbers separated by commas selects exactly those directories, repeats
      included. */
  lemma TypedDirsSelected(available: seq<string>, ns: seq<int>)
    requires |ns| > 0
    requires forall i :: 0 <= i < |ns| ==> 1 <= ns[i] <= |available| && ns[i] <= MaxInt64
    ensures SelectDirs(available, JoinWith(Numerals(ns), ",")) == Ok(ItemsAt(available, ns))
  {
    PickTypedNumbers(available, ns);
  }

  // ---------------------------------------------------------------------------
  // Which files are collected

  /** What the collector does with a file, by the ending of its lower-cased name. */
  datatype FileKind = LogFile | ArchiveFile | Other

  /** The name ends in ".log" or ".txt", in any case. */
  predicate IsLogName(name: string) {
    HasSuffix(ToLower(name), ".log") || HasSuffix(ToLower(name), ".txt")
  }

  /** ".log" and ".txt" files are collected as they are; ".zip", ".gz" and ".7z" files are
      unpacked; everything else is ignored. */
  function Classify(name: string): (k: FileKind)
    ensures k == LogFile <==> IsLogName(name)
  {
    KindOfLower(ToLower(name))
  }

  /** The class of an already lower-cased name. */
  function KindOfLower(lower: string): (k: FileKind) {
    if HasSuffix(lower, ".log") || HasSuffix(lower, ".txt") then LogFile
    else if HasSuffix(lower, ".zip") || HasSuffix(lower, ".gz") || HasSuffix(lower, ".7z") then ArchiveFile
    else Other
  }

  /** The ending alone decides: whatever comes before it, a name ending in an extension from
      the two lists falls in that list's class. */
  lemma ClassifyBySuffix(stem: string, ext: string)
    requires ToLower(ext) in [".log", ".txt", ".zip", ".gz", ".7z"]
    ensures Classify(stem + ext) == if ToLower(ext) in [".log", ".txt"] then LogFile else ArchiveFile
  {
    var e := ToLower(ext);
    var lower := ToLower(stem) + e;
    assert ToLower(stem + ext) == lower;
    assert lower[|lower| - |e|..] == e;
    KindBySuffix(lower, e);
  }

  lemma KindBySuffix(lower: string, e: string)
    requires e in [".log", ".txt", ".zip", ".gz", ".7z"] && HasSuffix(lower, e)
    ensures KindOfLower(lower) == if e in [".log", ".txt"] then LogFile else ArchiveFile
  {
    if e == ".txt" {
      LastDiffers(lower, e, ".log");
    } else if e == ".zip" || e == ".gz" || e == ".7z" {
      LastDiffers(lower, e, ".log");
      LastDiffers(lower, e, ".txt");
      if e != ".zip" {
        LastDiffers(lower, e, ".zip");
      }
    }
  }

  /** Two endings with different last characters cannot both end the same string. */
  lemma LastDiffers(s: string, e: string, f: string)
    requires HasSuffix(s, e) && |e| > 0 && |f| > 0 && e[|e| - 1] != f[|f| - 1]
    ensures !HasSuffix(s, f)
  {
    SuffixLast(s, e);
    SuffixLast(s, f);
  }

  lemma SuffixLast(s: string, p: string)
    requires |p| > 0
    ensures HasSuffix(s, p) ==> s[|s| - 1] == p[|p| - 1]
  {
    if HasSuffix(s, p) {
      assert s[|s| - |p|..][|p| - 1] == s[|s| - 1];
    }
  }

  /** ASCII letter case does not matter: "APP.LOG" is collected like "app.log". */
  lemma ClassifyIgnoresCase(name: string)
    requires forall k :: 0 <= k < |name| ==> name[k] < '\U{80}'
    ensures Classify(ToUpper(name)) == Classify(name)
  {
    assert ToLower(ToUpper(name)) == ToLower(name);
  }

  // ---------------------------------------------------------------------------
  // Unpacking archives

  /** A file of the result archive: where its bytes are now, the path it was found at (the
      archive's path for unpacked files) and the name it gets in the result. */
  datatype FileToArchive = FileToArchive(sourcePath: string, originalPath: string, originalBaseName: string)

  /** A file inside an archive, by its slash-separated path; `copied` says whether opening it,
      creating its copy and copying it succeed. */
  datatype Member = Member(path: string, isDir: bool, copied: bool)

  /** A file the walk met (and kept by its modification time), with what unpacking it would
      give: as gzip, the name stored in the header ("" when there is none) or the error; as
      another archive, its members in walk order or the error opening it. */
  datatype WalkedFile = WalkedFile(path: string, name: string, gzip: Result<string>, listing: Result<seq<Member>>)

  /** The part of a slash-separated path after its last '/'. */
  function SlashBase(p: string): (r: string)
    ensures |r| <= |p| && r == p[|p| - |r|..] && '/' !in r
  {
    if |p| == 0 || p[|p| - 1] == '/' then [] else SlashBase(p[..|p| - 1]) + [p[|p| - 1]]
  }

  /** `filepath.Base` without `filepath.Ext`. */
  function Stem(path: string): string {
    TrimSuffix(Base(path), Ext(path))
  }

  /** The temporary file name a member of another archive gets as written: the archive's
      file name without extension, '_', and the member's path with every '/' made '_'. */
  function DestName(archivePath: string, memberPath: string): string {
    Stem(archivePath) + "_" + ReplaceChars(memberPath, {'/'}, '_')
  }

  /** As written, the folder an archive was found in plays no part in the names of the files
      unpacked from it, so two archives with the same file name in different folders unpack
      a member of the same path to the same temporary file, the second overwriting the first. */
  lemma DestNameIgnoresFolder(dir1: string, dir2: string, name: string, memberPath: string)
    requires |dir1| > 0 && IsSep(dir1[|dir1| - 1]) && |dir2| > 0 && IsSep(dir2[|dir2| - 1])
    requires |name| > 0 && forall k :: 0 <= k < |name| ==> !IsSep(name[k])
    ensures DestName(dir1 + name, memberPath) == DestName(dir2 + name, memberPath)
  {
    BaseOfJoined(dir1, name);
    BaseOfJoined(dir2, name);
    ExtOfJoined(dir1, name);
    ExtOfJoined(dir2, name);
  }

  /** A name Go's `filepath.Join` keeps as one element: not empty, "." or "..", and without
      separators. */
  predicate SingleElement(n: string) {
    n != "" && n != "." && n != ".." && forall k :: 0 <= k < |n| ==> !IsSep(n[k])
  }

  /** The corrected temporary name: the position of the file in the collected list, '_',
      and the name as written with both separators made '_', so that it stays one element. */
  function NumberedName(k: nat, name: string): (r: string)
    ensures SingleElement(r)
  {
    var r := Itoa(k) + "_" + ReplaceChars(name, {'/', '\\'}, '_');
    assert r[0] == Itoa(k)[0] && IsDigit(r[0]);
    assert forall i :: 0 <= i < |Itoa(k)| ==> r[i] == Itoa(k)[i];
    r
  }

  /** Different positions give different names. */
  lemma NumberedNamesDiffer(i: nat, j: nat, x: string, y: string)
    requires i != j
    ensures NumberedName(i, x) != NumberedName(j, y)
  {
    var a := NatDigits(i);
    var b := NatDigits(j);
    var u := a + ("_" + ReplaceChars(x, {'/', '\\'}, '_'));
    var v := b + ("_" + ReplaceChars(y, {'/', '\\'}, '_'));
    assert NumberedName(i, x) == u && NumberedName(j, y) == v;
    if |a| < |b| {
      assert u[|a|] == '_' && v[|a|] == b[|a|];
    } else if |b| < |a| {
      assert v[|b|] == '_' && u[|b|] == a[|b|];
    } else {
      assert u[..|a|] == a && v[..|b|] == b;
    }
  }

  /** `filepath.Join(dir, name)` tells apart names that are single elements. */
  lemma JoinStringInjective(dir: string, n1: string, n2: string)
    requires SingleElement(n1) && SingleElement(n2) && n1 != n2
    ensures JoinString(dir, n1) != JoinString(dir, n2)
  {
    var p := Parse(dir);
    var c := Clean(p);
    JoinedElement(dir, n1);
    JoinedElement(dir, n2);
    var s1 := JoinWith(c.segs + [n1], "\\");
    var s2 := JoinWith(c.segs + [n2], "\\");
    if |c.segs| > 0 {
      JoinWithAppend(c.segs, [n1], "\\");
      JoinWithAppend(c.segs, [n2], "\\");
      assert s1[|s1| - |n1|..] == n1 && s2[|s2| - |n2|..] == n2;
    }
    assert JoinString(dir, n1) == Render(Path(p.volume, p.rooted, c.segs + [n1]), "\\");
    assert JoinString(dir, n2) == Render(Path(p.volume, p.rooted, c.segs + [n2]), "\\");
    assert s1 != s2;
    var pre := if p.rooted then p.volume + "\\" else p.volume;
    assert JoinString(dir, n1) == pre + s1 && JoinString(dir, n2) == pre + s2;
    assert (pre + s1)[|pre|..] == s1 && (pre + s2)[|pre|..] == s2;
  }

  /** Joining a single element appends it to the cleaned directory. */
  lemma JoinedElement(dir: string, n: string)
    requires SingleElement(n)
    ensures Join(Parse(dir), n) == Path(Parse(dir).volume, Parse(dir).rooted, Clean(Parse(dir)).segs + [n])
  {
    assert ToSlash(n) == n;
    SplitOfFree(n, '/');
    assert Pieces(n) == [n];
    JoinCleans(Parse(dir), n);
    JoinPlain(Clean(Parse(dir)), n);
  }

  /** What the walk contributes before files are numbered: a log file collected where it
      is, or a file unpacked from an archive, with the archive's path, the name the file
      keeps in the result and the name its temporary copy is given as written. */
  datatype Item = Direct(path: string, name: string) | Unpacked(originalPath: string, baseName: string, tempName: string)

  /** `extractLogFromGzip`: the header's name, or the file name without extension when the
      header has none, names both the copy and the file in the result. */
  function ExtractGzip(path: string, gzip: Result<string>): (r: Result<Item>)
    ensures gzip.Err? <==> r.Err?
    ensures r.Ok? ==> r.value.Unpacked? && r.value.originalPath == path
    ensures r.Ok? ==> r.value.baseName == r.value.tempName
    ensures gzip.Ok? && gzip.value != "" ==> r.Ok? && r.value.baseName == gzip.value
    ensures gzip == Ok("") ==> r.Ok? && r.value.baseName == Stem(path)
  {
    match gzip
    case Err(e) => Err(e)
    case Ok(header) =>
      var baseName := if header == "" then Stem(path) else header;
      Ok(Unpacked(path, baseName, baseName))
  }

  /** The members the walk of another archive copies out: files whose path ends in ".log" or
      ".txt" in any case and that copy out, in walk order. */
  function KeptMembers(ms: seq<Member>): (r: seq<Member>)
    ensures |r| <= |ms|
    ensures forall i :: 0 <= i < |r| ==> r[i] in ms && !r[i].isDir && r[i].copied && IsLogName(r[i].path)
    ensures forall m :: m in ms && !m.isDir && m.copied && IsLogName(m.path) ==> m in r
  {
    if |ms| == 0 then []
    else
      var m := ms[0];
      var rest := KeptMembers(ms[1..]);
      assert forall m' :: m' in ms ==> m' == m || m' in ms[1..];
      if !m.isDir && IsLogName(m.path) && m.copied then [m] + rest else rest
  }

  /** `extractLogsFromUniversalArchive`: each kept member, named in the result by the last
      element of its path, its copy named by `DestName`. */
  function MemberItems(path: string, ms: seq<Member>): (r: seq<Item>)
    ensures |r| == |KeptMembers(ms)|
    ensures forall i :: 0 <= i < |r| ==> r[i] == Unpacked(path, SlashBase(KeptMembers(ms)[i].path), DestName(path, KeptMembers(ms)[i].path))
  {
    var kept := KeptMembers(ms);
    seq(|kept|, i requires 0 <= i < |kept| => Unpacked(path, SlashBase(kept[i].path), DestName(path, kept[i].path)))
  }

  /** `handleArchive`: the file is read as gzip first; only when that fails is it opened as
      another kind of archive; when both fail, the gzip error is returned. */
  function HandleArchive(path: string, gzip: Result<string>, listing: Result<seq<Member>>): (r: Result<seq<Item>>)
    ensures gzip.Ok? ==> r == Ok([ExtractGzip(path, gzip).value])
    ensures gzip.Err? && listing.Ok? ==> r == Ok(MemberItems(path, listing.value))
    ensures gzip.Err? && listing.Err? ==> r == Err(gzip.error)
    ensures r.Ok? ==> forall i :: 0 <= i < |r.value| ==> r.value[i].Unpacked? && r.value[i].originalPath == path
  {
    match ExtractGzip(path, gzip)
    case Ok(item) => Ok([item])
    case Err(e) =>
      match listing
      case Ok(ms) => Ok(MemberItems(path, ms))
      case Err(_) => Err(e)
  }

  /** What one walked file contributes: itself when it is a log file, what unpacking gives
      when it is an archive (nothing when that fails, after a warning), nothing otherwise. */
  function FileItems(f: WalkedFile): (r: seq<Item>)
    ensures Classify(f.name) == Other ==> r == []
    ensures Classify(f.name) == LogFile ==> r == [Direct(f.path, f.name)]
    ensures Classify(f.name) == ArchiveFile ==> forall i :: 0 <= i < |r| ==> r[i].Unpacked? && r[i].originalPath == f.path
  {
    match Classify(f.name)
    case LogFile => [Direct(f.path, f.name)]
    case ArchiveFile =>
      (match HandleArchive(f.path, f.gzip, f.listing)
       case Ok(items) => items
       case Err(_) => [])
    case Other => []
  }

  /** The walk's contributions in walk order. */
  function Plan(files: seq<WalkedFile>): (r: seq<Item>)
  {
    if |files| == 0 then [] else FileItems(files[0]) + Plan(files[1..])
  }

  /** Every file collected where it is was met by the walk as a log file. */
  lemma {:induction false} PlanDirectFromLogFiles(files: seq<WalkedFile>, i: nat)
    requires i < |Plan(files)| && Plan(files)[i].Direct?
    ensures exists f :: f in files && Classify(f.name) == LogFile && Plan(files)[i] == Direct(f.path, f.name)
    decreases |files|
  {
    var head := FileItems(files[0]);
    assert Plan(files) == head + Plan(files[1..]);
    if i < |head| {
      assert files[0] in files;
    } else {
      PlanDirectFromLogFiles(files[1..], i - |head|);
      var f :| f in files[1..] && Classify(f.name) == LogFile && Plan(files[1..])[i - |head|] == Direct(f.path, f.name);
      assert f in files;
    }
  }

  /** Every log file the walk meets is collected. */
  lemma {:induction false} PlanKeepsLogFiles(files: seq<WalkedFile>, j: nat)
    requires j < |files| && Classify(files[j].name) == LogFile
    ensures Direct(files[j].path, files[j].name) in Plan(files)
    decreases |files|
  {
    if j > 0 {
      PlanKeepsLogFiles(files[1..], j - 1);
    }
  }

  /** The record of the `n`th collected item. A log file is read where it is. An unpacked
      file's copy is named by its number and its name as written, so that copies never
      share a name (see `DestNameIgnoresFolder` for the name as written). */
  function Place(item: Item, tempDir: string, n: nat): (f: FileToArchive)
    ensures item.Direct? ==> f.sourcePath == f.originalPath == item.path && f.originalBaseName == item.name
    ensures item.Unpacked? ==> f.originalPath == item.originalPath && f.originalBaseName == item.baseName
  {
    match item
    case Direct(p, name) => FileToArchive(p, p, name)
    case Unpacked(orig, baseName, tempName) => FileToArchive(JoinString(tempDir, NumberedName(n, tempName)), orig, baseName)
  }

  /** The record of an unpacked file as written: its copy is named by the name as written. */
  function PlaceAsWritten(item: Item, tempDir: string): (f: FileToArchive)
    ensures item.Unpacked? ==> f.sourcePath == JoinString(tempDir, item.tempName)
  {
    match item
    case Direct(p, name) => FileToArchive(p, p, name)
    case Unpacked(orig, baseName, tempName) => FileToArchive(JoinString(tempDir, tempName), orig, baseName)
  }

  /** As written, two archives of the same file name in different folders, both holding a log
      at the same path, put that log's copy at the same temporary path. */
  lemma AsWrittenCopiesCollide(tempDir: string, dir1: string, dir2: string, name: string, m: Member)
    requires |dir1| > 0 && IsSep(dir1[|dir1| - 1]) && |dir2| > 0 && IsSep(dir2[|dir2| - 1]) && dir1 != dir2
    requires |name| > 0 && forall k :: 0 <= k < |name| ==> !IsSep(name[k])
    requires !m.isDir && m.copied && IsLogName(m.path)
    ensures var a := MemberItems(dir1 + name, [m]);
            var b := MemberItems(dir2 + name, [m]);
            && |a| == 1 && |b| == 1 && a[0].originalPath != b[0].originalPath
            && PlaceAsWritten(a[0], tempDir).sourcePath == PlaceAsWritten(b[0], tempDir).sourcePath
  {
    DestNameIgnoresFolder(dir1, dir2, name, m.path);
    assert KeptMembers([m]) == [m];
    assert (dir1 + name)[..|dir1|] == dir1 && (dir2 + name)[..|dir2|] == dir2;
    if |dir1| != |dir2| {
      assert |dir1 + name| != |dir2 + name|;
    }
  }

  /** The files collected from the walk, numbered in order from 0. */
  function Collect(tempDir: string, files: seq<WalkedFile>): (r: seq<FileToArchive>)
    ensures |r| == |Plan(files)|
    ensures forall i :: 0 <= i < |r| ==> r[i] == Place(Plan(files)[i], tempDir, i)
  {
    var plan := Plan(files);
    seq(|plan|, i requires 0 <= i < |plan| => Place(plan[i], tempDir, i))
  }

  /** No two unpacked files share a temporary copy. */
  lemma CollectedCopiesDistinct(tempDir: string, files: seq<WalkedFile>, i: nat, j: nat)
    requires i < j < |Plan(files)| && Plan(files)[i].Unpacked? && Plan(files)[j].Unpacked?
    ensures Collect(tempDir, files)[i].sourcePath != Collect(tempDir, files)[j].sourcePath
  {
    var plan := Plan(files);
    NumberedNamesDiffer(i, j, plan[i].tempName, plan[j].tempName);
    JoinStringInjective(tempDir, NumberedName(i, plan[i].tempName), NumberedName(j, plan[j].tempName));
  }

  // ---------------------------------------------------------------------------
  // collectLogs

  /** The files the walks of the chosen directories meet, directory by directory in the order
      chosen. */
  function Walked(dirs: seq<string>, walk: string -> seq<WalkedFile>): (r: seq<WalkedFile>)
  {
    if |dirs| == 0 then [] else walk(dirs[0]) + Walked(dirs[1..], walk)
  }

  /** A run of the collector up to the archive: the number of days and the files to put in. */
  datatype Collection = Collection(days: int, files: seq<FileToArchive>)

  /** `collectLogs`: the number of days, then the directories (none available is an error),
      then the choice among them, then the walks. `walk` gives the files of a directory newer
      than the cut-off, in walk order; `tempDir` is the temporary directory unpacked copies go
      to. Finding nothing to collect is an error. */
  function CollectLogs(daysLine: string, available: seq<string>, choiceLine: string, tempDir: string,
                       walk: string -> seq<WalkedFile>): (r: Result<Collection>)
    ensures r.Ok? <==> ParseDays(daysLine).Ok? && |available| > 0 && SelectDirs(available, choiceLine).Ok?
                       && |Plan(Walked(SelectDirs(available, choiceLine).value, walk))| > 0
    ensures ParseDays(daysLine).Err? ==> r == Err(ParseDays(daysLine).error)
    ensures ParseDays(daysLine).Ok? && |available| == 0 ==> r == Err(NothingFound("log directories"))
    ensures ParseDays(daysLine).Ok? && |available| > 0 && SelectDirs(available, choiceLine).Err? ==>
              r == Err(SelectDirs(available, choiceLine).error)
    ensures ParseDays(daysLine).Ok? && |available| > 0 && SelectDirs(available, choiceLine).Ok? &&
            |Plan(Walked(SelectDirs(available, choiceLine).value, walk))| == 0 ==>
              r == Err(NothingFound("log file"))
    ensures r.Ok? ==> r.value.days == ParseDays(daysLine).value && |r.value.files| > 0
  {
    var days :- ParseDays(daysLine);
    if |available| == 0 then Err(NothingFound("log directories"))
    else
      var dirs :- SelectDirs(available, choiceLine);
      var files := Collect(tempDir, Walked(dirs, walk));
      if |files| == 0 then Err(NothingFound("log file")) else Ok(Collection(days, files))
  }

  /** Every log file met in a chosen directory is collected in place. */
  lemma WalkedLogFileCollected(dirs: seq<string>, walk: string -> seq<WalkedFile>, k: nat, f: WalkedFile)
    requires k < |dirs| && f in walk(dirs[k]) && Classify(f.name) == LogFile
    ensures Direct(f.path, f.name) in Plan(Walked(dirs, walk))
  {
    WalkedContains(dirs, walk, k, f);
    var files := Walked(dirs, walk);
    var j :| 0 <= j < |files| && files[j] == f;
    PlanKeepsLogFiles(files, j);
  }

  lemma {:induction false} WalkedContains(dirs: seq<string>, walk: string -> seq<WalkedFile>, k: nat, f: WalkedFile)
    requires k < |dirs| && f in walk(dirs[k])
    ensures f in Walked(dirs, walk)
    decreases k
  {
    if k > 0 {
      WalkedContains(dirs[1..], walk, k - 1, f);
    }
  }

  // ---------------------------------------------------------------------------
  // createLogArchive

  /** The folder part of an archive entry: the directory of the original path with `\`, `/`
      and `:` made '_', and one leading '_' dropped. */
  function SanitizedDir(originalPath: string): (r: string)
    ensures forall k :: 0 <= k < |r| ==> !IsSep(r[k]) && r[k] != ':'
  {
    TrimPrefix(ReplaceChars(DirString(originalPath), {'\\', '/', ':'}, '_'), "_")
  }

  /** The name of a collected file inside the result archive. */
  function InternalPath(f: FileToArchive): string {
    JoinString(SanitizedDir(f.originalPath), f.originalBaseName)
  }

  /** An entry is the sanitized folder and the file's own name, one level deep: the folders
      of the original path are flattened into one entry folder. */
  lemma InternalPathShape(f: FileToArchive)
    requires SingleElement(SanitizedDir(f.originalPath)) && SingleElement(f.originalBaseName)
    ensures InternalPath(f) == SanitizedDir(f.originalPath) + "\\" + f.originalBaseName
  {
    var d := SanitizedDir(f.originalPath);
    assert VolumeName(d) == [];
    assert ToSlash(d) == d;
    SplitOfFree(d, '/');
    assert Parse(d) == Path([], false, [d]);
    assert Resolve([d], false) == Step(Resolve([], false), d, false) == [d];
    JoinedElement(d, f.originalBaseName);
    assert JoinWith([d, f.originalBaseName], "\\") == d + "\\" + JoinWith([f.originalBaseName], "\\");
  }

  /** A log one folder below a drive root, such as "C:\\logs\\app.log", is stored under the
      drive letter, two '_' and the folder: "C__logs\\app.log". */
  lemma DriveFolderEntry(v: char, d: string, n: string, source: string)
    requires IsAsciiLetter(v) && SingleElement(d) && ':' !in d && SingleElement(n)
    ensures InternalPath(FileToArchive(source, [v, ':', '\\'] + d + "\\" + n, n)) == [v, '_', '_'] + d + "\\" + n
  {
    var path := [v, ':', '\\'] + d + "\\" + n;
    DriveFolderDir(v, d, n);
    var sd := [v, '_', '_'] + d;
    assert ReplaceChars([v, ':', '\\'] + d, {'\\', '/', ':'}, '_') == sd;
    assert SanitizedDir(path) == sd;
    InternalPathShape(FileToArchive(source, path, n));
  }

  /** `filepath.Dir` of such a path is the drive folder. */
  lemma DriveFolderDir(v: char, d: string, n: string)
    requires IsAsciiLetter(v) && SingleElement(d) && SingleElement(n)
    ensures DirString([v, ':', '\\'] + d + "\\" + n) == [v, ':', '\\'] + d
  {
    var path := [v, ':', '\\'] + d + "\\" + n;
    assert VolumeName(path) == [v, ':'];
    assert path[2..] == "\\" + d + "\\" + n;
    RootedPieces(d, n);
    assert Resolve(["", d], true) == Step(Resolve([""], true), d, true) by {
      assert ["", d][..1] == [""];
    }
    assert Resolve([""], true) == Step(Resolve([], true), "", true) == [];
    var p := Parse(path);
    assert p == Path([v, ':'], true, ["", d, n]);
    assert p.segs[..|p.segs| - 1] == ["", d];
    assert Clean(Path([v, ':'], true, ["", d])) == Path([v, ':'], true, [d]);
    assert JoinWith([d], "\\") == d;
    assert Render(Path([v, ':'], true, [d]), "\\") == [v, ':'] + "\\" + d;
  }

  lemma RootedPieces(d: string, n: string)
    requires SingleElement(d) && SingleElement(n)
    ensures Pieces("\\" + d + "\\" + n) == ["", d, n]
  {
    assert ToSlash("\\" + d + "\\" + n) == [] + ['/'] + (d + ['/'] + n);
    SplitAround([], '/', d + ['/'] + n);
    SplitLeading(d, '/', n);
    SplitOfFree(n, '/');
    assert Split([], '/') == [[]];
  }

  /** `logs_<date and time>_<days>delta.zip`. */
  function ArchiveName(datetime: string, days: int): string {
    "logs_" + datetime + "_" + Itoa(days) + "delta.zip"
  }

  /** Runs at the same minute with different day counts write different archives. */
  lemma ArchiveNamesDifferByDays(datetime: string, d1: int, d2: int)
    requires MinInt64 <= d1 <= MaxInt64 && MinInt64 <= d2 <= MaxInt64 && d1 != d2
    ensures ArchiveName(datetime, d1) != ArchiveName(datetime, d2)
  {
    var pre := "logs_" + datetime + "_";
    if ArchiveName(datetime, d1) == ArchiveName(datetime, d2) {
      var a := ArchiveName(datetime, d1);
      assert a[|pre|..|a| - 9] == Itoa(d1) && a[|pre|..|a| - 9] == Itoa(d2);
      ItoaAtoiRoundTrip(d1);
      ItoaAtoiRoundTrip(d2);
    }
  }

  /** The result archive is itself a file the collector would unpack if it met it. */
  lemma ArchiveNameIsArchive(datetime: string, days: int)
    ensures Classify(ArchiveName(datetime, days)) == ArchiveFile
  {
    var stem := "logs_" + datetime + "_" + Itoa(days) + "delta";
    assert ArchiveName(datetime, days) == stem + ".zip";
    assert ToLower(".zip") == ".zip";
    ClassifyBySuffix(stem, ".zip");
  }
}

=== FILE: sorting.dfy ===
/** Go's ordering of strings and the two orderings the tool relies on: `sort.Strings`
    (ascending, duplicates kept) and the newest-first listing of a map's keys
    (`sort.Sort(sort.Reverse(sort.StringSlice(keys)))`). Go compares strings byte by byte
    in UTF-8, which orders runes by code point, as `<` on `char` does. */
module Sorting {

  /** Go's `a < b` on strings. */
  predicate Less(a: string, b: string)
    decreases |a|
  {
    if |a| == 0 then |b| > 0
    else if |b| == 0 then false
    else if a[0] != b[0] then a[0] < b[0]
    else Less(a[1..], b[1..])
  }

  lemma {:induction false} LessIrreflexive(a: string)
    ensures !Less(a, a)
    decreases |a|
  {
    if |a| > 0 {
      LessIrreflexive(a[1..]);
    }
  }

  lemma {:induction false} LessTransitive(a: string, b: string, c: string)
    requires Less(a, b) && Less(b, c)
    ensures Less(a, c)
    decreases |a|
  {
    if |a| > 0 && a[0] == b[0] && b[0] == c[0] {
      LessTransitive(a[1..], b[1..], c[1..]);
    }
  }

  /** Any two strings are equal or ordered one way. */
  lemma {:induction false} LessTotal(a: string, b: string)
    ensures a == b || Less(a, b) || Less(b, a)
    decreases |a|
  {
    if |a| > 0 && |b| > 0 && a[0] == b[0] {
      LessTotal(a[1..], b[1..]);
      if a[1..] == b[1..] {
        assert a == [a[0]] + a[1..] && b == [b[0]] + b[1..];
      }
    }
  }

  lemma LessAsymmetric(a: string, b: string)
    requires Less(a, b)
    ensures !Less(b, a)
  {
    if Less(b, a) {
      LessTransitive(a, b, a);
      LessIrreflexive(a);
    }
  }

  /** Neither string before the other means they are the same string. */
  lemma Antisymmetric(a: string, b: string)
    requires !Less(a, b) && !Less(b, a)
    ensures a == b
  {
    LessTotal(a, b);
  }

  // ---------------------------------------------------------------------------
  // sort.Strings

  /** No later element comes before an earlier one. */
  predicate Sorted(s: seq<string>) {
    forall i, j :: 0 <= i < j < |s| ==> !Less(s[j], s[i])
  }

  /** Inserts `x` in front of the first element that does not come before it. */
  function Insert(x: string, s: seq<string>): (r: seq<string>)
    ensures multiset(r) == multiset(s) + multiset{x}
    ensures |r| == |s| + 1
  {
    if |s| == 0 then [x]
    else if !Less(s[0], x) then [x] + s
    else
      assert s == [s[0]] + s[1..];
      [s[0]] + Insert(x, s[1..])
  }

  lemma {:induction false} InsertSorted(x: string, s: seq<string>)
    requires Sorted(s)
    ensures Sorted(Insert(x, s))
    decreases |s|
  {
    if |s| > 0 {
      if !Less(s[0], x) {
        var r := Insert(x, s);
        forall k | 0 < k < |r| ensures !Less(r[k], x) {
          NotBeforeFirst(x, s, k - 1);
        }
      } else {
        var t := Insert(x, s[1..]);
        InsertSorted(x, s[1..]);
        LessAsymmetric(s[0], x);
        forall k | 0 <= k < |t| ensures !Less(t[k], s[0]) {
          assert t[k] in multiset(t);
          if t[k] != x {
            assert t[k] in multiset(s[1..]);
            var m :| 0 <= m < |s[1..]| && s[1..][m] == t[k];
            assert s[m + 1] == t[k];
          }
        }
      }
    }
  }

  /** An element not before the head of a sorted sequence is not before any element of it. */
  lemma NotBeforeFirst(x: string, s: seq<string>, k: nat)
    requires Sorted(s) && k < |s| && !Less(s[0], x)
    ensures !Less(s[k], x)
  {
    if Less(s[k], x) {
      LessTotal(s[0], s[k]);
      if s[0] != s[k] {
        assert Less(s[0], s[k]);
        LessTransitive(s[0], s[k], x);
      }
    }
  }

  /** `sort.Strings`, as an insertion sort. */
  function SortStrings(s: seq<string>): (r: seq<string>)
    ensures Sorted(r)
    ensures multiset(r) == multiset(s)
  {
    if |s| == 0 then []
    else
      var t := SortStrings(s[1..]);
      InsertSorted(s[0], t);
      assert s == [s[0]] + s[1..];
      Insert(s[0], t)
  }

  /** Two sorted arrangements of the same strings are the same sequence: the result of
      `sort.Strings` does not depend on the algorithm or on the input order. */
  lemma {:induction false} SortedUnique(a: seq<string>, b: seq<string>)
    requires Sorted(a) && Sorted(b) && multiset(a) == multiset(b)
    ensures a == b
    decreases |a|
  {
    if |a| > 0 {
      SortedHeads(a, b);
      TailMultiset(a);
      TailMultiset(b);
      SortedUnique(a[1..], b[1..]);
      assert a == [a[0]] + a[1..] && b == [b[0]] + b[1..];
    } else {
      assert |multiset(b)| == 0;
    }
  }

  /** Sorted arrangements of the same strings start with the same string. */
  lemma SortedHeads(a: seq<string>, b: seq<string>)
    requires Sorted(a) && Sorted(b) && multiset(a) == multiset(b) && |a| > 0
    ensures |b| > 0 && a[0] == b[0]
  {
    assert a[0] in multiset(b);
    var k :| 0 <= k < |b| && b[k] == a[0];
    assert b[0] in multiset(a);
    var j :| 0 <= j < |a| && a[j] == b[0];
    LessIrreflexive(a[0]);
    LessIrreflexive(b[0]);
    assert k > 0 ==> !Less(b[k], b[0]);
    assert j > 0 ==> !Less(a[j], a[0]);
    Antisymmetric(a[0], b[0]);
  }

  lemma TailMultiset(a: seq<string>)
    requires Sorted(a) && |a| > 0
    ensures Sorted(a[1..]) && multiset(a[1..]) == multiset(a) - multiset{a[0]}
  {
    assert a == [a[0]] + a[1..];
  }

  // ---------------------------------------------------------------------------
  // Keys newest first

  /** Every element comes before all earlier ones. */
  predicate StrictlyDescending(s: seq<string>) {
    forall i, j :: 0 <= i < j < |s| ==> Less(s[j], s[i])
  }

  /** Every finite set of strings has a greatest element. */
  lemma {:induction false} GreatestExists(xs: set<string>)
    requires xs != {}
    ensures exists m :: m in xs && forall y :: y in xs ==> !Less(m, y)
    decreases |xs|
  {
    var x :| x in xs;
    var rest := xs - {x};
    if rest == {} {
      assert xs == {x};
      LessIrreflexive(x);
    } else {
      GreatestExists(rest);
      var m :| m in rest && forall y :: y in rest ==> !Less(m, y);
      if Less(m, x) {
        forall y | y in xs ensures !Less(x, y) {
          if y != x && Less(x, y) {
            LessTransitive(m, x, y);
          }
          LessIrreflexive(x);
        }
      } else {
        forall y | y in xs ensures !Less(m, y) {
          if y != x {
            assert y in rest;
          }
        }
      }
    }
  }

  /** The greatest element of a non-empty set. */
  function Greatest(xs: set<string>): (m: string)
    requires xs != {}
    ensures m in xs && forall y :: y in xs && y != m ==> Less(y, m)
  {
    GreatestExists(xs);
    assert forall a, b :: (a in xs && b in xs && (forall y :: y in xs ==> !Less(a, y)) &&
      (forall y :: y in xs ==> !Less(b, y))) ==> a == b by {
      forall a, b | a in xs && b in xs && (forall y :: y in xs ==> !Less(a, y)) &&
        (forall y :: y in xs ==> !Less(b, y))
        ensures a == b
      {
        Antisymmetric(a, b);
      }
    }
    var m :| m in xs && forall y :: y in xs ==> !Less(m, y);
    forall y | y in xs && y != m ensures Less(y, m) {
      LessTotal(y, m);
    }
    m
  }

  /** The elements of a set, greatest first. */
  function Descending(xs: set<string>): (r: seq<string>)
    ensures |r| == |xs|
    ensures forall i :: 0 <= i < |r| ==> r[i] in xs
    ensures forall y :: y in xs ==> y in r
    ensures StrictlyDescending(r)
    decreases |xs|
  {
    if xs == {} then []
    else
      var m := Greatest(xs);
      var rest := Descending(xs - {m});
      assert forall y :: y in xs && y != m ==> y in xs - {m};
      [m] + rest
  }

  /** A strictly descending sequence is fixed by its elements: the newest-first listing
      does not depend on the order in which the map handed out its keys. */
  lemma {:induction false} DescendingUnique(a: seq<string>, b: seq<string>)
    requires StrictlyDescending(a) && StrictlyDescending(b)
    requires forall y :: y in a <==> y in b
    ensures a == b
    decreases |a|
  {
    HeadIsMember(b);
    if |a| > 0 {
      assert a[0] in a;
      assert b != [];
      assert b[0] in b;
      var k :| 0 <= k < |b| && b[k] == a[0];
      var j :| 0 <= j < |a| && a[j] == b[0];
      if k > 0 {
        assert Less(a[0], b[0]);
        if j > 0 {
          assert Less(b[0], a[0]);
          LessAsymmetric(a[0], b[0]);
        } else {
          LessIrreflexive(a[0]);
        }
      }
      assert a[0] == b[0];
      forall y ensures y in a[1..] <==> y in b[1..] {
        TailMembers(a, y);
        TailMembers(b, y);
      }
      DescendingUnique(a[1..], b[1..]);
      assert a == [a[0]] + a[1..] && b == [b[0]] + b[1..];
    }
  }

  lemma HeadIsMember<T>(s: seq<T>)
    ensures |s| > 0 ==> s[0] in s
  {
  }

  /** The tail of a strictly descending sequence holds everything but its head. */
  lemma TailMembers(s: seq<string>, y: string)
    requires StrictlyDescending(s) && |s| > 0
    ensures y in s[1..] <==> y in s && y != s[0]
  {
    if y in s[1..] {
      var i :| 0 <= i < |s[1..]| && s[1..][i] == y;
      assert Less(s[i + 1], s[0]);
      LessIrreflexive(y);
    }
    if y in s && y != s[0] {
      var i :| 0 <= i < |s| && s[i] == y;
      assert s[1..][i - 1] == y;
    }
  }
}

=== FILE: text.dfy ===
/** The subset of Go's `strings`, `strconv` and `unicode` packages the tool relies on,
    with Go's semantics written out: whitespace is `unicode.IsSpace`, splitting is
    `strings.Split` with a one-character separator, numbers are `strconv.Atoi`/`Itoa`. */
module Text {
  import opened Wrappers

  // ---------------------------------------------------------------------------
  // Characters

  /** `unicode.IsSpace`: the Latin-1 spaces plus the Unicode White_Space runes. */
  predicate IsSpace(c: char) {
    c == ' ' || c == '\t' || c == '\n' || c == '\r' || c == '\U{0B}' || c == '\U{0C}'
    || c == '\U{85}' || c == '\U{A0}' || c == '\U{1680}'
    || ('\U{2000}' <= c <= '\U{200A}')
    || c == '\U{2028}' || c == '\U{2029}' || c == '\U{202F}' || c == '\U{205F}' || c == '\U{3000}'
  }

  /** RE2's `\d` and `strconv`'s digits: ASCII 0-9 only. */
  predicate IsDigit(c: char) { '0' <= c <= '9' }

  /** `unicode.ToLower` on the runes whose lower case is ASCII: A-Z, U+0130 (dotted I) and
      U+212A (Kelvin sign). Every other rune is kept as it is. */
  function LowerRune(c: char): (r: char)
    ensures 'A' <= c <= 'Z' ==> r as int == c as int + 32
    ensures !('A' <= c <= 'Z') && c != '\U{130}' && c != '\U{212A}' ==> r == c
  {
    if 'A' <= c <= 'Z' then (c as int + 32) as char
    else if c == '\U{130}' then 'i'
    else if c == '\U{212A}' then 'k'
    else c
  }

  /** `unicode.ToUpper` on the runes whose upper case is ASCII: a-z, U+0131 (dotless i) and
      U+017F (long s). Every other rune is kept as it is. */
  function UpperRune(c: char): (r: char)
    ensures 'a' <= c <= 'z' ==> r as int == c as int - 32
    ensures !('a' <= c <= 'z') && c != '\U{131}' && c != '\U{17F}' ==> r == c
  {
    if 'a' <= c <= 'z' then (c as int - 32) as char
    else if c == '\U{131}' then 'I'
    else if c == '\U{17F}' then 'S'
    else c
  }

  function ToLower(s: string): (r: string)
    ensures |r| == |s|
    ensures forall i :: 0 <= i < |s| ==> r[i] == LowerRune(s[i])
  {
    seq(|s|, i requires 0 <= i < |s| => LowerRune(s[i]))
  }

  /** Lower-casing is idempotent: a lower-cased string has nothing left to fold. */
  lemma ToLowerIdempotent(s: string)
    ensures ToLower(ToLower(s)) == ToLower(s)
  {
    forall i | 0 <= i < |s| ensures ToLower(ToLower(s))[i] == ToLower(s)[i] {
      assert ToLower(ToLower(s))[i] == LowerRune(LowerRune(s[i]));
    }
  }

  /** Upper-casing first does not change the lower-cased result, except through the two
      runes whose upper case is ASCII but whose lower case is themselves. */
  lemma ToLowerOfUpper(s: string)
    requires forall i :: 0 <= i < |s| ==> s[i] != '\U{131}' && s[i] != '\U{17F}'
    ensures ToLower(ToUpper(s)) == ToLower(s)
  {
    forall i | 0 <= i < |s| ensures ToLower(ToUpper(s))[i] == ToLower(s)[i] {
      assert ToLower(ToUpper(s))[i] == LowerRune(UpperRune(s[i]));
    }
  }

  function ToUpper(s: string): (r: string)
    ensures |r| == |s|
    ensures forall i :: 0 <= i < |s| ==> r[i] == UpperRune(s[i])
  {
    seq(|s|, i requires 0 <= i < |s| => UpperRune(s[i]))
  }

  // ---------------------------------------------------------------------------
  // Substrings

  predicate HasPrefix(s: string, p: string) { |p| <= |s| && s[..|p|] == p }

  predicate HasSuffix(s: string, p: string) { |p| <= |s| && s[|s| - |p|..] == p }

  /** `strings.TrimPrefix`: `s` without the prefix `p` when it has it. */
  function TrimPrefix(s: string, p: string): (r: string)
    ensures HasPrefix(s, p) ==> p + r == s
    ensures !HasPrefix(s, p) ==> r == s
  {
    if HasPrefix(s, p) then s[|p|..] else s
  }

  /** `strings.TrimSuffix`: `s` without the suffix `p` when it has it. */
  function TrimSuffix(s: string, p: string): (r: string)
    ensures HasSuffix(s, p) ==> r + p == s
    ensures !HasSuffix(s, p) ==> r == s
  {
    if HasSuffix(s, p) then s[..|s| - |p|] else s
  }

  /** `strings.Contains`: `t` occurs somewhere in `s`. */
  predicate Contains(s: string, t: string) {
    exists i :: 0 <= i <= |s| - |t| && OccursAt(s, t, i)
  }

  /** `t` occurs in `s` starting at index `i`. */
  predicate OccursAt(s: string, t: string, i: int) {
    0 <= i && i + |t| <= |s| && s[i..i + |t|] == t
  }

  /** Replaces every character of `s` that is in `from` by `to` (`strings.ReplaceAll` with
      one-character patterns, or `regexp.ReplaceAllString` with a character class). */
  function ReplaceChars(s: string, from: set<char>, to: char): (r: string)
    ensures |r| == |s|
    ensures forall i :: 0 <= i < |s| ==> r[i] == (if s[i] in from then to else s[i])
  {
    seq(|s|, i requires 0 <= i < |s| => if s[i] in from then to else s[i])
  }

  // ---------------------------------------------------------------------------
  // Trimming

  /** `strings.TrimSpace`: the longest slice of `s` that neither starts nor ends with a space;
      everything cut away on either side is space. */
  function TrimSpace(s: string): (r: string)
    ensures exists i :: TrimmedAt(s, r, i)
    ensures r == [] || (!IsSpace(r[0]) && !IsSpace(r[|r| - 1]))
  {
    var l := TrimLeft(s);
    var r := TrimRight(l);
    TrimBothSides(s, l, r);
    r
  }

  lemma TrimBothSides(s: string, l: string, r: string)
    requires |l| <= |s| && l == s[|s| - |l|..]
    requires forall k :: 0 <= k < |s| - |l| ==> IsSpace(s[k])
    requires |r| <= |l| && r == l[..|r|]
    requires forall k :: |r| <= k < |l| ==> IsSpace(l[k])
    ensures TrimmedAt(s, r, |s| - |l|)
  {
    var i := |s| - |l|;
    assert r == s[i..i + |r|];
    assert forall k :: i + |r| <= k < |s| ==> s[k] == l[k - i];
  }

  /** `r` is `s[i..i + |r|]` and everything around it in `s` is space. */
  predicate TrimmedAt(s: string, r: string, i: int) {
    && 0 <= i <= |s| - |r| && r == s[i..i + |r|]
    && (forall k :: 0 <= k < i ==> IsSpace(s[k]))
    && (forall k :: i + |r| <= k < |s| ==> IsSpace(s[k]))
  }

  function TrimLeft(s: string): (r: string)
    ensures |r| <= |s| && r == s[|s| - |r|..]
    ensures forall k :: 0 <= k < |s| - |r| ==> IsSpace(s[k])
    ensures r == [] || !IsSpace(r[0])
  {
    if |s| > 0 && IsSpace(s[0]) then
      var r := TrimLeft(s[1..]);
      assert s[1..][|s| - 1 - |r|..] == s[|s| - |r|..];
      r
    else s
  }

  function TrimRight(s: string): (r: string)
    ensures |r| <= |s| && r == s[..|r|]
    ensures forall k :: |r| <= k < |s| ==> IsSpace(s[k])
    ensures r == [] || !IsSpace(r[|r| - 1])
    ensures |s| > 0 && !IsSpace(s[0]) ==> |r| > 0 && r[0] == s[0]
  {
    if |s| > 0 && IsSpace(s[|s| - 1]) then TrimRight(s[..|s| - 1]) else s
  }

  /** Trimming a string that already has no surrounding space changes nothing. */
  lemma TrimSpaceOfTrimmed(s: string)
    requires s == [] || (!IsSpace(s[0]) && !IsSpace(s[|s| - 1]))
    ensures TrimSpace(s) == s
  {
  }

  /** A trailing space never survives trimming: `TrimSpace(s + [c]) == TrimSpace(s)`. */
  lemma TrimSpaceDropsTrailingSpace(s: string, c: char)
    requires IsSpace(c)
    ensures TrimSpace(s + [c]) == TrimSpace(s)
  {
    assert (s + [c])[..|s|] == s;
    if |s| > 0 && !IsSpace(s[0]) {
    } else if |s| > 0 {
      assert (s + [c])[1..] == s[1..] + [c];
      TrimSpaceDropsTrailingSpace(s[1..], c);
    }
  }

  // ---------------------------------------------------------------------------
  // Fields

  /** The leading run of non-space characters of `s`. */
  function LeadingWord(s: string): (w: string)
    ensures |w| <= |s| && w == s[..|w|]
    ensures forall k :: 0 <= k < |w| ==> !IsSpace(w[k])
    ensures |w| < |s| ==> IsSpace(s[|w|])
  {
    if |s| == 0 || IsSpace(s[0]) then [] else [s[0]] + LeadingWord(s[1..])
  }

  /** `strings.Fields`: the maximal runs of non-space characters of `s`, in order. */
  function Fields(s: string): (r: seq<string>)
    decreases |s|
  {
    if |s| == 0 then []
    else if IsSpace(s[0]) then Fields(s[1..])
    else
      var w := LeadingWord(s);
      [w] + Fields(s[|w|..])
  }

  /** True of the strings `Fields` can produce: non-empty and space-free. */
  predicate IsWord(w: string) {
    |w| > 0 && forall k :: 0 <= k < |w| ==> !IsSpace(w[k])
  }

  /** `s` with every space removed. */
  function Unspaced(s: string): string {
    if |s| == 0 then [] else (if IsSpace(s[0]) then [] else [s[0]]) + Unspaced(s[1..])
  }

  function Concat(xs: seq<string>): string {
    if |xs| == 0 then [] else xs[0] + Concat(xs[1..])
  }

  lemma {:induction false} UnspacedAppend(a: string, b: string)
    ensures Unspaced(a + b) == Unspaced(a) + Unspaced(b)
  {
    if |a| > 0 {
      assert (a + b)[1..] == a[1..] + b;
      UnspacedAppend(a[1..], b);
    } else {
      assert a + b == b;
    }
  }

  lemma {:induction false} UnspacedWord(w: string)
    requires forall k :: 0 <= k < |w| ==> !IsSpace(w[k])
    ensures Unspaced(w) == w
  {
    if |w| > 0 {
      UnspacedWord(w[1..]);
    }
  }

  /** `Fields` yields words only, and loses nothing but the spaces: concatenated, the fields
      are exactly `s` with its spaces removed. */
  lemma {:induction false} FieldsSound(s: string)
    ensures forall i :: 0 <= i < |Fields(s)| ==> IsWord(Fields(s)[i])
    ensures Concat(Fields(s)) == Unspaced(s)
    decreases |s|
  {
    if |s| == 0 {
    } else if IsSpace(s[0]) {
      FieldsSound(s[1..]);
    } else {
      var w := LeadingWord(s);
      FieldsSound(s[|w|..]);
      assert s == w + s[|w|..];
      UnspacedAppend(w, s[|w|..]);
      UnspacedWord(w);
    }
  }

  /** `Fields` is empty exactly when `s` is all spaces. */
  lemma {:induction false} FieldsEmptyIffBlank(s: string)
    ensures Fields(s) == [] <==> forall k :: 0 <= k < |s| ==> IsSpace(s[k])
    decreases |s|
  {
    if |s| > 0 && IsSpace(s[0]) {
      FieldsEmptyIffBlank(s[1..]);
      assert forall k :: 1 <= k < |s| ==> s[k] == s[1..][k - 1];
    }
  }

  /** `JoinWith(xs, sep)`: `strings.Join`. */
  function JoinWith(xs: seq<string>, sep: string): string
  {
    if |xs| == 0 then [] else if |xs| == 1 then xs[0] else xs[0] + sep + JoinWith(xs[1..], sep)
  }

  /** Round trip: splitting words joined by single spaces gives the words back. */
  lemma {:induction false} FieldsOfJoinedWords(ws: seq<string>)
    requires forall i :: 0 <= i < |ws| ==> IsWord(ws[i])
    ensures Fields(JoinWith(ws, " ")) == ws
  {
    if |ws| == 1 {
      LeadingWordOfWord(ws[0], []);
      assert ws[0] + [] == ws[0];
      assert ws[0][|ws[0]|..] == [];
      assert Fields(ws[0]) == [ws[0]] + Fields([]);
    } else if |ws| > 1 {
      var rest := JoinWith(ws[1..], " ");
      var s := ws[0] + " " + rest;
      assert JoinWith(ws, " ") == s;
      assert s == ws[0] + (" " + rest);
      LeadingWordOfWord(ws[0], " " + rest);
      assert s[|ws[0]|..] == " " + rest;
      assert (" " + rest)[1..] == rest;
      assert Fields(" " + rest) == Fields(rest);
      FieldsOfJoinedWords(ws[1..]);
      assert ws == [ws[0]] + ws[1..];
    }
  }

  lemma {:induction false} LeadingWordOfWord(w: string, t: string)
    requires IsWord(w)
    requires t == [] || IsSpace(t[0])
    ensures LeadingWord(w + t) == w
  {
    if |w| > 1 {
      assert (w + t)[1..] == w[1..] + t;
      LeadingWordOfWord(w[1..], t);
    } else {
      assert (w + t)[1..] == t;
    }
  }

  // ---------------------------------------------------------------------------
  // Splitting on one character

  /** `strings.Split(s, string(c))`: the pieces of `s` between occurrences of `c`;
      always at least one piece. */
  function Split(s: string, c: char): (r: seq<string>)
    ensures |r| >= 1
    decreases |s|
  {
    if |s| == 0 then [[]]
    else
      var rest := Split(s[1..], c);
      if s[0] == c then [[]] + rest else [[s[0]] + rest[0]] + rest[1..]
  }

  /** No piece of a split contains the separator, and joining the pieces back with the
      separator restores the string. */
  lemma {:induction false} SplitJoinRoundTrip(s: string, c: char)
    ensures forall i :: 0 <= i < |Split(s, c)| ==> c !in Split(s, c)[i]
    ensures JoinWith(Split(s, c), [c]) == s
    decreases |s|
  {
    if |s| > 0 {
      SplitJoinRoundTrip(s[1..], c);
      var rest := Split(s[1..], c);
      if s[0] == c {
        assert JoinWith([[]] + rest, [c]) == [] + [c] + JoinWith(rest, [c]);
      } else {
        var r := [[s[0]] + rest[0]] + rest[1..];
        if |rest| > 1 {
          assert JoinWith(rest, [c]) == rest[0] + [c] + JoinWith(rest[1..], [c]);
          assert r[1..] == rest[1..];
        }
      }
    }
  }

  /** Splitting distributes over an occurrence of the separator. */
  lemma {:induction false} SplitAround(a: string, c: char, b: string)
    ensures Split(a + [c] + b, c) == Split(a, c) + Split(b, c)
    decreases |a|
  {
    var s := a + [c] + b;
    if |a| == 0 {
      assert s[0] == c;
      assert s[1..] == b;
    } else {
      assert s[0] == a[0];
      assert s[1..] == a[1..] + [c] + b;
      SplitAround(a[1..], c, b);
    }
  }

  /** A separator-free string followed by the separator is the first piece. */
  lemma {:induction false} SplitLeading(x: string, c: char, b: string)
    requires c !in x
    ensures Split(x + [c] + b, c) == [x] + Split(b, c)
  {
    SplitAround(x, c, b);
    SplitOfFree(x, c);
  }

  lemma {:induction false} SplitOfFree(x: string, c: char)
    requires c !in x
    ensures Split(x, c) == [x]
    decreases |x|
  {
    if |x| > 0 {
      assert c !in x[1..];
      SplitOfFree(x[1..], c);
      assert [x[0]] + x[1..] == x;
    }
  }

  /** A split has more than one piece exactly when the separator occurs. */
  lemma {:induction false} SplitSeveralIff(s: string, c: char)
    ensures |Split(s, c)| >= 2 <==> c in s
    decreases |s|
  {
    if |s| > 0 {
      SplitSeveralIff(s[1..], c);
      assert s == [s[0]] + s[1..];
    }
  }

  lemma ConcatAssoc<T>(x: seq<T>, y: seq<T>, z: seq<T>)
    ensures (x + y) + z == x + (y + z)
  {
  }

  /** Joining two non-empty lists is joining their joins. */
  lemma {:induction false} JoinWithAppend(xs: seq<string>, ys: seq<string>, sep: string)
    requires |xs| > 0 && |ys| > 0
    ensures JoinWith(xs + ys, sep) == JoinWith(xs, sep) + sep + JoinWith(ys, sep)
    decreases |xs|
  {
    if |xs| == 1 {
      assert (xs + ys)[1..] == ys;
    } else {
      assert (xs + ys)[1..] == xs[1..] + ys;
      JoinWithAppend(xs[1..], ys, sep);
    }
  }

  // ---------------------------------------------------------------------------
  // Decimal numbers

  const MaxInt64: int := 0x7fff_ffff_ffff_ffff
  const MinInt64: int := -0x8000_0000_0000_0000

  predicate AllDigits(s: string) { forall k :: 0 <= k < |s| ==> IsDigit(s[k]) }

  function DigitValue(c: char): nat
    requires IsDigit(c)
  {
    c as int - '0' as int
  }

  /** The value of a string of decimal digits, most significant first. */
  function DigitsValue(s: string): nat
    requires AllDigits(s)
  {
    if |s| == 0 then 0 else 10 * DigitsValue(s[..|s| - 1]) + DigitValue(s[|s| - 1])
  }

  /** `strconv.Atoi`: an optional sign followed by one or more ASCII digits whose value fits
      in 64 bits; anything else is an error. */
  function Atoi(s: string): (r: Option<int>)
    ensures r.Some? ==> MinInt64 <= r.value <= MaxInt64
    ensures r.Some? <==> WellFormedNumber(s) && MinInt64 <= NumberValue(s) <= MaxInt64
    ensures r.Some? ==> r.value == NumberValue(s)
    ensures AllDigits(s) && |s| > 0 && DigitsValue(s) <= MaxInt64 ==> r == Some(DigitsValue(s))
    ensures |s| == 0 ==> r == None
  {
    if |s| == 0 then None
    else if s[0] == '+' || s[0] == '-' then
      if |s| >= 2 && AllDigits(s[1..]) then
        var v: int := if s[0] == '-' then 0 - DigitsValue(s[1..]) else DigitsValue(s[1..]);
        if MinInt64 <= v <= MaxInt64 then Some(v) else None
      else None
    else if AllDigits(s) && DigitsValue(s) <= MaxInt64 then Some(DigitsValue(s))
    else None
  }

  const MaxUint64: int := 0xffff_ffff_ffff_ffff

  /** The run of ASCII digits that `s` starts with. */
  function LeadingDigits(s: string): (r: string)
    ensures |r| <= |s| && r == s[..|r|] && AllDigits(r)
    ensures |r| < |s| ==> !IsDigit(s[|r|])
  {
    if |s| > 0 && IsDigit(s[0]) then [s[0]] + LeadingDigits(s[1..]) else []
  }

  lemma {:induction false} LeadingDigitsOver(d: string, rest: string)
    requires AllDigits(d) && (rest == [] || !IsDigit(rest[0]))
    ensures LeadingDigits(d + rest) == d
    decreases |d|
  {
    if |d| == 0 {
      assert d + rest == rest;
    } else {
      assert (d + rest)[1..] == d[1..] + rest;
      LeadingDigitsOver(d[1..], rest);
      assert [d[0]] + d[1..] == d;
    }
  }

  lemma LeadingDigitsOfDigits(s: string)
    ensures AllDigits(s) ==> LeadingDigits(s) == s
  {
    if AllDigits(s) {
      LeadingDigitsOver(s, []);
      assert s + [] == s;
    }
  }

  /** The digit run that follows an optional sign. */
  function SignedDigitRun(s: string): (r: string)
    ensures AllDigits(r)
  {
    LeadingDigits(if |s| > 0 && (s[0] == '+' || s[0] == '-') then s[1..] else s)
  }

  /** `strconv.ParseUint` reads digits left to right and gives up with `ErrRange` at the
      first digit that takes the value past 64 unsigned bits, before it looks at anything
      after that digit; `ParseInt` then clamps to the signed bound. */
  predicate OverflowsUint64(s: string) {
    DigitsValue(SignedDigitRun(s)) > MaxUint64
  }

  /** `v, _ := strconv.Atoi(s)` with the error ignored: a well-formed number out of the
      64-bit range, and any text whose leading digits already exceed 64 unsigned bits,
      comes back clamped to the bound of its sign (as `strconv` reports it with
      `ErrRange`); anything else malformed comes back as 0. */
  function AtoiLenient(s: string): (r: int)
    ensures MinInt64 <= r <= MaxInt64
    ensures Atoi(s).Some? ==> r == Atoi(s).value
    ensures WellFormedNumber(s) ==> r == Clamp64(NumberValue(s))
    ensures OverflowsUint64(s) ==> r == (if |s| > 0 && s[0] == '-' then MinInt64 else MaxInt64)
    ensures !WellFormedNumber(s) && !OverflowsUint64(s) ==> r == 0
  {
    var negative := |s| > 0 && s[0] == '-';
    var body := if |s| > 0 && (s[0] == '+' || s[0] == '-') then s[1..] else s;
    LeadingDigitsOfDigits(body);
    if DigitsValue(LeadingDigits(body)) > MaxUint64 then
      if negative then MinInt64 else MaxInt64
    else if |body| > 0 && AllDigits(body) then
      Clamp64(if negative then 0 - DigitsValue(body) else DigitsValue(body))
    else 0
  }

  /** Appending digits never lowers the value of a digit string. */
  lemma {:induction false} DigitsValueGrows(d: string, e: string)
    requires AllDigits(d) && AllDigits(e)
    ensures AllDigits(d + e) && DigitsValue(d + e) >= DigitsValue(d)
    decreases |e|
  {
    if |e| == 0 {
      assert d + e == d;
    } else {
      var f := e[..|e| - 1];
      DigitsValueGrows(d, f);
      assert (d + e)[..|d + e| - 1] == d + f;
    }
  }

  /** The digit run of a string is a prefix of the digit run of any extension of it. */
  lemma {:induction false} LeadingDigitsExtend(x: string, t: string)
    ensures exists e :: AllDigits(e) && LeadingDigits(x + t) == LeadingDigits(x) + e
  {
    var d := LeadingDigits(x);
    assert x == d + x[|d|..];
    if |d| < |x| {
      assert x + t == d + (x[|d|..] + t);
      LeadingDigitsOver(d, x[|d|..] + t);
      assert LeadingDigits(x + t) == d + [];
    } else {
      assert x + t == d + t;
      LeadingDigitsAfter(d, t);
    }
  }

  lemma {:induction false} LeadingDigitsAfter(d: string, t: string)
    requires AllDigits(d)
    ensures LeadingDigits(d + t) == d + LeadingDigits(t)
    decreases |d|
  {
    if |d| == 0 {
      assert d + t == t;
    } else {
      assert (d + t)[1..] == d[1..] + t;
      LeadingDigitsAfter(d[1..], t);
      assert [d[0]] + (d[1..] + LeadingDigits(t)) == d + LeadingDigits(t);
    }
  }

  /** Once the leading digits overflow, nothing written after them changes the result:
      "99999999999999999999x" reads as the largest int64, "-99999999999999999999x" as the
      smallest. */
  lemma AtoiLenientIgnoresRestAfterOverflow(s: string, t: string)
    requires OverflowsUint64(s)
    ensures OverflowsUint64(s + t)
    ensures AtoiLenient(s + t) == AtoiLenient(s)
  {
    var body := if |s| > 0 && (s[0] == '+' || s[0] == '-') then s[1..] else s;
    assert |s| > 0;
    assert (s + t)[0] == s[0];
    assert (if (s[0] == '+' || s[0] == '-') then (s + t)[1..] else s + t) == body + t;
    LeadingDigitsExtend(body, t);
    var e :| AllDigits(e) && LeadingDigits(body + t) == LeadingDigits(body) + e;
    DigitsValueGrows(LeadingDigits(body), e);
  }

  /** An optional sign followed by at least one ASCII digit. */
  predicate WellFormedNumber(s: string) {
    || (|s| > 0 && AllDigits(s))
    || (|s| >= 2 && (s[0] == '+' || s[0] == '-') && AllDigits(s[1..]))
  }

  /** The value a well-formed number denotes, its sign applied. */
  function NumberValue(s: string): int
    requires WellFormedNumber(s)
  {
    if s[0] == '-' then 0 - DigitsValue(s[1..])
    else if s[0] == '+' then DigitsValue(s[1..])
    else DigitsValue(s)
  }

  function Clamp64(v: int): (r: int)
    ensures MinInt64 <= r <= MaxInt64
    ensures MinInt64 <= v <= MaxInt64 ==> r == v
  {
    if v > MaxInt64 then MaxInt64 else if v < MinInt64 then MinInt64 else v
  }

  function DigitChar(d: nat): (c: char)
    requires d < 10
    ensures IsDigit(c) && DigitValue(c) == d
  {
    ('0' as int + d) as char
  }

  function NatDigits(n: nat): (s: string)
    ensures |s| > 0 && AllDigits(s) && DigitsValue(s) == n
  {
    if n < 10 then
      var s := [DigitChar(n)];
      assert s[..0] == [];
      s
    else
      var p := NatDigits(n / 10);
      var s := p + [DigitChar(n % 10)];
      assert s[..|s| - 1] == p;
      s
  }

  /** `strconv.Itoa`. */
  function Itoa(n: int): string
  {
    if n < 0 then "-" + NatDigits(-n) else NatDigits(n)
  }

  // ---------------------------------------------------------------------------
  // Lowercase hexadecimal

  predicate IsLowerHexDigit(c: char) { '0' <= c <= '9' || 'a' <= c <= 'f' }

  predicate AllLowerHex(s: string) { forall k :: 0 <= k < |s| ==> IsLowerHexDigit(s[k]) }

  function HexDigitValue(c: char): nat
    requires IsLowerHexDigit(c)
  {
    if c <= '9' then c as int - '0' as int else c as int - 'a' as int + 10
  }

  /** The value of a string of lowercase hexadecimal digits, most significant first. */
  function HexDigitsValue(s: string): nat
    requires AllLowerHex(s)
  {
    if |s| == 0 then 0 else 16 * HexDigitsValue(s[..|s| - 1]) + HexDigitValue(s[|s| - 1])
  }

  function HexDigitChar(d: nat): (c: char)
    requires d < 16
    ensures IsLowerHexDigit(c) && HexDigitValue(c) == d
  {
    if d < 10 then ('0' as int + d) as char else ('a' as int + (d - 10)) as char
  }

  /** The lowercase hexadecimal digits of `n` without leading zeros, as Go's internal
      `itoa.Uitox` writes them after its "0x". */
  function LowerHex(n: nat): (s: string)
    ensures |s| > 0 && AllLowerHex(s) && HexDigitsValue(s) == n
    ensures n > 0 ==> s[0] != '0'
  {
    if n < 16 then
      var s := [HexDigitChar(n)];
      assert s[..0] == [];
      s
    else
      var p := LowerHex(n / 16);
      var s := p + [HexDigitChar(n % 16)];
      assert s[..|s| - 1] == p;
      s
  }

  /** Round trip: `Atoi` reads back what `Itoa` wrote, for every 64-bit integer. */
  lemma ItoaAtoiRoundTrip(n: int)
    requires MinInt64 <= n <= MaxInt64
    ensures Atoi(Itoa(n)) == Some(n)
  {
    if n < 0 {
      var s := Itoa(n);
      assert s[1..] == NatDigits(-n);
    } else {
      assert !(NatDigits(n)[0] == '+' || NatDigits(n)[0] == '-');
    }
  }
}

=== FILE: universalinstaller.dfy ===
/** The universal installer of modules/universalinstaller/universalinstaller.go: a menu of
    configured items, each downloaded over HTTP into the cache and then either run as an
    installer or unpacked (with an optional command afterwards). The module carries its
    own copy of the extraction loop; here it is an imperative loop proved to compute what
    `Archive.Unzip` computes. */
module UniversalInstaller {
  import opened Wrappers
  import opened Text
  import opened Paths
  import opened FileSystem
  import opened Archive
  import opened WinUtils
  import AssetManager

  /** One configured item. */
  datatype InstallItem = InstallItem(
    menuText: string, url: string, kind: string,
    installArgs: string, destinationPath: string, runAfterUnpack: string)

  // ---------------------------------------------------------------------------
  // The local copy of unzip

  /** The local `unzip`, member by member. */
  method UnzipLocal(fs: FS, archive: Option<seq<Entry>>, dest: Path) returns (r: Applied)
    ensures r == Unzip(fs, archive, dest)
  {
    if archive.None? {
      return Applied(fs, Fail(BadArchive));
    }
    var es := archive.value;
    var cur := fs;
    var i := 0;
    while i < |es|
      invariant 0 <= i <= |es|
      invariant UnzipEntries(fs, dest, es) == UnzipEntries(cur, dest, es[i..])
    {
      var t := Join(dest, es[i].name);
      if !Contained(dest, t) {
        UnsafeHeadAborts(cur, dest, es[i..]);
        return Applied(cur, Fail(UnsafeArchivePath));
      }
      UnzipHead(cur, dest, es[i..]);
      var m := ExtractOne(cur, t, es[i]);
      if m.outcome.Fail? {
        return m;
      }
      assert es[i..][1..] == es[i + 1..];
      cur := m.fs;
      i := i + 1;
    }
    return Applied(cur, Pass);
  }

  /** One member of the local copy: a directory member gets `MkdirAll` with its error
      ignored; a file member gets its parent created and then its bytes. */
  method ExtractOne(fs: FS, t: Path, e: Entry) returns (r: Applied)
    ensures r == ExtractMember(fs, t, e)
  {
    if e.isDir {
      var made := MkdirAll(fs, t);
      if made.Ok? {
        return Applied(made.value, Pass);
      }
      return Applied(fs, Pass);
    }
    var made := MkdirAll(fs, Parent(t));
    if made.Err? {
      return Applied(fs, Fail(made.error));
    }
    var created := CreateFile(made.value, t, e.data);
    if created.Err? {
      return Applied(made.value, Fail(created.error));
    }
    return Applied(created.value, Pass);
  }

  // ---------------------------------------------------------------------------
  // Dispatch

  datatype InstallKind = RunInstaller | UnpackArchive | UnknownKind

  /** The item type, lower-cased with `strings.ToLower`. */
  function KindOf(kind: string): InstallKind {
    var k := ToLower(kind);
    if k == "installer" then RunInstaller
    else if k == "archive" then UnpackArchive
    else UnknownKind
  }

  /** The runes `unicode.ToLower` maps to the ASCII letter `x`: `x`, its upper case, and
      for `i` and `k` also U+0130 and the Kelvin sign U+212A. */
  predicate FoldsTo(c: char, x: char) {
    c == x || c as int == x as int - 32 || (x == 'i' && c == '\U{130}') || (x == 'k' && c == '\U{212A}')
  }

  lemma LowerRuneFolds(c: char, x: char)
    requires 'a' <= x <= 'z'
    ensures LowerRune(c) == x <==> FoldsTo(c, x)
  {
  }

  /** A word of lower-case ASCII letters is what `ToLower` gives exactly for the strings
      that fold to it rune by rune. */
  lemma ToLowerFolds(s: string, w: string)
    requires forall k :: 0 <= k < |w| ==> 'a' <= w[k] <= 'z'
    ensures ToLower(s) == w <==> |s| == |w| && forall k :: 0 <= k < |w| ==> FoldsTo(s[k], w[k])
  {
    if |s| == |w| {
      forall k | 0 <= k < |w| ensures ToLower(s)[k] == w[k] <==> FoldsTo(s[k], w[k]) {
        LowerRuneFolds(s[k], w[k]);
      }
      if forall k :: 0 <= k < |w| ==> FoldsTo(s[k], w[k]) {
        assert ToLower(s) == w;
      }
    }
  }

  /** The type selects the installer branch exactly for the case-insensitive spellings of
      "installer" (dotted capital I included), the archive branch exactly for those of
      "archive", and every other value is an error. */
  lemma KindSpellings(kind: string)
    ensures KindOf(kind) == RunInstaller <==>
              |kind| == 9 && forall k :: 0 <= k < 9 ==> FoldsTo(kind[k], "installer"[k])
    ensures KindOf(kind) == UnpackArchive <==>
              |kind| == 7 && forall k :: 0 <= k < 7 ==> FoldsTo(kind[k], "archive"[k])
  {
    ToLowerFolds(kind, "installer");
    ToLowerFolds(kind, "archive");
  }

  // ---------------------------------------------------------------------------
  // Menu

  datatype Choice<T> = Exit | Pick(item: T) | Reprompt

  /** One answer to the menu: trimmed "0" leaves, an integer in 1..len picks that item,
      anything else asks again. */
  function MenuChoice<T>(items: seq<T>, line: string): (r: Choice<T>)
    ensures r == Exit <==> TrimSpace(line) == "0"
    ensures r.Pick? <==>
              TrimSpace(line) != "0" && Atoi(TrimSpace(line)).Some? && 1 <= Atoi(TrimSpace(line)).value <= |items|
    ensures r.Pick? ==> r.item == items[Atoi(TrimSpace(line)).value - 1]
  {
    var c := TrimSpace(line);
    if c == "0" then Exit
    else match Atoi(c)
      case Some(n) => if 1 <= n <= |items| then Pick(items[n - 1]) else Reprompt
      case None => Reprompt
  }

  /** Typing the number an item is shown with (and Enter) picks that item. */
  lemma MenuPicksNumberedItem<T>(items: seq<T>, n: int)
    requires 1 <= n <= |items| && n <= MaxInt64
    ensures MenuChoice(items, Itoa(n) + "\n") == Pick(items[n - 1])
  {
    var s := Itoa(n);
    assert s == NatDigits(n);
    assert !IsSpace(s[0]) && !IsSpace(s[|s| - 1]);
    TrimSpaceOfTrimmed(s);
    TrimSpaceDropsTrailingSpace(s, '\n');
    ItoaAtoiRoundTrip(n);
    assert s != "0";
  }

  /** The position of the first answer that does not re-prompt. */
  function FirstDecisive<T>(answers: seq<Choice<T>>): (r: Option<nat>)
    ensures r.None? <==> forall k :: 0 <= k < |answers| ==> answers[k] == Reprompt
    ensures r.Some? ==> r.value < |answers| && answers[r.value] != Reprompt
    ensures r.Some? ==> forall j :: 0 <= j < r.value ==> answers[j] == Reprompt
  {
    if |answers| == 0 then None
    else if answers[0] != Reprompt then Some(0)
    else
      var r := FirstDecisive(answers[1..]);
      assert forall k :: 1 <= k < |answers| ==> answers[k] == answers[1..][k - 1];
      match r
      case None => None
      case Some(k) => Some(k + 1)
  }

  /** The answer each typed line gives. */
  function Answers<T>(items: seq<T>, lines: seq<string>): (r: seq<Choice<T>>)
    ensures |r| == |lines| && forall k :: 0 <= k < |lines| ==> r[k] == MenuChoice(items, lines[k])
  {
    seq(|lines|, k requires 0 <= k < |lines| => MenuChoice(items, lines[k]))
  }

  /** `showInstallMenu` over the lines typed: the first answer that does not re-prompt
      decides; `None` when every line re-prompts (the menu would still be waiting). */
  function ShowInstallMenu<T>(items: seq<T>, lines: seq<string>): (r: Option<Choice<T>>)
    ensures r.None? <==> forall k :: 0 <= k < |lines| ==> Answers(items, lines)[k] == Reprompt
    ensures r.Some? ==> r.value != Reprompt
  {
    var answers := Answers(items, lines);
    match FirstDecisive(answers)
    case None => None
    case Some(k) => Some(answers[k])
  }

  // ---------------------------------------------------------------------------
  // Download and handlers

  /** `downloadResource`: the cache path is the cache directory joined with the URL's base
      name, the same rule the catalog download uses. A URL whose base name is an ordinary
      file name lands directly inside the cleaned cache directory under that name. */
  function ResourcePath(cachePath: string, url: string): (p: Path)
    ensures p == AssetManager.CachePathFor(AssetManager.Config("", cachePath, map[]), AssetManager.AssetInfo(url, "", "", ""))
    ensures var b := Base(url);
            b != "." && b != ".." && b != "\\" ==>
              var dir := Clean(Parse(cachePath));
              p == Path(dir.volume, dir.rooted, dir.segs + [b])
  {
    var b := Base(url);
    if b != "." && b != ".." && b != "\\" then
      JoinName(Parse(cachePath), b);
      Join(Parse(cachePath), b)
    else Join(Parse(cachePath), b)
  }

  /** Runs the downloaded installer with the whitespace fields of the configured arguments. */
  function InstallerCommand(installerPath: Path, installArgs: string): (c: Command)
    ensures c.program == Render(installerPath, "\\")
    ensures c.args == Fields(installArgs)
    ensures Concat(c.args) == Unspaced(installArgs) && forall i :: 0 <= i < |c.args| ==> IsWord(c.args[i])
  {
    FieldsSound(installArgs);
    Command(Render(installerPath, "\\"), Fields(installArgs))
  }

  /** Round trip: arguments written as words separated by single spaces reach the
      installer as exactly those words. */
  lemma InstallerCommandOfWords(installerPath: Path, ws: seq<string>)
    requires forall i :: 0 <= i < |ws| ==> IsWord(ws[i])
    ensures InstallerCommand(installerPath, JoinWith(ws, " ")).args == ws
  {
    FieldsOfJoinedWords(ws);
  }

  /** The command run after unpacking: the first field is the program, the other fields
      its arguments; no command when `runAfter` is empty; an error when it is blank. */
  function RunAfterCommand(runAfter: string): (r: Result<Option<Command>>)
    ensures runAfter == "" ==> r == Ok(None)
    ensures r.Err? <==> runAfter != "" && forall k :: 0 <= k < |runAfter| ==> IsSpace(runAfter[k])
    ensures r.Ok? && r.value.Some? ==> [r.value.value.program] + r.value.value.args == Fields(runAfter)
  {
    FieldsEmptyIffBlank(runAfter);
    if runAfter == "" then Ok(None)
    else
      var parts := Fields(runAfter);
      if |parts| == 0 then Err(InvalidInput("run_after_unpack"))
      else
        assert parts == [parts[0]] + parts[1..];
        Ok(Some(Command(parts[0], parts[1..])))
  }

  /** Round trip: a command line written as words separated by single spaces comes back as
      that program and those arguments. */
  lemma RunAfterOfJoinedWords(program: string, args: seq<string>)
    requires IsWord(program) && forall i :: 0 <= i < |args| ==> IsWord(args[i])
    ensures RunAfterCommand(JoinWith([program] + args, " ")) == Ok(Some(Command(program, args)))
  {
    var ws := [program] + args;
    forall i | 0 <= i < |ws| ensures IsWord(ws[i]) {
      if i > 0 { assert ws[i] == args[i - 1]; }
    }
    FieldsOfJoinedWords(ws);
    var s := JoinWith(ws, " ");
    RunAfterOfFields(s);
    assert ws[0] == program && ws[1..] == args;
  }

  lemma RunAfterOfFields(runAfter: string)
    requires |Fields(runAfter)| > 0
    ensures var f := Fields(runAfter);
            RunAfterCommand(runAfter) == Ok(Some(Command(f[0], f[1..])))
  {
    FieldsEmptyIffBlank(runAfter);
  }

  /** `handleArchive`: create the destination, unpack into it, then run the optional
      command; each failure ends the step. */
  function HandleArchive(fs: FS, decode: Decoder, shell: Shell, archivePath: Path, destPath: string, runAfter: string): (r: Applied)
    ensures r.outcome.Pass? ==> RunAfterCommand(runAfter).Ok?
    ensures r.outcome.Pass? && RunAfterCommand(runAfter).value.Some? ==>
              Succeeded(shell(RunAfterCommand(runAfter).value.value))
  {
    var dest := Parse(destPath);
    match MkdirAll(fs, Clean(dest))
    case Err(e) => Applied(fs, Fail(e))
    case Ok(f1) =>
      var a := Unzip(f1, OpenZip(f1, decode, archivePath), dest);
      if a.outcome.Fail? then a
      else match RunAfterCommand(runAfter)
        case Err(e) => Applied(a.fs, Fail(e))
        case Ok(None) => a
        case Ok(Some(cmd)) =>
          match RunCommand(shell, cmd)
          case Ok(_) => a
          case Err(e) => Applied(a.fs, Fail(e))
  }

  /** One pass of `Run` after the menu: download the item into the cache, then dispatch on
      its lower-cased type. */
  function Install(fs: FS, cachePath: string, reply: AssetManager.HttpReply, decode: Decoder, shell: Shell, item: InstallItem): (r: Applied)
    ensures AssetManager.DownloadHTTP(fs, reply, ResourcePath(cachePath, item.url)).result.Err? ==> r.outcome.Fail?
    ensures KindOf(item.kind) == UnknownKind ==> r.outcome.Fail?
    ensures KindOf(item.kind) == RunInstaller && r.outcome.Pass? ==>
              Succeeded(shell(InstallerCommand(ResourcePath(cachePath, item.url), item.installArgs)))
  {
    var local := ResourcePath(cachePath, item.url);
    var d := AssetManager.DownloadHTTP(fs, reply, local);
    match d.result
    case Err(e) => Applied(d.fs, Fail(e))
    case Ok(_) =>
      match KindOf(item.kind)
      case RunInstaller =>
        (match RunCommand(shell, InstallerCommand(local, item.installArgs))
         case Ok(_) => Applied(d.fs, Pass)
         case Err(e) => Applied(d.fs, Fail(e)))
      case UnpackArchive =>
        HandleArchive(d.fs, decode, shell, local, item.destinationPath, item.runAfterUnpack)
      case UnknownKind => Applied(d.fs, Fail(UnknownArtifactType(item.kind)))
  }
}

=== FILE: vcomcaster.dfy ===
/** The decisions of the VComCaster installer (modules/vcomcaster/vcomcaster.go): which
    COM ports com0com created, which of them the bridge writes to and which one iiko reads,
    how scanners are listed and chosen, and the USB `VID_…&PID_…` identifier taken from a
    scanner's PnP device id. */
module VComCaster {
  import opened Wrappers
  import opened Text
  import opened Sorting
  import opened Selection

  // ---------------------------------------------------------------------------
  // extractDeviceID: (?i)USB\\(VID_[^&]+&PID_[^&\\]+)

  /** `c` matches the pattern character `p` under `(?i)`. Go folds a letter to every rune of
      its simple case-folding orbit, so `S` also matches U+017F and `K` also matches U+212A;
      other characters match only themselves. Pattern letters are written in upper case. */
  predicate FoldEq(c: char, p: char) {
    || c == p
    || ('A' <= p <= 'Z' && c as int == p as int + 32)
    || (p == 'S' && c == 'ſ')
    || (p == 'K' && c == 'K')
  }

  /** The pattern text `pat` matches `s` case-insensitively at `i`. */
  predicate FoldsAt(s: string, i: int, pat: string) {
    0 <= i && i + |pat| <= |s| && forall k :: 0 <= k < |pat| ==> FoldEq(s[i + k], pat[k])
  }

  /** The literal before the capture and the start of the capture. */
  const Head: string := "USB\\VID_"
  /** The literal between the two runs. */
  const Mid: string := "&PID_"

  /** A character of the `[^&\\]` run. */
  predicate PidChar(c: char) { c != '&' && c != '\\' }

  /** A match starting at `i`, whose `&PID_` starts at `j` and whose capture ends at `e`:
      `USB\VID_`, a non-empty run without `&`, `&PID_`, then the longest non-empty run of
      characters other than `&` and `\`. The capture is `s[i + 4..e]`. */
  predicate MatchShape(s: string, i: int, j: int, e: int) {
    && FoldsAt(s, i, Head) && i + |Head| < j && FoldsAt(s, j, Mid)
    && (forall k :: i + |Head| <= k < j ==> s[k] != '&')
    && j + |Mid| < e <= |s| && (forall k :: j + |Mid| <= k < e ==> PidChar(s[k]))
    && (e == |s| || !PidChar(s[e]))
  }

  /** The first `&` at or after `k`. */
  function AmpFrom(s: string, k: nat): (r: Option<nat>)
    requires k <= |s|
    ensures r.Some? ==> k <= r.value < |s| && s[r.value] == '&'
    ensures r.Some? ==> forall m :: k <= m < r.value ==> s[m] != '&'
    ensures r.None? ==> forall m :: k <= m < |s| ==> s[m] != '&'
    decreases |s| - k
  {
    if k == |s| then None else if s[k] == '&' then Some(k) else AmpFrom(s, k + 1)
  }

  /** The end of the longest run of `PidChar`s starting at `k`. */
  function PidEnd(s: string, k: nat): (e: nat)
    requires k <= |s|
    ensures k <= e <= |s| && forall m :: k <= m < e ==> PidChar(s[m])
    ensures e == |s| || !PidChar(s[e])
    decreases |s| - k
  {
    if k == |s| || !PidChar(s[k]) then k else PidEnd(s, k + 1)
  }

  /** Where a match starting at `i` ends. The `[^&]+` run can only stop at the first `&`
      and the greedy last run takes every character it can, so there is at most one. */
  function MatchAt(s: string, i: nat): (r: Option<nat>)
    requires i <= |s|
  {
    if !FoldsAt(s, i, Head) then None
    else match AmpFrom(s, i + |Head|)
      case None => None
      case Some(j) =>
        if j == i + |Head| || !FoldsAt(s, j, Mid) then None
        else
          var e := PidEnd(s, j + |Mid|);
          if e == j + |Mid| then None else Some(e)
  }

  /** What `MatchAt` finds is a match. */
  lemma MatchAtSound(s: string, i: nat)
    requires i <= |s| && MatchAt(s, i).Some?
    ensures i + |Head| <= |s| && AmpFrom(s, i + |Head|).Some?
    ensures MatchShape(s, i, AmpFrom(s, i + |Head|).value, MatchAt(s, i).value)
  {
  }

  /** A match is fixed by where it starts: the `&` is the first one after `USB\VID_` and
      the capture ends where the last run does. */
  lemma MatchFixed(s: string, i: int, j: int, e: int)
    requires MatchShape(s, i, j, e)
    ensures i <= |s| && AmpFrom(s, i + |Head|) == Some(j)
    ensures e == PidEnd(s, j + |Mid|)
    ensures MatchAt(s, i) == Some(e)
  {
    var a := AmpFrom(s, i + |Head|);
    assert s[j] == Mid[0] == '&';
    assert a.Some? ==> s[a.value] == '&';
    var p := PidEnd(s, j + |Mid|);
    assert p < |s| ==> !PidChar(s[p]);
    assert e < |s| ==> !PidChar(s[e]);
  }

  /** The least `k` in `i..n` with `p(k)`. */
  function FirstWhere(p: nat -> bool, i: nat, n: nat): (r: Option<nat>)
    ensures r.Some? ==> i <= r.value <= n && p(r.value)
    ensures r.Some? ==> forall k :: i <= k < r.value ==> !p(k)
    ensures r.None? ==> forall k :: i <= k <= n ==> !p(k)
    decreases n + 1 - i
  {
    if i > n then None
    else if p(i) then Some(i)
    else FirstWhere(p, i + 1, n)
  }

  /** Where the leftmost match starts. */
  function FirstMatch(s: string): (r: Option<nat>)
    ensures r.Some? ==> r.value <= |s| && MatchAt(s, r.value).Some?
    ensures r.Some? ==> forall k :: 0 <= k < r.value ==> MatchAt(s, k).None?
    ensures r.None? ==> forall k :: 0 <= k <= |s| ==> MatchAt(s, k).None?
  {
    var p := (k: nat) => k <= |s| && MatchAt(s, k).Some?;
    assert forall k: nat :: k <= |s| ==> (p(k) <==> MatchAt(s, k).Some?);
    FirstWhere(p, 0, |s|)
  }

  /** Where `MatchAt` finds nothing, no match starts. */
  lemma NoMatchBetween(s: string, lo: int, hi: int)
    requires forall i' :: lo <= i' < hi && 0 <= i' <= |s| ==> MatchAt(s, i').None?
    ensures forall i', j, e :: lo <= i' < hi ==> !MatchShape(s, i', j, e)
  {
    forall i', j, e | lo <= i' < hi ensures !MatchShape(s, i', j, e) {
      if MatchShape(s, i', j, e) {
        MatchFixed(s, i', j, e);
      }
    }
  }

  /** The leftmost match starts at `i`. */
  ghost predicate Leftmost(s: string, i: int, j: int, e: int) {
    MatchShape(s, i, j, e) && forall i', j', e' :: 0 <= i' < i ==> !MatchShape(s, i', j', e')
  }

  /** `extractDeviceID`: the capture of the leftmost match, or "" when there is none. */
  function ExtractDeviceID(pnpDeviceID: string): (r: string)
    ensures |r| <= |pnpDeviceID|
  {
    match FirstMatch(pnpDeviceID)
    case None => []
    case Some(i) =>
      MatchAtSound(pnpDeviceID, i);
      pnpDeviceID[i + 4..MatchAt(pnpDeviceID, i).value]
  }

  /** The identifier is empty exactly when nothing matches, and otherwise it is the capture
      of the leftmost match. */
  lemma ExtractTakesLeftmost(pnpDeviceID: string)
    ensures var r := ExtractDeviceID(pnpDeviceID);
            && (r == [] <==> forall i, j, e :: !MatchShape(pnpDeviceID, i, j, e))
            && (r != [] ==> exists i, j, e :: Leftmost(pnpDeviceID, i, j, e) && r == pnpDeviceID[i + 4..e])
  {
    match FirstMatch(pnpDeviceID)
    case None =>
      NoMatchBetween(pnpDeviceID, 0, |pnpDeviceID| + 1);
      assert forall i, j, e :: !MatchShape(pnpDeviceID, i, j, e);
    case Some(i) =>
      MatchAtSound(pnpDeviceID, i);
      var e := MatchAt(pnpDeviceID, i).value;
      var j := AmpFrom(pnpDeviceID, i + |Head|).value;
      NoMatchBetween(pnpDeviceID, 0, i);
      assert Leftmost(pnpDeviceID, i, j, e);
  }

  lemma BuiltSlice(h: string, vid: string, m: string, pid: string, tail: string)
    requires |h| >= 4
    ensures (h + (vid + (m + (pid + tail))))[4..|h| + |vid| + |m| + |pid|] == h[4..] + vid + m + pid
  {
    var s := h + (vid + (m + (pid + tail)));
    var t := h[4..] + vid + m + pid;
    assert forall k :: 0 <= k < |t| ==> s[4 + k] == t[k];
  }

  /** A match at the very start is the one extracted. */
  lemma ExtractAtStart(s: string, j: int, e: int)
    requires MatchShape(s, 0, j, e)
    ensures ExtractDeviceID(s) == s[4..e]
  {
    MatchFixed(s, 0, j, e);
    assert FirstMatch(s) == Some(0);
  }

  /** An identifier in its usual shape is read back whole: the capture runs from `VID_` to
      the end of the product id, which stops at the next `\` or `&`. */
  lemma ExtractBuiltId(vid: string, pid: string, tail: string)
    requires |vid| > 0 && '&' !in vid
    requires |pid| > 0 && forall k :: 0 <= k < |pid| ==> PidChar(pid[k])
    requires tail == [] || !PidChar(tail[0])
    ensures ExtractDeviceID(Head + (vid + (Mid + (pid + tail)))) == Head[4..] + vid + Mid + pid
  {
    BuiltSlice(Head, vid, Mid, pid, tail);
    BuiltIdShape(vid, pid, tail);
    ExtractAtStart(Head + (vid + (Mid + (pid + tail))), |Head| + |vid|, |Head| + |vid| + |Mid| + |pid|);
  }

  lemma BuiltIdShape(vid: string, pid: string, tail: string)
    requires |vid| > 0 && '&' !in vid
    requires |pid| > 0 && forall k :: 0 <= k < |pid| ==> PidChar(pid[k])
    requires tail == [] || !PidChar(tail[0])
    ensures MatchShape(Head + (vid + (Mid + (pid + tail))), 0, |Head| + |vid|,
                       |Head| + |vid| + |Mid| + |pid|)
  {
    var s := Head + (vid + (Mid + (pid + tail)));
    var j := |Head| + |vid|;
    var e := j + |Mid| + |pid|;
    assert forall k :: 0 <= k < |Head| ==> s[k] == Head[k];
    assert forall k :: |Head| <= k < j ==> s[k] == vid[k - |Head|];
    assert forall k :: 0 <= k < |Mid| ==> s[j + k] == Mid[k];
    assert forall k :: j + |Mid| <= k < e ==> s[k] == pid[k - j - |Mid|];
    assert e < |s| ==> s[e] == tail[0];
  }

  // ---------------------------------------------------------------------------
  // findNewPorts

  /** `findNewPorts`: the ports listed after the install that were not listed before, in
      the order of the later listing, repeats kept. */
  function NewPorts(before: seq<string>, after: seq<string>): (r: seq<string>)
  {
    if |after| == 0 then []
    else
      (if after[0] in before then [] else [after[0]]) + NewPorts(before, after[1..])
  }

  /** A port is new exactly when it is listed after and was not listed before. */
  lemma NewPortsMembers(before: seq<string>, after: seq<string>)
    ensures forall p :: p in NewPorts(before, after) <==> p in after && p !in before
  {
    NewPortsCounts(before, after);
    forall p ensures p in NewPorts(before, after) <==> p in after && p !in before {
      assert p in NewPorts(before, after) <==> p in multiset(NewPorts(before, after));
      assert p in after <==> p in multiset(after);
    }
  }

  /** Every port not listed before keeps all its repeats; the others are dropped. */
  lemma {:induction false} NewPortsCounts(before: seq<string>, after: seq<string>)
    ensures forall p :: multiset(NewPorts(before, after))[p] == if p in before then 0 else multiset(after)[p]
    decreases |after|
  {
    if |after| > 0 {
      NewPortsCounts(before, after[1..]);
      assert after == [after[0]] + after[1..];
    }
  }

  /** The filter keeps the listing order: it works piecewise on a split listing. */
  lemma {:induction false} NewPortsAppend(before: seq<string>, a: seq<string>, b: seq<string>)
    ensures NewPorts(before, a + b) == NewPorts(before, a) + NewPorts(before, b)
    decreases |a|
  {
    if |a| > 0 {
      var h := if a[0] in before then [] else [a[0]];
      assert (a + b)[0] == a[0] && (a + b)[1..] == a[1..] + b;
      assert NewPorts(before, a + b) == h + NewPorts(before, a[1..] + b);
      NewPortsAppend(before, a[1..], b);
      assert NewPorts(before, a) == h + NewPorts(before, a[1..]);
    } else {
      assert a + b == b;
    }
  }

  // ---------------------------------------------------------------------------
  // Port roles

  /** The new ports as the workflow holds them, the port the bridge writes to (`output_port`
      in config.ini) and the port written into iiko's config, when there is one. */
  datatype PortRoles = PortRoles(ports: seq<string>, outputPort: string, iikoPort: Option<string>)

  /** Two or more new ports are sorted (`sort.Strings`); the output port is the first, or ""
      when there are none; iiko gets the second only when there are at least two. */
  function AssignRoles(newPorts: seq<string>): (r: PortRoles)
    ensures multiset(r.ports) == multiset(newPorts) && |r.ports| == |newPorts|
    ensures r.iikoPort.Some? <==> |newPorts| >= 2
    ensures |newPorts| == 0 ==> r.outputPort == ""
    ensures |newPorts| == 1 ==> r.outputPort == newPorts[0]
    ensures |newPorts| >= 2 ==>
              && r.outputPort in newPorts && r.iikoPort.value in newPorts
              && r.outputPort == r.ports[0] && r.iikoPort.value == r.ports[1]
              && (forall k :: 0 <= k < |r.ports| ==> !Less(r.ports[k], r.outputPort))
              && (forall k :: 1 <= k < |r.ports| ==> !Less(r.ports[k], r.iikoPort.value))
  {
    var ports := if |newPorts| < 2 then newPorts else SortStrings(newPorts);
    assert |ports| == |multiset(ports)| == |newPorts|;
    if |ports| >= 2 then
      assert ports[0] in multiset(newPorts) && ports[1] in multiset(newPorts);
      LessIrreflexive(ports[0]);
      LessIrreflexive(ports[1]);
      PortRoles(ports, ports[0], Some(ports[1]))
    else PortRoles(ports, if |ports| > 0 then ports[0] else "", None)
  }

  /** With two or more new ports the roles do not depend on the order Windows listed the
      ports in. */
  lemma RolesIgnoreListingOrder(a: seq<string>, b: seq<string>)
    requires |a| >= 2 && multiset(a) == multiset(b)
    ensures AssignRoles(a) == AssignRoles(b)
  {
    assert |b| == |multiset(b)| == |a|;
    SortedUnique(SortStrings(a), SortStrings(b));
  }

  // ---------------------------------------------------------------------------
  // Scanners

  /** A scanner as `GetScanners` reports it. */
  datatype Scanner = Scanner(caption: string, port: string, pnpDeviceID: string)

  /** The text a scanner is listed with: its caption alone when it already shows the port
      in parentheses, otherwise the caption followed by the port in parentheses. */
  function ScannerLabel(caption: string, port: string): (r: string)
    ensures Contains(r, "(" + port + ")")
    ensures HasPrefix(r, caption)
  {
    var tag := "(" + port + ")";
    if Contains(caption, tag) then caption
    else
      var r := caption + " " + tag;
      assert r[|caption| + 1..|caption| + 1 + |tag|] == tag;
      assert OccursAt(r, tag, |caption| + 1);
      assert r[..|caption|] == caption;
      r
  }

  /** Labelling a label again changes nothing. */
  lemma LabelIdempotent(caption: string, port: string)
    ensures ScannerLabel(ScannerLabel(caption, port), port) == ScannerLabel(caption, port)
  {
  }

  /** The values written into config.ini's `[device]` section, and the iiko port. */
  datatype DeviceSettings = DeviceSettings(
    deviceID: string, inputPort: string, outputPort: string, iikoPort: Option<string>)

  /** The `GetComPorts` listing, with its error ignored as the workflow does. */
  function PortsOrNone(listed: Result<seq<string>>): seq<string> {
    if listed.Ok? then listed.value else []
  }

  /** Steps 2 to 4 of `runInstallWorkflow` once com0com is installed: the new ports get
      their roles; a failed scanner query is returned, no scanner is an error, and the
      typed choice must be a number in `1..|scanners|`; the chosen scanner gives the input
      port and the device id. */
  function InstallSettings(before: Result<seq<string>>, after: Result<seq<string>>,
                           scanners: Result<seq<Scanner>>, line: string): (r: Result<DeviceSettings>)
    ensures scanners.Err? ==> r == Err(scanners.error)
    ensures scanners.Ok? && |scanners.value| == 0 ==> r.Err?
    ensures r.Ok? ==> (scanners.Ok? &&
              exists k :: 0 <= k < |scanners.value| && ChooseNumber(line, 1, |scanners.value|) == Some(k + 1)
                && r.value.inputPort == scanners.value[k].port
                && r.value.deviceID == ExtractDeviceID(scanners.value[k].pnpDeviceID))
    ensures r.Ok? ==> var roles := AssignRoles(NewPorts(PortsOrNone(before), PortsOrNone(after)));
              r.value.outputPort == roles.outputPort && r.value.iikoPort == roles.iikoPort
  {
    var roles := AssignRoles(NewPorts(PortsOrNone(before), PortsOrNone(after)));
    match scanners
    case Err(e) => Err(e)
    case Ok(list) =>
      if |list| == 0 then Err(NothingFound("scanner"))
      else match ChooseNumber(line, 1, |list|)
        case None => Err(InvalidInput("scanner choice"))
        case Some(n) =>
          var sc := list[n - 1];
          Ok(DeviceSettings(ExtractDeviceID(sc.pnpDeviceID), sc.port, roles.outputPort, roles.iikoPort))
  }

  /** Typing a scanner's number picks that scanner. */
  lemma TypedScannerChosen(before: Result<seq<string>>, after: Result<seq<string>>,
                           list: seq<Scanner>, k: nat)
    requires k < |list| && k < MaxInt64
    ensures var r := InstallSettings(before, after, Ok(list), Itoa(k + 1) + "\n");
            r.Ok? && r.value.inputPort == list[k].port
            && r.value.deviceID == ExtractDeviceID(list[k].pnpDeviceID)
  {
    ChooseTypedNumber(k + 1, 1, |list|);
  }
}

=== FILE: winutils.dfy ===
/** The Windows helpers of winutils/utils.go that interpret command output: COM-port
    listing, process lookup, service existence, and the three service/Defender commands.
    Running a program is an oracle (`Shell`): for a command line it yields how the
    process ended and what it printed. */
module WinUtils {
  import opened Wrappers
  import opened Text

  datatype Command = Command(program: string, args: seq<string>)

  /** How `exec.Command(...).CombinedOutput()` ended: the process ran and exited with a
      code (0 is success), or it could not be started. */
  datatype ExecStatus = Exited(code: int) | StartFailed(reason: string)

  datatype Exec = Exec(status: ExecStatus, output: string)

  type Shell = Command -> Exec

  predicate Succeeded(e: Exec) { e.status == Exited(0) }

  /** Go's `%v` of a `[]string`: the elements between brackets, separated by spaces. */
  function FormatArgs(args: seq<string>): string {
    "[" + JoinWith(args, " ") + "]"
  }

  /** Go's `%v` of the error `CombinedOutput` returns. */
  function ExecErrorText(s: ExecStatus): string {
    match s
    case Exited(code) => ExitStatusText(code)
    case StartFailed(reason) => reason
  }

  const TwoTo64: int := 0x1_0000_0000_0000_0000

  /** `ProcessState.String` on Windows: a code that is 65536 or more as an unsigned machine
      word is written as "0x" and lowercase hexadecimal, a smaller one in decimal. */
  function ExitStatusText(code: int): (r: string)
    ensures |r| > 12 && r[..12] == "exit status "
    ensures 0 <= code < 0x1_0000 ==> Atoi(r[12..]) == Some(code)
    ensures !(0 <= code < 0x1_0000) ==>
              |r| > 14 && r[12..14] == "0x" && AllLowerHex(r[14..]) && HexDigitsValue(r[14..]) == code % TwoTo64
  {
    if 0 <= code < 0x1_0000 then
      var r := "exit status " + Itoa(code);
      ItoaAtoiRoundTrip(code);
      assert r[12..] == Itoa(code);
      r
    else
      var h := LowerHex(code % TwoTo64);
      var r := "exit status 0x" + h;
      assert r[14..] == h;
      r
  }

  /** The message `RunCommand` wraps a failure in: program, arguments, the error text and
      the combined output. Only the text survives; the kind of error does not. */
  function FailureMessage(cmd: Command, e: Exec): string {
    "ошибка выполнения '" + cmd.program + " " + FormatArgs(cmd.args) + "': "
      + ExecErrorText(e.status) + ", вывод: " + e.output
  }

  /** `RunCommand`: the trimmed output on success, otherwise an error carrying only the
      formatted message. */
  function RunCommand(shell: Shell, cmd: Command): (r: Result<string>)
    ensures r.Ok? <==> Succeeded(shell(cmd))
    ensures r.Ok? ==> r.value == TrimSpace(shell(cmd).output)
    ensures r.Err? ==> r.error == CommandFailed(FailureMessage(cmd, shell(cmd)))
  {
    var e := shell(cmd);
    if Succeeded(e) then Ok(TrimSpace(e.output)) else Err(CommandFailed(FailureMessage(cmd, e)))
  }

  // ---------------------------------------------------------------------------
  // GetComPorts

  /** `COM` followed by a digit starts at `i` (a match of `COM\d+`). */
  predicate ComAt(s: string, i: int) {
    0 <= i && i + 4 <= |s| && s[i..i + 3] == "COM" && IsDigit(s[i + 3])
  }

  /** `regexp.MatchString("(COM\d+)")`, scanning left to right. */
  function MatchesComPort(s: string): (b: bool)
    decreases |s|
  {
    if |s| < 4 then false
    else (s[..3] == "COM" && IsDigit(s[3])) || MatchesComPort(s[1..])
  }

  /** The scan finds a match exactly when one occurs somewhere in the line. */
  lemma {:induction false} MatchesComPortIff(s: string)
    ensures MatchesComPort(s) <==> exists i :: ComAt(s, i)
    decreases |s|
  {
    if |s| >= 4 {
      MatchesComPortIff(s[1..]);
      if s[..3] == "COM" && IsDigit(s[3]) {
        assert ComAt(s, 0);
      } else if MatchesComPort(s[1..]) {
        var i :| ComAt(s[1..], i);
        assert s[i + 1..i + 4] == s[1..][i..i + 3];
        assert ComAt(s, i + 1);
      }
      if exists i :: ComAt(s, i) {
        var i :| ComAt(s, i);
        if i > 0 {
          assert s[1..][i - 1..i + 2] == s[i..i + 3];
          assert ComAt(s[1..], i - 1);
        }
      }
    }
  }

  /** The lines kept by `GetComPorts`: each line trimmed, kept when it matches. */
  function ComLines(lines: seq<string>): seq<string>
  {
    if |lines| == 0 then [] else KeptLine(lines[0]) + ComLines(lines[1..])
  }

  /** Every kept line is trimmed and contains a port name. */
  lemma {:induction false} ComLinesSound(lines: seq<string>)
    ensures forall k :: 0 <= k < |ComLines(lines)| ==> MatchesComPort(ComLines(lines)[k]) && IsTrimmed(ComLines(lines)[k])
  {
    if |lines| > 0 {
      ComLinesSound(lines[1..]);
      var h, t := KeptLine(lines[0]), ComLines(lines[1..]);
      assert ComLines(lines) == h + t;
      PortLinesAppend(h, t);
    }
  }

  lemma PortLinesAppend(h: seq<string>, t: seq<string>)
    requires |h| <= 1 && (|h| == 1 ==> MatchesComPort(h[0]) && IsTrimmed(h[0]))
    requires forall k :: 0 <= k < |t| ==> MatchesComPort(t[k]) && IsTrimmed(t[k])
    ensures forall k :: 0 <= k < |h + t| ==> MatchesComPort((h + t)[k]) && IsTrimmed((h + t)[k])
  {
    forall k | 0 <= k < |h + t| ensures MatchesComPort((h + t)[k]) && IsTrimmed((h + t)[k]) {
      if k >= |h| { assert (h + t)[k] == t[k - |h|]; }
      else { assert (h + t)[k] == h[0]; }
    }
  }

  /** A single line is kept, trimmed, exactly when it contains a port name. */
  lemma ComLinesOfOne(line: string)
    ensures ComLines([line]) == (if MatchesComPort(TrimSpace(line)) then [TrimSpace(line)] else [])
  {
    assert [line][1..] == [];
  }

  /** One line of the listing: its trimmed form if it matches, otherwise nothing. */
  function KeptLine(line: string): (r: seq<string>)
    ensures |r| <= 1
    ensures |r| == 1 ==> MatchesComPort(r[0]) && IsTrimmed(r[0])
  {
    var t := TrimSpace(line);
    if MatchesComPort(t) then [t] else []
  }

  /** No space at either end. */
  predicate IsTrimmed(s: string) {
    s == [] || (!IsSpace(s[0]) && !IsSpace(s[|s| - 1]))
  }

  /** `ComLines` is a filter: it distributes over concatenation, so it keeps every matching
      trimmed line, in order, and nothing else. */
  lemma {:induction false} ComLinesAppend(a: seq<string>, b: seq<string>)
    ensures ComLines(a + b) == ComLines(a) + ComLines(b)
    decreases |a|
  {
    if |a| == 0 {
      assert a + b == b;
    } else {
      assert (a + b)[0] == a[0];
      assert (a + b)[1..] == a[1..] + b;
      ComLinesAppend(a[1..], b);
      assert ComLines(a + b) == KeptLine(a[0]) + ComLines(a[1..] + b);
      ConcatAssoc(KeptLine(a[0]), ComLines(a[1..]), ComLines(b));
    }
  }

  /** `GetComPorts`: `wmic path Win32_SerialPort get DeviceID`, then the matching lines. */
  function GetComPorts(shell: Shell): (r: Result<seq<string>>)
    ensures r.Ok? <==> Succeeded(shell(ComPortsCommand))
    ensures r.Ok? ==> r.value == ComLines(Split(TrimSpace(shell(ComPortsCommand).output), '\n'))
  {
    var out :- RunCommand(shell, ComPortsCommand);
    Ok(ComLines(Split(out, '\n')))
  }

  const ComPortsCommand := Command("wmic", ["path", "Win32_SerialPort", "get", "DeviceID"])

  // ---------------------------------------------------------------------------
  // IsProcessRunning

  /** A CSV record whose first field (the image name) starts with `name`, ignoring case. */
  predicate ImageMatches(rec: seq<string>, name: string) {
    |rec| > 0 && HasPrefix(ToLower(rec[0]), ToLower(name))
  }

  /** The search over the records of `tasklist /NH /FO CSV`. */
  function AnyImageMatches(records: seq<seq<string>>, name: string): (b: bool)
    ensures b <==> exists i :: 0 <= i < |records| && ImageMatches(records[i], name)
  {
    if |records| == 0 then false
    else if ImageMatches(records[0], name) then true
    else
      var b := AnyImageMatches(records[1..], name);
      assert forall i :: 1 <= i < |records| ==> records[i] == records[1..][i - 1];
      b
  }

  const TasklistCommand := Command("tasklist", ["/NH", "/FO", "CSV"])

  /** `IsProcessRunning`: the listing must run and parse as CSV (`parseCsv` is the CSV
      reader); then any record whose image name starts with `name` case-insensitively. */
  function IsProcessRunning(shell: Shell, parseCsv: string -> Option<seq<seq<string>>>, name: string): (r: Result<bool>)
    ensures r.Ok? <==> Succeeded(shell(TasklistCommand)) && parseCsv(TrimSpace(shell(TasklistCommand).output)).Some?
    ensures r == Ok(true) <==>
              && r.Ok?
              && var recs := parseCsv(TrimSpace(shell(TasklistCommand).output)).value;
                 exists i :: 0 <= i < |recs| && ImageMatches(recs[i], name)
  {
    var out :- RunCommand(shell, TasklistCommand);
    match parseCsv(out)
    case None => Err(InvalidInput("tasklist CSV"))
    case Some(records) => Ok(AnyImageMatches(records, name))
  }

  // ---------------------------------------------------------------------------
  // Services and Defender

  /** The text Go would search in `ServiceExists`: the whole wrapped error message. */
  predicate MeansNoSuchService(msg: string) {
    Contains(msg, "does not exist") || Contains(msg, "1060")
  }

  /** `ServiceExists`: `sc.exe query name` succeeding means yes; a failure whose message
      mentions "does not exist" or "1060" means no; any other failure is an error. */
  function ServiceExists(shell: Shell, name: string): (r: Result<bool>)
    ensures var cmd := Command("sc.exe", ["query", name]);
            && (r == Ok(true) <==> Succeeded(shell(cmd)))
            && (r == Ok(false) <==> !Succeeded(shell(cmd)) && MeansNoSuchService(FailureMessage(cmd, shell(cmd))))
  {
    var cmd := Command("sc.exe", ["query", name]);
    match RunCommand(shell, cmd)
    case Ok(_) => Ok(true)
    case Err(e) =>
      if MeansNoSuchService(e.text) then Ok(false) else Err(CommandFailed(e.text))
  }

  /** An `sc query` that ends with code 0x11060 is reported as a missing service, because
      the hexadecimal exit status "0x11060" contains "1060". */
  lemma HexExitCodeMeansMissing(shell: Shell, name: string)
    requires shell(Command("sc.exe", ["query", name])).status == Exited(0x11060)
    ensures ServiceExists(shell, name) == Ok(false)
  {
    var cmd := Command("sc.exe", ["query", name]);
    var e := shell(cmd);
    HexStatusMentions1060();
    var a := "ошибка выполнения '" + cmd.program + " " + FormatArgs(cmd.args) + "': ";
    ContainsInside(a, ExitStatusText(0x11060), ", вывод: " + e.output, "1060");
    assert FailureMessage(cmd, e) == a + ExitStatusText(0x11060) + (", вывод: " + e.output);
  }

  lemma HexStatusMentions1060()
    ensures Contains(ExitStatusText(0x11060), "1060")
  {
    StatusOf11060();
    assert OccursAt("1060", "1060", 0);
    ContainsInside("exit status 0x1", "1060", "", "1060");
  }

  lemma StatusOf11060()
    ensures ExitStatusText(0x11060) == "exit status 0x1" + "1060" + ""
  {
    HexOf11060();
    assert 0x11060 % TwoTo64 == 0x11060;
    assert "exit status 0x" + "11060" == "exit status 0x1" + "1060" + "";
  }

  lemma HexOf11060()
    ensures LowerHex(0x11060) == "11060"
  {
    assert LowerHex(0x1) == "1";
    assert LowerHex(0x11) == "11";
    assert LowerHex(0x110) == "110";
    assert LowerHex(0x1106) == "1106";
  }

  /** A service whose name itself contains "1060" is reported missing whenever
      `sc query` fails for it, because the name is part of the message searched. */
  lemma ServiceNameCanMaskErrors(shell: Shell, name: string)
    requires Contains(name, "1060")
    ensures ServiceExists(shell, name).Ok?
  {
    var cmd := Command("sc.exe", ["query", name]);
    var e := shell(cmd);
    if !Succeeded(e) {
      QueryArgsShowName(name);
      ContainsInside("[query ", name, "]", "1060");
      MessageShowsArgs(cmd, e, "1060");
    }
  }

  /** `%v` of the `sc query` arguments is the name between "[query " and "]". */
  lemma QueryArgsShowName(name: string)
    ensures FormatArgs(["query", name]) == "[query " + name + "]"
  {
    var args := ["query", name];
    assert args[1..] == [name];
    assert JoinWith(args, " ") == "query" + " " + name;
  }

  /** Whatever the formatted arguments contain, the failure message contains too. */
  lemma MessageShowsArgs(cmd: Command, e: Exec, t: string)
    requires Contains(FormatArgs(cmd.args), t)
    ensures Contains(FailureMessage(cmd, e), t)
  {
    var a := "ошибка выполнения '" + cmd.program + " ";
    var c := "': " + ExecErrorText(e.status) + ", вывод: " + e.output;
    ContainsInside(a, FormatArgs(cmd.args), c, t);
    assert FailureMessage(cmd, e) == a + FormatArgs(cmd.args) + c;
  }

  /** A string found in the middle part is found in the whole. */
  lemma ContainsInside(a: string, b: string, c: string, t: string)
    requires Contains(b, t)
    ensures Contains(a + b + c, t)
  {
    var i :| 0 <= i <= |b| - |t| && OccursAt(b, t, i);
    var s := a + b + c;
    assert s[|a| + i..|a| + i + |t|] == b[i..i + |t|];
    assert OccursAt(s, t, |a| + i);
  }

  /** A command that was issued and the error it was reported as. */
  datatype Issued = Issued(cmd: Command, outcome: Outcome)

  /** `ManageService`: `sc.exe action name`, and success whatever the command did. */
  function ManageService(shell: Shell, action: string, name: string): (r: Issued)
    ensures r.cmd == Command("sc.exe", [action, name])
    ensures r.outcome == Pass
  {
    var cmd := Command("sc.exe", [action, name]);
    var _ := RunCommand(shell, cmd);
    Issued(cmd, Pass)
  }

  /** The PowerShell statement `AddDefenderExclusion` runs: the path in single quotes. */
  function ExclusionStatement(path: string): string {
    "Add-MpPreference -ExclusionPath '" + path + "'"
  }

  /** `AddDefenderExclusion`: runs the statement through PowerShell and succeeds whatever it did. */
  function AddDefenderExclusion(shell: Shell, path: string): (r: Issued)
    ensures r.cmd == Command("powershell", ["-NoProfile", "-Command", ExclusionStatement(path)])
    ensures r.outcome == Pass
  {
    var cmd := Command("powershell", ["-NoProfile", "-Command", ExclusionStatement(path)]);
    var _ := RunCommand(shell, cmd);
    Issued(cmd, Pass)
  }

  /** The text of the first single-quoted literal in `s` (up to the next quote or the end). */
  function FirstQuoted(s: string): string {
    var i := IndexOf(s, '\'');
    if i == |s| then [] else UpTo(s[i + 1..], '\'')
  }

  function IndexOf(s: string, c: char): (i: nat)
    ensures i <= |s| && c !in s[..i] && (i < |s| ==> s[i] == c)
  {
    if |s| == 0 || s[0] == c then 0 else 1 + IndexOf(s[1..], c)
  }

  function UpTo(s: string, c: char): string {
    s[..IndexOf(s, c)]
  }

  /** The quoted literal carries exactly the path if and only if the path has no single
      quote: a quote in the path ends the literal early and the rest is read as PowerShell. */
  lemma ExclusionQuoting(path: string)
    ensures FirstQuoted(ExclusionStatement(path)) == path <==> '\'' !in path
  {
    var pre := "Add-MpPreference -ExclusionPath '";
    var s := ExclusionStatement(path);
    assert '\'' !in pre[..|pre| - 1];
    IndexOfAfter(pre[..|pre| - 1], '\'', "'" + path + "'");
    assert s == pre[..|pre| - 1] + ("'" + path + "'");
    assert s[|pre|..] == path + "'";
    var j := IndexOf(path + "'", '\'');
    if '\'' in path {
      var k :| 0 <= k < |path| && path[k] == '\'';
      assert (path + "'")[k] == '\'';
      assert j <= k;
    } else {
      assert j == |path| by {
        assert '\'' !in (path + "'")[..|path|];
      }
      assert (path + "'")[..|path|] == path;
    }
  }

  lemma {:induction false} IndexOfAfter(a: string, c: char, b: string)
    requires c !in a
    ensures IndexOf(a + b, c) == |a| + IndexOf(b, c)
    decreases |a|
  {
    if |a| == 0 {
      assert a + b == b;
    } else {
      assert (a + b)[1..] == a[1..] + b;
      assert c !in a[1..];
      IndexOfAfter(a[1..], c, b);
    }
  }

  /** The command `SetServiceTriggers` issues: `sc.exe triggerinfo name` and the triggers. */
  function TriggersCommand(name: string, triggers: seq<string>): (c: Command)
    ensures c.program == "sc.exe" && |c.args| == 2 + |triggers|
    ensures c.args[0] == "triggerinfo" && c.args[1] == name && c.args[2..] == triggers
  {
    Command("sc.exe", ["triggerinfo", name] + triggers)
  }

  /** `SetServiceTriggers`: the only helper of the three whose failure is reported. */
  function SetServiceTriggers(shell: Shell, name: string, triggers: seq<string>): (r: Outcome)
    ensures r.Pass? <==> Succeeded(shell(TriggersCommand(name, triggers)))
  {
    match RunCommand(shell, TriggersCommand(name, triggers))
    case Ok(_) => Pass
    case Err(e) => Fail(e)
  }
}

=== FILE: wrappers.dfy ===
/** Failure-carrying datatypes shared by every module of the model. */
module Wrappers {

  datatype Option<+T> = None | Some(value: T)

  /** The error kinds the tool reports. Go formats each as a message; the model keeps the kind
      and the identifier the message carries. */
  datatype Error =
    | AssetNotFound(name: string)
    | UnknownTransport(transport: string)
    | UnknownArtifactType(kind: string)
    | NetworkError(detail: string)
    | UnsafeArchivePath
    | ArchiveMemberNotFound(member: string)
    | FilesystemError(detail: string)
    | BadArchive
    | NoFreePort
    | InvalidInput(detail: string)
    | CommandFailed(text: string)
    | NothingFound(what: string)
    | RuntimePanic(reason: string)  // a Go panic: no error value, it unwinds and ends the program

  datatype Result<+T> = Ok(value: T) | Err(error: Error) {
    predicate IsFailure() { Err? }
    function PropagateFailure<U>(): Result<U>
      requires Err?
    {
      Err(error)
    }
    function Extract(): T
      requires Ok?
    {
      value
    }
  }

  /** An operation that produces no value, only success or an error (Go's bare `error`). */
  datatype Outcome = Pass | Fail(error: Error) {
    predicate IsFailure() { Fail? }
    function PropagateFailure(): Outcome
      requires Fail?
    {
      this
    }
  }
}
